=== FILE: README.md ===
# Site back end: a Dafny model

This project models the Cloudflare Worker behind a small company website. The
Worker exposes a product catalogue, blog posts, key/value site settings and
image uploads. All of it is stored in a D1 (SQLite) database and an R2 object
bucket.

The model covers the shared helpers of `worker/src/utils.ts` and the D1 wrappers
and paginator of `worker/src/db.ts`. It also covers the four route files
`products.ts`, `posts.ts`, `settings.ts` and `upload.ts`. Each route handler is a
pure function from the current tables, the request and what the store does to a
response envelope and the new tables.

The modules follow the source:

- `Wrappers` holds `Option` and `Result`.
- `JsText` covers the JavaScript string and number primitives the handlers rely
  on: `toLowerCase`, `trim`, `split`, `join`, `parseInt`, `Math.max`/`Math.min`
  with NaN, and decimal printing.
- `Slug` is `generateSlug`.
- `Utils` holds the rest of `utils.ts`.
- `Db` covers `queryDB`, `queryOneDB`, `executeDB` and `getPaginatedData`.
- `Table` holds what the product and post routes share: rows addressed by id or
  slug, and `.first()` picking the smallest id.
- One module per route file.

How the model represents the store and the environment:

- **Database calls.** Each call takes an injected fault as input (`None`, an
  `Error` with a message, or some other thrown value). The wrappers turn that
  fault into the `{success, error}` result the handlers branch on.
- **Tables.** A table is a map from row id to row. The settings table is a
  sequence in rowid order.
- **Listings.** Listing rows come already in ORDER BY order.
- **Statements.** SQL statements are kept as text plus bound values, so the model
  can say whether every `?` gets exactly one value.
- **Numbers.** A product's price is a JavaScript number. It is kept as the exact
  rational value of the double, and no handler does arithmetic on it.
- **Environment inputs.** `Date.now()`, the `Math.random()` draws, the new row
  ids and `ACCOUNT_ID` are parameters.

## Model

| member | source | states |
|---|---|---|
| Slug.SlugIsWellFormed | worker/src/utils.ts:106-113 | Every slug uses only `a-z`, `0-9` and `-`, with no leading, trailing or doubled hyphen. |
| Slug.SlugKeepsAlnums | worker/src/utils.ts:106-113 | The slug keeps exactly the ASCII letters and digits of the lower-cased input, in their order. |
| Slug.SlugEmptyIff | worker/src/utils.ts:106-113 | The slug is empty exactly when the input has no ASCII letter or digit, for example a title that is all punctuation or all CJK. U+212A and U+0130 are exceptions; see "## Left out". |
| Slug.SlugFixesSlug | worker/src/utils.ts:106-113 | Slugging a well-formed slug returns it unchanged. |
| Slug.SlugIdempotent | worker/src/utils.ts:106-113 | `generateSlug(generateSlug(x)) == generateSlug(x)`. |
| Utils.CreateResponse | worker/src/utils.ts:163-175 | `data` appears only on success and when given. `error` appears only on failure and when non-empty. `success` is copied. |
| Utils.CreateResponseIgnoresStatus | worker/src/utils.ts:163 | The `status` argument never changes the envelope. |
| Utils.OrElse | worker/src/utils.ts:181-182 | `v \|\| fallback` for a query value: undefined and `""` give the fallback, any other string is kept. |
| Utils.NormalizePagination | worker/src/utils.ts:180-184 | A parsed page below 1, negative ones included, becomes 1, and a larger one is kept. A parsed size below 1 becomes 1, one above 100 becomes 100, and one in between is kept. A value with no leading digits stays NaN. |
| Utils.NormalizePaginationDefaults | worker/src/utils.ts:181-182 | Missing or empty parameters give page 1 of size 20. |
| Utils.NormalizePaginationDecimal | worker/src/utils.ts:180-184 | A decimal page below 1 becomes 1. A decimal size is clamped into [1, 100]. |
| Utils.NormalizePaginationNaN | worker/src/utils.ts:181-182 | `page=abc` or `pageSize=all` gives NaN rather than a clamped number. |
| Utils.ValidateFileTypeIff | worker/src/utils.ts:121-134 | The check passes exactly when the MIME type is listed (case-sensitively) and the lower-cased name ends in a listed extension. |
| Utils.NoDotRejected | worker/src/utils.ts:131-133 | A file name without a dot is always rejected. |
| Utils.FileSizeBoundary | worker/src/utils.ts:142-144 | The 5 MiB bound is inclusive: 5242880 passes and 5242881 fails. |
| Utils.RandomString | worker/src/utils.ts:151-158 | One character per draw, each an ASCII letter or digit: draw `k` picks the `k`-th of `A-Z a-z 0-9`. |
| Utils.RandomStringOnto | worker/src/utils.ts:152-156 | Every string of ASCII letters and digits is some sequence of draws' result, so the alphabet is exactly `[A-Za-z0-9]`. |
| JsText.ParseIntDecimal | worker/src/utils.ts:181-182 | `parseInt` reads back the decimal spelling of every natural number. |
| JsText.JoinSplit | worker/src/routes/settings.ts:25 | Joining the pieces of `split(',')` with `,` gives back the original string. |
| JsText.SplitJoin | worker/src/routes/settings.ts:25 | Splitting a comma-join of comma-free pieces gives back the pieces. |
| Db.Catch | worker/src/db.ts:30-36 | A returned value is a success. A thrown `Error` becomes its own message. Any other thrown value becomes the fallback message. |
| Db.WrappersNeverThrow | worker/src/db.ts:20-88 | The wrappers fail exactly when the call throws. Their fallbacks are `Database query failed` and `Database execute failed`, and an `Error`'s message passes through. |
| Db.CeilDiv | worker/src/db.ts:138 | `totalPages` is the least `q` with `total <= q * pageSize`. |
| Db.Window | worker/src/db.ts:122 | `LIMIT n OFFSET o` returns `min(n, rows - max(o, 0))` rows starting at `max(o, 0)`; a negative offset acts as 0. |
| Db.FilterMembers | worker/src/db.ts:112 | A row is counted and listed exactly when it is in the table and satisfies the WHERE clause. |
| Db.HasNextIffNotLast | worker/src/db.ts:137-140 | For a real page number, `hasNext` holds exactly when the page is before `totalPages`. |
| Db.PagesFromSuffix | worker/src/db.ts:109-128 | Pages `first` to `totalPages`, concatenated, are the rows from offset `(first - 1) * pageSize` on. |
| Db.PagesCoverRows | worker/src/db.ts:109-128 | Pages 1 to `totalPages` hand out every selected row exactly once and in order. |
| Db.Paginate | worker/src/db.ts:100-143 | The count is issued first and a failed count stops the listing. The page statement binds the WHERE values and then `[pageSize, offset]`. On success the items are the window at the offset and the metadata comes from the count. |
| Db.GetPaginatedData | worker/src/db.ts:112-124 | As written, the count binds nothing and the page query binds only `[pageSize, offset]`. |
| Db.GetPaginatedDataBound | worker/src/db.ts:112-124 | The corrected paginator binds the WHERE values ahead of `[pageSize, offset]` in both statements. |
| Db.PageLength | worker/src/db.ts:120-133 | A page holds `min(pageSize, max(0, total - offset))` rows, and each of them is a table row the WHERE clause selects. |
| Db.PaginateWellBound | worker/src/db.ts:112-124 | Both statements are well bound exactly when the WHERE text has one `?` per value passed for it. |
| Db.UnboundWhereMisbinds | worker/src/db.ts:112-124 | As written, a WHERE clause with a `?` leaves both statements misbound, and the page size lands on the first WHERE placeholder. |
| Db.GetPaginatedDataDefaults | worker/src/db.ts:103-106 | The defaults are page 1 of 20, `1=1` and `created_at DESC`. The page is then the first 20 rows. |
| Db.FilterAll | worker/src/db.ts:105 | `1=1` selects every row. |
| Table.FirstKey | worker/src/routes/products.ts:88-92 | `.first()` returns None exactly when no row matches; otherwise it returns the matching row with the smallest id. |
| Table.IdKey | worker/src/routes/products.ts:85-86 | A parameter addresses the id column exactly when it is a digit string, and then addresses a non-negative id. |
| Table.IdKeyDecimal | worker/src/routes/products.ts:85-86 | The decimal spelling of an id addresses that id. |
| Table.SlugOwner | worker/src/routes/products.ts:131-142 | The slug check finds a row exactly when another row (optionally other than the given one) already holds the slug. |
| Products.BuildFilter | worker/src/routes/products.ts:24-42 | The conditions start with `status = ?` and `1`, bound to `active`. A non-empty `q` adds the name/summary LIKE pair with `%q%` twice. A non-empty category adds `category = ?`. |
| Products.FilterPlaceholders | worker/src/routes/products.ts:28-42 | The WHERE text has exactly one `?` per value the handler collects. |
| Products.NormalizedIsNumericPaging | worker/src/routes/products.ts:19-22 | Numeric query values always normalise into page >= 1 and size in [1, 100]. |
| Products.ListingDropsParams | worker/src/routes/products.ts:45-52 | As written, neither listing statement is well bound, and the page size is bound to `status = ?`. |
| Products.ListProducts | worker/src/routes/products.ts:17-74 | The corrected listing of the first finding below, with the filter values bound: it answers 200 with a page exactly when neither query fails, and 500 otherwise. The page holds the active rows matching the search and category, windowed at `(page - 1) * pageSize`, and its metadata is computed from the number of matching rows. |
| Products.ListProductsSound | worker/src/routes/products.ts:24-52 | With the values bound, both statements are well bound, and every listed product is an active table row matching the search and category. |
| Products.Lookup | worker/src/routes/products.ts:85-92 | Only active products are found. A digit string is looked up as an id, anything else as the slug of the active product with the smallest id. |
| Products.GetProduct | worker/src/routes/products.ts:80-115 | A failed query gives 500 with its message. A missing or inactive product gives 404. Otherwise the response is 200 with the stored row. |
| Products.DigitSlugIsShadowed | worker/src/routes/products.ts:85-86 | A product whose slug is a digit string cannot be reached by that slug unless the digits are its own id. |
| Products.LookupOnlyActive | worker/src/routes/products.ts:88-100 | GET never returns a product that is not active. |
| Products.NewProduct | worker/src/routes/products.ts:145-161 | The stored row takes the defaults for falsy fields: empty text, price 0 and featured 0. `images` and `specs` store the JSON of a truthy value, and `[]` or `{}` for a missing or falsy one (`null`, `""`, `0`, `false`). Its status is always `active`. |
| Products.CreateProduct | worker/src/routes/products.ts:121-190 | A falsy name gives 400. A taken slug gives 400 when the check answers. Otherwise the row is inserted unless the insert fails, and the answer is 201 with the new row only if the reread also succeeds. |
| Products.CreateKeepsSlugsUnique | worker/src/routes/products.ts:131-161 | When the existence check answers, a create keeps slugs unique. |
| Products.CheckFaultAdmitsDuplicate | worker/src/routes/products.ts:131-161 | A failed existence check does not stop the insert, so two products can end up sharing a slug. |
| Products.PunctuationNameGetsEmptySlug | worker/src/routes/products.ts:126-161 | A non-empty name with no ASCII letter or digit is accepted and stored under the empty slug. |
| Products.Merge | worker/src/routes/products.ts:237-262 | Every field the body omits keeps its stored value. A supplied name, status or featured flag replaces it, and supplied images or specs are stored as their JSON. The slug is only written with a truthy name. |
| Products.MergeWritesSupplied | worker/src/routes/products.ts:237-262 | A summary, description, price or category the body supplies replaces the stored value, `""` and `0` included, since COALESCE falls back only on NULL. |
| Products.UpdateProduct | worker/src/routes/products.ts:196-292 | A failed lookup gives 500 and a missing row 404. A rename onto another row's slug gives 400. Otherwise the update goes ahead, also when the collision check itself fails. A failed write gives 500 with no change. After the write, the addressed row is its COALESCE merge and nothing else changes, and the answer is 200 with that row unless the reread fails (500). |
| Products.SlugChangesOnlyOnRename | worker/src/routes/products.ts:218-232 | A stored slug changes only when the body carries a new, truthy name. |
| Products.UpdateKeepsSlugsUnique | worker/src/routes/products.ts:218-263 | When the collision check answers, an update keeps slugs unique. |
| Products.UpdateIdempotent | worker/src/routes/products.ts:235-263 | Repeating a successful update leaves the table unchanged. |
| Products.DeleteProduct | worker/src/routes/products.ts:298-334 | The answer is 200 exactly when the lookup succeeds, the row exists and the delete succeeds; then exactly that row is removed. Any other answer leaves the table unchanged. |
| Products.DeleteUndoesCreate | worker/src/routes/products.ts:121-190 | Deleting a newly created product by its id restores the table. |
| Posts.ListStatus | worker/src/routes/posts.ts:24 | The status filter is the query's non-empty `status`, else `published`. |
| Posts.ListingDropsStatus | worker/src/routes/posts.ts:28-38 | As written, the status value is never bound: both statements are misbound, and the page size lands on `status = ?`. |
| Posts.ListPosts | worker/src/routes/posts.ts:17-50 | The corrected listing of the second finding below, with the status bound: it answers 200 exactly when neither query fails, and 500 otherwise. The page holds the posts with the requested status, windowed at `(page - 1) * pageSize`, and its metadata is computed from the number of such posts. |
| Posts.ListPostsSound | worker/src/routes/posts.ts:24-38 | With the status bound, both statements are well bound and every listed post has the requested status. |
| Posts.Lookup | worker/src/routes/posts.ts:61-68 | Only published posts are found, by id for a digit string and by slug otherwise. |
| Posts.GetPost | worker/src/routes/posts.ts:56-84 | A failed query gives 500. A missing or unpublished post gives 404. Otherwise the response is 200 with the stored row. |
| Posts.NewPost | worker/src/routes/posts.ts:114-127 | Falsy fields get the defaults: empty summary and content, author `Admin`, status `published` and featured 0. |
| Posts.CreatePost | worker/src/routes/posts.ts:90-150 | A falsy title gives 400. A taken slug gives 400 when the check answers. Otherwise the row is inserted unless the insert fails, and a 201 needs the reread too. |
| Posts.CreatedPostVisibility | worker/src/routes/posts.ts:61-76 | A created post is readable by its id exactly when its status is `published`, whether given or defaulted. |
| Posts.CreateKeepsSlugsUnique | worker/src/routes/posts.ts:100-127 | When the existence check answers, a create keeps slugs unique. |
| Posts.Merge | worker/src/routes/posts.ts:195-217 | Every field the body omits keeps its stored value, and every field it gives replaces it. The slug is only written with a truthy title. |
| Posts.UpdatePost | worker/src/routes/posts.ts:156-240 | Gives 500 or 404 on the lookup and 400 on a retitle collision. Otherwise the update goes ahead, also when the collision check itself fails. A failed write gives 500 with no change. After the write, the addressed row is its merge and nothing else changes, and the answer is 200 with that row unless the reread fails (500). |
| Posts.SlugChangesOnlyOnRetitle | worker/src/routes/posts.ts:178-192 | A stored slug changes only when the body carries a new, truthy title. |
| Posts.UpdateKeepsSlugsUnique | worker/src/routes/posts.ts:178-217 | When the collision check answers, an update keeps slugs unique. |
| Posts.UpdateIdempotent | worker/src/routes/posts.ts:195-217 | Repeating a successful update leaves the table unchanged. |
| Posts.DeletePost | worker/src/routes/posts.ts:246-282 | The answer is 200 exactly when the lookup succeeds, the row exists and the delete succeeds. Then the addressed row goes and every other row stays as it was; any other answer changes nothing. |
| Posts.DeleteUndoesCreate | worker/src/routes/posts.ts:90-150 | Deleting a newly created post by its id restores the table. |
| Settings.FirstRow | worker/src/routes/settings.ts:62-66 | `.first()` on a key gives None exactly when no row has the key, and otherwise the earliest such row. |
| Settings.AppendFirstRow | worker/src/routes/settings.ts:126-130 | An insert leaves the first row of every key that already existed unchanged. |
| Settings.KeyList | worker/src/routes/settings.ts:25 | One key per comma-separated piece, each trimmed. |
| Settings.KeyListRoundTrip | worker/src/routes/settings.ts:25 | A comma-join of trimmed, comma-free keys parses back to those keys. |
| Settings.KeyListLength | worker/src/routes/settings.ts:25 | There is one key more than there are commas. |
| Settings.SettingsStatement | worker/src/routes/settings.ts:21-29 | With no `keys` the statement selects every row and binds nothing. Otherwise it binds the key list, in order. |
| Settings.SettingsStatementWellBound | worker/src/routes/settings.ts:24-29 | The IN list has exactly one placeholder per key, so the statement is always well bound. |
| Settings.FoldRowsKeys | worker/src/routes/settings.ts:38-44 | The object has an entry for exactly the keys that occur in the rows. |
| Settings.FoldRowsLastWins | worker/src/routes/settings.ts:38-44 | On a repeated key, the later row's value and description win. |
| Settings.GetSettings | worker/src/routes/settings.ts:17-52 | A failed query gives 500 with its message. Otherwise the response is 200 with the fold of the selected rows. |
| Settings.FilterKeepsKeysUnique | worker/src/routes/settings.ts:24-31 | Selecting rows keeps keys unique. |
| Settings.GetSettingsContents | worker/src/routes/settings.ts:17-46 | With unique keys, GET / reports exactly the requested keys that exist, each with its stored value and description. |
| Settings.GetSetting | worker/src/routes/settings.ts:58-86 | A failed query gives 500. A missing key gives 404. Otherwise the response is 200 with the key and the stored value and description of its first row. |
| Settings.SetRows | worker/src/routes/settings.ts:115-119 | The UPDATE rewrites every row with the key, sets the value and keeps the description unless one is given, and leaves every other row untouched. |
| Settings.SetRowsValues | worker/src/routes/settings.ts:113-123 | After the UPDATE the key reads the new value and every other key reads as before. |
| Settings.AppendValues | worker/src/routes/settings.ts:124-135 | After the INSERT of a new key, that key reads the inserted value and every other key reads as before. |
| Settings.PutSetting | worker/src/routes/settings.ts:92-158 | A missing value gives 400 and a failed check gives 500, both with no change. A write that succeeds sets the key's value, leaves every other key's rows and values alone, and adds at most one row: the key's, with `description \|\| ''`, when the key was absent. A 200 needs the reread too and reports the value and the resulting description. |
| Settings.PutThenGet | worker/src/routes/settings.ts:92-158 | What a successful PUT /:key answers is what GET /:key then reads. |
| Settings.PutKeepsKeysUnique | worker/src/routes/settings.ts:103-135 | A PUT never creates a second row for a key. |
| Settings.PutIdempotent | worker/src/routes/settings.ts:113-135 | Repeating a successful PUT leaves the table unchanged. |
| Settings.ProcessEntry | worker/src/routes/settings.ts:179-220 | A clean entry is reported as updated and the key then reads the value. For an existing key, every row with the key takes the value and keeps its description, and no row is added. A new key gets exactly one row, with no description. A failing entry adds one error and changes nothing. Other keys never change. |
| Settings.BatchKeepsKeysUnique | worker/src/routes/settings.ts:178-221 | The batch PUT never creates a second row for a key, whichever entries fail. |
| Settings.RunBatch | worker/src/routes/settings.ts:174-221 | Each entry is counted once, as updated or as an error. There are no errors exactly when every entry is clean, and then the updated list is the entries in order. |
| Settings.BatchPut | worker/src/routes/settings.ts:165-236 | A body without a settings object gives 400. Otherwise the answer is 200 exactly when every entry goes through, with the entries and `<n> settings updated successfully`, and 500 otherwise. |
| Settings.RunBatchElsewhere | worker/src/routes/settings.ts:178-221 | Entries for other keys leave a key's value alone. |
| Settings.RunBatchKeepsWrite | worker/src/routes/settings.ts:178-221 | An entry that went through keeps its value after the loop unless a later entry has the same key. |
| Settings.BatchNotAtomic | worker/src/routes/settings.ts:178-230 | When one entry fails the answer is 500, yet the writes of the entries that went through stay. |
| Upload.Extension | worker/src/routes/upload.ts:37 | The suffix is the file name's ending from its last dot. It has exactly one dot, or is the whole name when there is no dot. |
| Upload.ExtensionLowered | worker/src/routes/upload.ts:37 | The extension kept in the new name, lower-cased, is the one the type check accepted. |
| Upload.UniqueNameShape | worker/src/routes/upload.ts:38 | A new name is the clock reading in decimal, a dash, sixteen ASCII letters or digits, and the original extension. |
| Upload.AlphabetRoundTrip | worker/src/utils.ts:152-155 | Draw `k` maps to a character whose alphabet position is `k`. |
| Upload.UniqueNameInjective | worker/src/routes/upload.ts:38 | At one clock reading, different draws give different names. |
| Upload.GrantUrl | worker/src/routes/upload.ts:37-74 | The response carries the key `uploads/<name>`, the public URL and an expiry of 3600. The upload is recorded with `size \|\| 0` unless the record fails. The bucket is untouched. |
| Upload.RequestUploadUrl | worker/src/routes/upload.ts:17-80 | The checks run in order: names present, type, then size only when given and non-zero. Each refusal is a 400 with its message and no change. |
| Upload.UrlGrantedIff | worker/src/routes/upload.ts:22-74 | The answer is 200 exactly when the checks pass. Any refusal is a 400 that changes nothing, and the bucket is never written. |
| Upload.RecordFaultIgnored | worker/src/routes/upload.ts:63-66 | A failure to record the upload does not change the answer. |
| Upload.GrantedKeyShape | worker/src/routes/upload.ts:37-39 | A granted key is `uploads/` plus the new name, which keeps the original suffix, and that suffix lower-cased is an allowed extension. |
| Upload.StoreFile | worker/src/routes/upload.ts:116-158 | A refused put gives 500 with no change. Otherwise the object enters the bucket, the row is recorded unless that fails, and the answer is 200 regardless. |
| Upload.DirectUpload | worker/src/routes/upload.ts:87-164 | The checks run in order: multipart header, file present, type, then size (always). Each refusal is a 400 with its message and no change. |
| Upload.DirectUploadTooLargeIff | worker/src/routes/upload.ts:105-113 | POST / answers `File size exceeds 5MB limit` exactly when the earlier checks pass and the file has more than 5242880 bytes, so exactly 5 MiB is accepted. |
| Upload.UrlTooLargeIff | worker/src/routes/upload.ts:22-34 | POST /url answers `File size exceeds 5MB limit` exactly when the earlier checks pass and the request gives a size over 5242880. A missing size is never checked. |
| Upload.DirectUploadSucceedsIff | worker/src/routes/upload.ts:91-158 | The answer is 200 exactly when every check passes and R2 takes the object, which is then in the bucket. Any other answer changes nothing. |
| Upload.UploadPaging | worker/src/routes/upload.ts:173-174 | The page is `parseInt` unclamped. A parsed size below 1 becomes 1, one above 50 becomes 50, and one in between is kept; a NaN size stays NaN. |
| Upload.ParseIntNegative | worker/src/routes/upload.ts:173 | `parseInt` reads `-n` as the negative number. |
| Upload.UploadPageUnclamped | worker/src/routes/upload.ts:173 | A zero or negative page goes through unchanged. |
| Upload.ListUploads | worker/src/routes/upload.ts:176-206 | The count is issued first and a failed count stops the listing. Failures carry the execute wrapper's messages. On success the items are the window of the rows at `(page - 1) * pageSize` and the metadata is computed from the number of rows. |
| Upload.ListUploadsWellBound | worker/src/routes/upload.ts:178-194 | Both statements of the uploads listing are well bound. |
| Upload.UploadsAgreeWithShared | worker/src/routes/upload.ts:171-212 | On success the uploads listing returns the same page and metadata as the shared paginator over `uploads`, `1=1` and newest first. |
| Upload.NonPositivePageListsFirstRows | worker/src/routes/upload.ts:173-206 | A page below 1 lists the first rows while reporting its own page number and no previous page. A negative page reports a next page even on an empty table. |
| Upload.DeleteUpload | worker/src/routes/upload.ts:218-265 | A failed lookup gives 500 and a missing row 404. Otherwise the object leaves the bucket unless R2 throws. The answer is 200 exactly when the row delete succeeds, and then exactly that row is gone. |
| Upload.BucketFailureIgnored | worker/src/routes/upload.ts:239-246 | An R2 delete that throws changes neither the answer nor the table. |
| Upload.FailedRowDeleteOrphansRow | worker/src/routes/upload.ts:239-259 | If the row delete fails after the object is gone, the answer is 500 and the row outlives its object. |

## Left out

- Authentication: `authMiddleware`, JWT handling and the auth routes (`worker/src/routes/auth.ts`) are not part of this model. The routes are modelled as if every request were authorised.
- Request parsing, JSON (de)serialisation and Hono routing are left out. Request bodies arrive as already-decoded optional fields.
- The `JSON.parse` of product `images` and `specs` on the way out is left out. The columns are kept as stored text.
- The presigned upload URL string of POST /url is not modelled. It is built from the date, the access key and a random signature, and no other part depends on it.
- Multipart parsing and the file body are left out. The form's file arrives as name, MIME type and size.
- `Date.now()`, `Math.random()`, the row ids D1 assigns and `ACCOUNT_ID` are inputs rather than effects.
- Each handler's outer `try … catch` (`Failed to get products` and the like) is not modelled. The model raises no exception besides the store faults the wrappers catch. The same goes for the paginator's own catch (`Paginated query failed`).
- Errors thrown by code the model treats as total, such as `countResult.data[0]` on an empty result, are left out.
- D1's behaviour on a misbound statement is left out. The model states that a statement is misbound but does not predict what D1 then returns.
- D1 rejecting an `undefined` bind value is left out. An absent field is modelled as SQL NULL, so `COALESCE` keeps the stored value.
- Concurrency and interleaving between requests are left out. Each handler runs against one table snapshot.
- Non-text setting values are left out. A setting value is a string. JSON `null` and other types, and the distinction between `null` and `undefined` for `value`, are not modelled.
- The key order of `Object.entries` is taken as the order of the body's entries.
- GET /settings has no ORDER BY. The rows are assumed to come in rowid order.
- Table.FirstKey: `.first()` on a query without ORDER BY is assumed to return the matching row with the smallest id, which is SQLite's usual scan order for a rowid table but not a guarantee.
- Table.RowAt: only a digit string addresses a row. Update and delete of products and posts, and DELETE /uploads/:id, bind the raw path parameter, so SQLite's numeric conversion also lets text such as `+1`, ` 1`, `1.0` or `1e0` reach row 1. The model answers 404 there; modelling SQLite's text-to-number conversion was left out.
- JsText.ParseInt: JavaScript numbers are IEEE doubles, but the model's numbers are unbounded integers. `parseInt` loses precision above 2^53 and gives `Infinity` for very long digit strings, and neither is modelled.
- Utils.NormalizePagination: `parseInt` of a page or size beyond 2^53 rounds in the source and is exact in the model, for the reason given under JsText.ParseInt.
- Utils.NormalizePaginationDecimal: it states the clamped page for every natural number. In the source that holds only up to 2^53, for the reason given under JsText.ParseInt.
- Db.Meta: `(page - 1) * pageSize`, `page * pageSize < total` and `Math.ceil(total / pageSize)` are double arithmetic in the source. The model computes them exactly on integers, so rounding of products beyond 2^53 is not modelled.
- Products.NewProduct: a text field that is present but not a string, such as a number `summary`, is not modelled. Only strings, `null` and missing fields are.
- SQL `LIKE` is modelled as an ASCII case-insensitive substring test. `%` or `_` inside the search term are not treated as wildcards.
- `toLowerCase` is modelled on ASCII letters only. Unicode case mapping of other characters is left out. Two characters lower-case to ASCII letters in JavaScript: U+212A KELVIN SIGN becomes `k` and U+0130 becomes `i` plus U+0307. `generateSlug` keeps them as `k` and `i`, but the model drops them, so Slug.SlugEmptyIff and Slug.SlugKeepsAlnums describe the source only for input without these two characters.
- The listings take the page and size as integers. A NaN page or size reaching D1 (from `page=abc`) is left out.
- Other R2 failures are left out: `put` throwing, rather than returning a falsy result, and the bucket rejecting a key.
- The upload table's schema defaults and `created_at` timestamps are left out. Listing rows come already in `created_at DESC` order.
- Settings.BatchPut: the contract does not state the text of the 500 message, which joins the per-entry errors.
- Upload.GrantUrl: the `size || 0` record treats only a missing or zero size as 0. Other falsy numbers such as NaN are not modelled, because sizes are integers here.

## Findings

| source | as written | input that shows it | evidently intended | confidence | as-written member | corrected member |
|---|---|---|---|---|---|---|
| worker/src/routes/products.ts:28-52 | The filter values `['active', '%q%', …]` are collected but never passed to `getPaginatedData`. The count statement has `?` placeholders and no values, and the page query binds `pageSize` to `status = ?`. | GET /api/products with no query: `status = ? AND 1` is counted with zero bound values. | Bind the filter values ahead of `[pageSize, offset]`, so the listing shows active products matching the search and category. | not executed | Products.ListingDropsParams | Products.ListProductsSound |
| worker/src/routes/posts.ts:24-38 | `[status]` is built but not passed on, so the same misbinding happens. | GET /api/posts: `status = ?` is counted with zero bound values. | Bind the status, so the listing shows only posts with the requested status. | not executed | Posts.ListingDropsStatus | Posts.ListPostsSound |

=== FILE: db.dfy ===
/**
 * worker/src/db.ts: the three D1 wrappers, which turn anything the driver
 * throws into a failed result, and `getPaginatedData`, which counts the
 * matching rows and then fetches one page of them.
 *
 * A table is the sequence of its rows in ORDER BY order; the meaning of a
 * WHERE clause, once its placeholders are bound, is a predicate on rows. The
 * SQL text and the values bound to it are kept as `Statement`s so that the
 * placeholder/value bookkeeping can be checked.
 */
module Db {
  import opened Wrappers
  import opened JsText

  // ---------------------------------------------------------------------------
  // Never-throwing wrappers

  /** What a JavaScript `catch` clause receives. */
  datatype Thrown = ErrorObject(message: string) | OtherValue

  /** The outcome of one call into the D1 driver. */
  datatype Outcome<T> = Returned(value: T) | Threw(thrown: Thrown)

  const QueryFailed: string := "Database query failed"
  const ExecuteFailed: string := "Database execute failed"

  /** The message a caught value yields: an `Error`'s own message, else `fallback`. */
  function Message(t: Thrown, fallback: string): string {
    if t.ErrorObject? then t.message else fallback
  }

  /** The shared `try … catch` of the wrappers: a returned value is a success, an
      `Error` becomes its message, anything else thrown becomes `fallback`. */
  function Catch<T>(o: Outcome<T>, fallback: string): (r: Result<T>)
    ensures r.Ok? <==> o.Returned?
    ensures o.Returned? ==> r.value == o.value
    ensures o.Threw? ==> r.error == Message(o.thrown, fallback)
  {
    match o
    case Returned(v) => Ok(v)
    case Threw(ErrorObject(m)) => Err(m)
    case Threw(OtherValue) => Err(fallback)
  }

  /** `queryDB` and `queryOneDB` (`.all()` / `.first()`). */
  function QueryDB<T>(o: Outcome<T>): Result<T> { Catch(o, QueryFailed) }

  /** `executeDB` (`.run()`). */
  function ExecuteDB<T>(o: Outcome<T>): Result<T> { Catch(o, ExecuteFailed) }

  /** A fault injected into one call, or none: the call then returns `v`. */
  function Call<T>(fault: Option<Thrown>, v: T): (o: Outcome<T>)
    ensures o.Returned? <==> fault.None?
    ensures o.Returned? ==> o.value == v
    ensures o.Threw? ==> o.thrown == fault.value
  {
    if fault.Some? then Threw(fault.value) else Returned(v)
  }

  /** A wrapper never lets an exception escape: every outcome maps to a result
      whose failure carries a non-empty message when the thrown value was not an
      `Error`, and the `Error`'s own message otherwise. */
  lemma {:induction false} WrappersNeverThrow<T>(o: Outcome<T>)
    ensures QueryDB(o).Err? <==> o.Threw?
    ensures ExecuteDB(o).Err? <==> o.Threw?
    ensures o == Threw(OtherValue) ==> QueryDB(o) == Err("Database query failed")
    ensures o == Threw(OtherValue) ==> ExecuteDB(o) == Err("Database execute failed")
    ensures o.Threw? && o.thrown.ErrorObject? ==>
      QueryDB(o) == ExecuteDB(o) == Err(o.thrown.message)
  {
  }

  // ---------------------------------------------------------------------------
  // Statements

  datatype Value = Text(text: string) | Int(n: int)

  /** A prepared SQL text with the values passed to `bind`. */
  datatype Statement = Statement(sql: string, binds: seq<Value>)

  /** Every `?` receives exactly one value, positionally. */
  predicate WellBound(st: Statement) {
    CountChar(st.sql, '?') == |st.binds|
  }

  const CountHead: string := "SELECT COUNT(*) as total FROM "
  const SelectHead: string := "SELECT * FROM "
  const WhereWord: string := " WHERE "
  const OrderWord: string := " ORDER BY "
  const LimitWord: string := " LIMIT "
  const OffsetWord: string := " OFFSET "

  /** The one-character placeholder text. */
  const Placeholder: string := "?"

  /** ` LIMIT ? OFFSET ?`. */
  const LimitTail: string := LimitWord + Placeholder + OffsetWord + Placeholder

  /** `SELECT COUNT(*) as total FROM ${table} WHERE ${where}`. */
  function CountSql(table: string, where: string): string {
    CountHead + table + WhereWord + where
  }

  /** `SELECT * FROM ${table} WHERE ${where} ORDER BY ${orderBy} LIMIT ? OFFSET ?`. */
  function SliceSql(table: string, where: string, orderBy: string): string {
    SelectHead + table + WhereWord + where + OrderWord + orderBy + LimitTail
  }

  lemma {:induction false} CountHeadPlaceholders() ensures CountChar(CountHead, '?') == 0 {
    CountCharNone(CountHead, '?');
  }

  lemma {:induction false} SelectHeadPlaceholders() ensures CountChar(SelectHead, '?') == 0 {
    CountCharNone(SelectHead, '?');
  }

  lemma {:induction false} WherePlaceholders() ensures CountChar(WhereWord, '?') == 0 {
    CountCharNone(WhereWord, '?');
  }

  lemma {:induction false} OrderPlaceholders() ensures CountChar(OrderWord, '?') == 0 {
    CountCharNone(OrderWord, '?');
  }

  lemma {:induction false} LimitWordPlaceholders() ensures CountChar(LimitWord, '?') == 0 {
    CountCharNone(LimitWord, '?');
  }

  lemma {:induction false} OffsetWordPlaceholders() ensures CountChar(OffsetWord, '?') == 0 {
    CountCharNone(OffsetWord, '?');
  }

  lemma {:induction false} PlaceholderCount() ensures CountChar(Placeholder, '?') == 1 {
  }

  lemma {:induction false} LimitTailPlaceholders() ensures CountChar(LimitTail, '?') == 2 {
    LimitWordPlaceholders();
    OffsetWordPlaceholders();
    PlaceholderCount();
    CountCharAppend4(LimitWord, Placeholder, OffsetWord, Placeholder);
  }

  lemma {:induction false} CountCharAppend4(a: string, b: string, c: string, d: string)
    ensures CountChar(a + b + c + d, '?') == CountChar(a, '?') + CountChar(b, '?') + CountChar(c, '?') + CountChar(d, '?')
  {
    CountCharAppend(a, b, '?');
    CountCharAppend(a + b, c, '?');
    CountCharAppend(a + b + c, d, '?');
  }

  lemma {:induction false} CountSqlPlaceholders(table: string, where: string)
    ensures CountChar(CountSql(table, where), '?') == CountChar(table, '?') + CountChar(where, '?')
  {
    CountHeadPlaceholders();
    WherePlaceholders();
    CountCharAppend4(CountHead, table, WhereWord, where);
  }

  lemma {:induction false} SliceSqlPlaceholders(table: string, where: string, orderBy: string)
    ensures CountChar(SliceSql(table, where, orderBy), '?') ==
      CountChar(table, '?') + CountChar(where, '?') + CountChar(orderBy, '?') + 2
  {
    SelectHeadPlaceholders();
    WherePlaceholders();
    OrderPlaceholders();
    LimitTailPlaceholders();
    var head := SelectHead + table + WhereWord + where;
    CountCharAppend4(SelectHead, table, WhereWord, where);
    CountCharAppend4(head, OrderWord, orderBy, LimitTail);
  }

  // ---------------------------------------------------------------------------
  // Pagination arithmetic

  function Min(a: int, b: int): int { if a <= b then a else b }
  function Max(a: int, b: int): int { if a >= b then a else b }

  /** `Math.ceil(total / pageSize)` for a positive page size. */
  function CeilDiv(total: nat, pageSize: int): (q: nat)
    requires pageSize >= 1
    ensures (q - 1) * pageSize < total <= q * pageSize
  {
    var n := total + pageSize - 1;
    assert n == (n / pageSize) * pageSize + n % pageSize;
    n / pageSize
  }

  /** `(page - 1) * pageSize`. */
  function Offset(page: int, pageSize: int): int {
    (page - 1) * pageSize
  }

  /** `LIMIT limit OFFSET offset` over rows already in order; SQLite treats a
      negative offset as zero. */
  function Window<R>(rows: seq<R>, offset: int, limit: nat): (w: seq<R>)
    ensures var start := Max(offset, 0);
      && |w| == Min(limit, Max(|rows| - start, 0))
      && forall i :: 0 <= i < |w| ==> w[i] == rows[start + i]
  {
    var start := Max(offset, 0);
    if start >= |rows| then [] else rows[start..Min(start + limit, |rows|)]
  }

  /** The rows the WHERE clause selects, in order. */
  function Filter<R>(rows: seq<R>, holds: R -> bool): (r: seq<R>)
    ensures |r| <= |rows|
  {
    if |rows| == 0 then []
    else (if holds(rows[0]) then [rows[0]] else []) + Filter(rows[1..], holds)
  }

  lemma {:induction false} FilterMembers<R>(rows: seq<R>, holds: R -> bool)
    ensures forall x :: x in Filter(rows, holds) <==> x in rows && holds(x)
  {
    if |rows| > 0 {
      FilterMembers(rows[1..], holds);
      assert rows == [rows[0]] + rows[1..];
    }
  }

  datatype Pagination = Pagination(page: int, pageSize: int, total: nat, totalPages: nat,
                                   hasNext: bool, hasPrev: bool)

  datatype Page<R> = Page(items: seq<R>, pagination: Pagination)

  /** The `pagination` object built from the count. */
  function Meta(page: int, pageSize: int, total: nat): Pagination
    requires pageSize >= 1
  {
    Pagination(page, pageSize, total, CeilDiv(total, pageSize), page * pageSize < total, page > 1)
  }

  lemma {:induction false} MulMono(a: int, b: int, c: nat)
    requires a <= b
    ensures a * c <= b * c
  {
    assert b * c - a * c == (b - a) * c;
  }

  /** For a real page number, `hasNext` (`page * pageSize < total`) says exactly that
      the page is not the last one. */
  lemma {:induction false} HasNextIffNotLast(page: int, pageSize: int, total: nat)
    requires page >= 1 && pageSize >= 1
    ensures Meta(page, pageSize, total).hasNext <==> page < Meta(page, pageSize, total).totalPages
  {
    var q := CeilDiv(total, pageSize);
    if page < q {
      MulMono(page, q - 1, pageSize);
    } else {
      MulMono(q, page, pageSize);
    }
  }

  /** Pages `first` to `last`, one window after another. */
  function PagesFrom<R>(rows: seq<R>, pageSize: int, first: int, last: int): seq<R>
    requires pageSize >= 1
    decreases last - first
  {
    if first > last then [] else Window(rows, Offset(first, pageSize), pageSize) + PagesFrom(rows, pageSize, first + 1, last)
  }

  lemma {:induction false} OffsetStep(page: int, pageSize: int)
    ensures Offset(page + 1, pageSize) == Offset(page, pageSize) + pageSize
  {
    assert page * pageSize == (page - 1) * pageSize + pageSize;
  }

  /** Pages 1 to `totalPages` start inside the rows. */
  lemma {:induction false} OffsetInRange(page: int, pageSize: int, total: nat)
    requires pageSize >= 1 && 1 <= page <= CeilDiv(total, pageSize)
    ensures 0 <= Offset(page, pageSize) < total
  {
    var last := CeilDiv(total, pageSize);
    MulMono(page - 1, last - 1, pageSize);
    MulMono(0, page - 1, pageSize);
  }

  /** Pages after `totalPages` start past the rows. */
  lemma {:induction false} OffsetPastEnd(page: int, pageSize: int, total: nat)
    requires pageSize >= 1 && page > CeilDiv(total, pageSize)
    ensures Offset(page, pageSize) >= total
  {
    MulMono(CeilDiv(total, pageSize), page - 1, pageSize);
  }

  /** A window starting inside the rows, followed by what comes after it, is the
      rest of the rows. */
  lemma {:induction false} WindowThenRest<R>(rows: seq<R>, offset: int, limit: nat)
    requires 0 <= offset <= |rows|
    ensures rows[offset..] == Window(rows, offset, limit) + rows[Min(offset + limit, |rows|)..]
  {
    var next := Min(offset + limit, |rows|);
    assert rows[offset..] == rows[offset..next] + rows[next..];
  }

  lemma {:induction false} PagesFromSuffix<R>(rows: seq<R>, pageSize: int, first: int)
    requires pageSize >= 1 && first >= 1
    ensures PagesFrom(rows, pageSize, first, CeilDiv(|rows|, pageSize)) == rows[Min(Offset(first, pageSize), |rows|)..]
    decreases CeilDiv(|rows|, pageSize) - first
  {
    var last := CeilDiv(|rows|, pageSize);
    var o := Offset(first, pageSize);
    if first > last {
      OffsetPastEnd(first, pageSize, |rows|);
      assert PagesFrom(rows, pageSize, first, last) == [];
    } else {
      OffsetInRange(first, pageSize, |rows|);
      OffsetStep(first, pageSize);
      PagesFromSuffix(rows, pageSize, first + 1);
      WindowThenRest(rows, o, pageSize);
      assert PagesFrom(rows, pageSize, first, last) == Window(rows, o, pageSize) + PagesFrom(rows, pageSize, first + 1, last);
    }
  }

  /** Pages 1 to `totalPages` hand out every row exactly once, in order. */
  lemma {:induction false} PagesCoverRows<R>(rows: seq<R>, pageSize: int)
    requires pageSize >= 1
    ensures PagesFrom(rows, pageSize, 1, CeilDiv(|rows|, pageSize)) == rows
  {
    PagesFromSuffix(rows, pageSize, 1);
  }

  // ---------------------------------------------------------------------------
  // getPaginatedData

  /** Faults injected into the count and the page query. */
  datatype ListingFaults = ListingFaults(count: Option<Thrown>, slice: Option<Thrown>)

  const NoListingFaults: ListingFaults := ListingFaults(None, None)

  /** The statements issued, in order, and what the function returns. */
  datatype Listing<R> = Listing(issued: seq<Statement>, result: Result<Page<R>>)

  /** `getPaginatedData` with `whereBinds` bound to the WHERE clause: count the
      selected rows, stop on failure, then fetch the page at `(page - 1) * pageSize`.
      `holds` is what the clause selects with those values bound. */
  function Paginate<R>(rows: seq<R>, holds: R -> bool, table: string, where: string, whereBinds: seq<Value>,
                       orderBy: string, page: int, pageSize: int, faults: ListingFaults): (l: Listing<R>)
    requires pageSize >= 1
    ensures |l.issued| == 1 || |l.issued| == 2
    ensures l.issued[0] == Statement(CountSql(table, where), whereBinds)
    ensures |l.issued| == 2 <==> faults.count.None?
    ensures |l.issued| == 2 ==>
      l.issued[1] == Statement(SliceSql(table, where, orderBy), whereBinds + [Int(pageSize), Int(Offset(page, pageSize))])
    ensures l.result.Ok? <==> faults.count.None? && faults.slice.None?
    ensures faults.count.Some? ==> l.result == Err(Message(faults.count.value, QueryFailed))
    ensures faults.count.None? && faults.slice.Some? ==> l.result == Err(Message(faults.slice.value, QueryFailed))
    ensures l.result.Ok? ==>
      var selected := Filter(rows, holds);
      && l.result.value.items == Window(selected, Offset(page, pageSize), pageSize)
      && l.result.value.pagination == Meta(page, pageSize, |selected|)
  {
    var selected := Filter(rows, holds);
    var offset := Offset(page, pageSize);
    var countStmt := Statement(CountSql(table, where), whereBinds);
    var counted := QueryDB(Call(faults.count, |selected|));
    if counted.Err? then
      Listing([countStmt], Err(counted.error))
    else
      var sliceStmt := Statement(SliceSql(table, where, orderBy), whereBinds + [Int(pageSize), Int(offset)]);
      var fetched := QueryDB(Call(faults.slice, Window(selected, offset, pageSize)));
      if fetched.Err? then
        Listing([countStmt, sliceStmt], Err(fetched.error))
      else
        Listing([countStmt, sliceStmt], Ok(Page(fetched.value, Meta(page, pageSize, counted.value))))
  }

  /** `getPaginatedData` as written: the WHERE text is interpolated and only
      `[pageSize, offset]` are bound. */
  function GetPaginatedData<R>(rows: seq<R>, holds: R -> bool, table: string, page: int, pageSize: int,
                               where: string, orderBy: string, faults: ListingFaults): (l: Listing<R>)
    requires pageSize >= 1
    ensures |l.issued| == 1 || |l.issued| == 2
    ensures l.issued[0].binds == []
    ensures |l.issued| == 2 ==> l.issued[1].binds == [Int(pageSize), Int(Offset(page, pageSize))]
  {
    Paginate(rows, holds, table, where, [], orderBy, page, pageSize, faults)
  }

  /** `getPaginatedData` taking the WHERE clause's values and binding them ahead of
      `[pageSize, offset]`. */
  function GetPaginatedDataBound<R>(rows: seq<R>, holds: R -> bool, table: string, page: int, pageSize: int,
                                    where: string, whereParams: seq<Value>, orderBy: string, faults: ListingFaults): (l: Listing<R>)
    requires pageSize >= 1
    ensures |l.issued| == 1 || |l.issued| == 2
    ensures l.issued[0].binds == whereParams
    ensures |l.issued| == 2 ==> l.issued[1].binds == whereParams + [Int(pageSize), Int(Offset(page, pageSize))]
  {
    Paginate(rows, holds, table, where, whereParams, orderBy, page, pageSize, faults)
  }

  /** The page holds `min(pageSize, max(0, total - offset))` rows, every one of them
      selected by the WHERE clause. */
  lemma {:induction false} PageLength<R>(rows: seq<R>, holds: R -> bool, table: string, where: string, whereBinds: seq<Value>,
                                         orderBy: string, page: int, pageSize: int, faults: ListingFaults)
    requires pageSize >= 1
    requires Paginate(rows, holds, table, where, whereBinds, orderBy, page, pageSize, faults).result.Ok?
    ensures var p := Paginate(rows, holds, table, where, whereBinds, orderBy, page, pageSize, faults).result.value;
      && |p.items| == Min(pageSize, Max(p.pagination.total - Max(Offset(page, pageSize), 0), 0))
      && forall x :: x in p.items ==> x in rows && holds(x)
  {
    var p := Paginate(rows, holds, table, where, whereBinds, orderBy, page, pageSize, faults).result.value;
    var selected := Filter(rows, holds);
    var start := Max(Offset(page, pageSize), 0);
    assert p.items == Window(selected, Offset(page, pageSize), pageSize);
    assert p.pagination.total == |selected|;
    FilterMembers(rows, holds);
    forall x | x in p.items ensures x in rows && holds(x) {
      var i :| 0 <= i < |p.items| && p.items[i] == x;
      assert x == selected[start + i];
    }
  }

  /** Every statement the listing issues is well bound exactly when the WHERE text has
      one `?` per value passed for it (given no `?` in the table name or ORDER BY). */
  lemma {:induction false} PaginateWellBound<R>(rows: seq<R>, holds: R -> bool, table: string, where: string, whereBinds: seq<Value>,
                                                orderBy: string, page: int, pageSize: int, faults: ListingFaults)
    requires pageSize >= 1
    requires '?' !in table && '?' !in orderBy
    ensures var l := Paginate(rows, holds, table, where, whereBinds, orderBy, page, pageSize, faults);
      (forall i :: 0 <= i < |l.issued| ==> WellBound(l.issued[i])) <==> CountChar(where, '?') == |whereBinds|
  {
    var l := Paginate(rows, holds, table, where, whereBinds, orderBy, page, pageSize, faults);
    CountCharNone(table, '?');
    CountCharNone(orderBy, '?');
    CountSqlPlaceholders(table, where);
    assert WellBound(l.issued[0]) <==> CountChar(where, '?') == |whereBinds|;
    if |l.issued| == 2 {
      SliceSqlPlaceholders(table, where, orderBy);
      assert WellBound(l.issued[1]) <==> CountChar(where, '?') == |whereBinds|;
    }
  }

  /** When the WHERE text carries placeholders, the statements `getPaginatedData`
      prepares as written are not well bound: the count binds nothing at all, and
      the page query binds only `[pageSize, offset]`, whose first value lands on
      the WHERE clause's first placeholder. */
  lemma {:induction false} UnboundWhereMisbinds<R>(rows: seq<R>, holds: R -> bool, table: string, page: int, pageSize: int,
                                                   where: string, orderBy: string, faults: ListingFaults)
    requires pageSize >= 1
    requires '?' !in table && '?' !in orderBy
    requires CountChar(where, '?') >= 1
    ensures var l := GetPaginatedData(rows, holds, table, page, pageSize, where, orderBy, faults);
      && !WellBound(l.issued[0])
      && (|l.issued| == 2 ==> !WellBound(l.issued[1]) && l.issued[1].binds[0] == Int(pageSize))
  {
    CountCharNone(table, '?');
    CountCharNone(orderBy, '?');
    CountSqlPlaceholders(table, where);
    SliceSqlPlaceholders(table, where, orderBy);
  }

  /** The parameter defaults: page 1 of 20 over the whole table, `1=1`, newest first. */
  function GetPaginatedDataDefaults<R>(rows: seq<R>, table: string, faults: ListingFaults): (l: Listing<R>)
    ensures |l.issued| == 1 || |l.issued| == 2
    ensures l.issued[0].sql == CountSql(table, "1=1")
    ensures |l.issued| == 2 ==> l.issued[1] == Statement(SliceSql(table, "1=1", "created_at DESC"), [Int(20), Int(0)])
    ensures l.result.Ok? ==> l.result.value.items == rows[..Min(20, |rows|)]
  {
    FilterAll(rows);
    GetPaginatedData(rows, AnyRow, table, 1, 20, "1=1", "created_at DESC", faults)
  }

  /** The meaning of `1=1`: every row. */
  predicate AnyRow<R>(row: R) { true }

  lemma {:induction false} FilterAll<R>(rows: seq<R>)
    ensures Filter(rows, AnyRow) == rows
  {
    if |rows| > 0 {
      FilterAll(rows[1..]);
      assert rows == [rows[0]] + rows[1..];
    }
  }
}

=== FILE: jstext.dfy ===
/**
 * The JavaScript string and number primitives the worker relies on, stated
 * over `seq<char>` and `int`: whitespace classes, ASCII case mapping, trim,
 * split/join, `lastIndexOf`/`substring`, `parseInt`, and `Math.max`/`Math.min`
 * over a number that may be NaN.
 */
module JsText {

  /** `\s` in a JavaScript regular expression and the characters `trim` removes:
      the WhiteSpace and LineTerminator productions of ECMAScript. */
  predicate IsJsSpace(c: char) {
    || c == '\t' || c == '\n' || c == '\U{000B}' || c == '\U{000C}' || c == '\r' || c == ' '
    || c == '\U{00A0}' || c == '\U{1680}' || ('\U{2000}' <= c <= '\U{200A}')
    || c == '\U{2028}' || c == '\U{2029}' || c == '\U{202F}' || c == '\U{205F}'
    || c == '\U{3000}' || c == '\U{FEFF}'
  }

  predicate IsDigit(c: char) { '0' <= c <= '9' }
  predicate IsAsciiUpper(c: char) { 'A' <= c <= 'Z' }
  predicate IsAsciiLower(c: char) { 'a' <= c <= 'z' }
  predicate IsAsciiAlnum(c: char) { IsDigit(c) || IsAsciiUpper(c) || IsAsciiLower(c) }

  /** `\w` in a JavaScript regular expression without the `u` flag. */
  predicate IsWordChar(c: char) { IsAsciiAlnum(c) || c == '_' }

  /** `/^\d+$/.test(s)`. */
  predicate IsDigits(s: string) {
    |s| > 0 && forall i :: 0 <= i < |s| ==> IsDigit(s[i])
  }

  predicate HasUpper(s: string) {
    exists i :: 0 <= i < |s| && IsAsciiUpper(s[i])
  }

  function LowerChar(c: char): (r: char)
    ensures !IsAsciiUpper(r)
    ensures IsAsciiAlnum(r) <==> IsAsciiAlnum(c)
    ensures !IsAsciiUpper(c) ==> r == c
  {
    if IsAsciiUpper(c) then (c as int - 'A' as int + 'a' as int) as char else c
  }

  /** `s.toLowerCase()` on the ASCII range; every other character is kept. */
  function ToLower(s: string): (r: string)
    ensures |r| == |s|
    ensures forall i :: 0 <= i < |s| ==> r[i] == LowerChar(s[i])
    ensures !HasUpper(r)
  {
    seq(|s|, i requires 0 <= i < |s| => LowerChar(s[i]))
  }

  /** The suffix of `s` after its longest prefix of characters satisfying `p`. */
  function DropWhile(s: string, p: char -> bool): (r: string)
    ensures |r| <= |s|
  {
    if |s| > 0 && p(s[0]) then DropWhile(s[1..], p) else s
  }

  /** The prefix of `s` before its longest suffix of characters satisfying `p`. */
  function DropWhileEnd(s: string, p: char -> bool): (r: string)
    ensures |r| <= |s|
  {
    if |s| > 0 && p(s[|s| - 1]) then DropWhileEnd(s[..|s| - 1], p) else s
  }

  /** Both of the above: what `^p+|p+$` replaced by nothing leaves. */
  function StripBoth(s: string, p: char -> bool): string {
    DropWhileEnd(DropWhile(s, p), p)
  }

  /** `s.trimStart()`. */
  function TrimStart(s: string): string { DropWhile(s, IsJsSpace) }

  /** `s.trim()`. */
  function Trim(s: string): string { StripBoth(s, IsJsSpace) }

  lemma {:induction false} DropWhileShape(s: string, p: char -> bool)
    ensures var r := DropWhile(s, p);
      && r == s[|s| - |r|..]
      && (forall i :: 0 <= i < |s| - |r| ==> p(s[i]))
      && (|r| > 0 ==> !p(r[0]))
  {
    if |s| > 0 && p(s[0]) {
      DropWhileShape(s[1..], p);
    }
  }

  lemma {:induction false} DropWhileEndShape(s: string, p: char -> bool)
    ensures var r := DropWhileEnd(s, p);
      && r == s[..|r|]
      && (forall i :: |r| <= i < |s| ==> p(s[i]))
      && (|r| > 0 ==> !p(r[|r| - 1]))
  {
    if |s| > 0 && p(s[|s| - 1]) {
      DropWhileEndShape(s[..|s| - 1], p);
    }
  }

  /** `StripBoth(s, p)` is the infix `s[a..a+|r|]`; everything around it satisfies `p`,
      and its first and last characters do not. */
  lemma {:induction false} StripBothInfix(s: string, p: char -> bool) returns (a: nat)
    ensures var r := StripBoth(s, p);
      && a + |r| <= |s|
      && r == s[a..a + |r|]
      && (forall k :: 0 <= k < a ==> p(s[k]))
      && (forall k :: a + |r| <= k < |s| ==> p(s[k]))
      && (|r| > 0 ==> !p(r[0]) && !p(r[|r| - 1]))
  {
    var t := DropWhile(s, p);
    var r := DropWhileEnd(t, p);
    DropWhileShape(s, p);
    DropWhileEndShape(t, p);
    a := |s| - |t|;
    forall k | a + |r| <= k < |s| ensures p(s[k]) {
      assert s[k] == t[k - a];
    }
    if |r| > 0 {
      assert r[0] == t[0];
    }
  }

  /** Number of occurrences of `c` in `s`. */
  function CountChar(s: string, c: char): nat {
    if |s| == 0 then 0 else (if s[0] == c then 1 else 0) + CountChar(s[1..], c)
  }

  lemma {:induction false} CountCharNone(s: string, c: char)
    requires c !in s
    ensures CountChar(s, c) == 0
  {
    if |s| > 0 {
      CountCharNone(s[1..], c);
    }
  }

  lemma {:induction false} CountCharAppend(a: string, b: string, c: char)
    ensures CountChar(a + b, c) == CountChar(a, c) + CountChar(b, c)
  {
    if |a| == 0 {
      assert a + b == b;
    } else {
      assert (a + b)[1..] == a[1..] + b;
      CountCharAppend(a[1..], b, c);
    }
  }

  /** Occurrences of `c` over all of `parts`. */
  function SumCount(parts: seq<string>, c: char): nat {
    if |parts| == 0 then 0 else CountChar(parts[0], c) + SumCount(parts[1..], c)
  }

  lemma {:induction false} SumCountAppend(a: seq<string>, b: seq<string>, c: char)
    ensures SumCount(a + b, c) == SumCount(a, c) + SumCount(b, c)
  {
    if |a| == 0 {
      assert a + b == b;
    } else {
      assert (a + b)[1..] == a[1..] + b;
      SumCountAppend(a[1..], b, c);
    }
  }

  /** Joining with a separator free of `c` neither adds nor loses any `c`. */
  lemma {:induction false} CountCharJoin(parts: seq<string>, sep: string, c: char)
    requires CountChar(sep, c) == 0
    ensures CountChar(Join(parts, sep), c) == SumCount(parts, c)
  {
    if |parts| == 1 {
      assert parts[1..] == [];
    } else if |parts| >= 2 {
      CountCharJoin(parts[1..], sep, c);
      CountCharAppend(parts[0], sep, c);
      CountCharAppend(parts[0] + sep, Join(parts[1..], sep), c);
    }
  }

  /** `s.lastIndexOf(c)`: the index of the last `c`, or -1. */
  function LastIndexOf(s: string, c: char): (r: int)
    ensures -1 <= r < |s|
    ensures r == -1 <==> c !in s
    ensures r >= 0 ==> s[r] == c && forall j :: r < j < |s| ==> s[j] != c
  {
    if |s| == 0 then -1
    else if s[|s| - 1] == c then |s| - 1
    else LastIndexOf(s[..|s| - 1], c)
  }

  /** `s.substring(start)`: a start outside [0, |s|] is clamped into it. */
  function SubstringFrom(s: string, start: int): (r: string)
    ensures 0 <= start <= |s| ==> r == s[start..]
    ensures start < 0 ==> r == s
    ensures start > |s| ==> r == []
  {
    if start < 0 then s else if start > |s| then [] else s[start..]
  }

  /** `s.split(sep)` for a one-character separator: always at least one piece,
      and an empty piece between adjacent separators. */
  function Split(s: string, sep: char): (parts: seq<string>)
    ensures |parts| >= 1
    ensures forall i :: 0 <= i < |parts| ==> sep !in parts[i]
  {
    if |s| == 0 then [""]
    else
      var rest := Split(s[1..], sep);
      if s[0] == sep then [""] + rest else [[s[0]] + rest[0]] + rest[1..]
  }

  /** `parts.join(sep)`. */
  function Join(parts: seq<string>, sep: string): string {
    if |parts| == 0 then ""
    else if |parts| == 1 then parts[0]
    else parts[0] + sep + Join(parts[1..], sep)
  }

  lemma {:induction false} JoinSplit(s: string, sep: char)
    ensures Join(Split(s, sep), [sep]) == s
  {
    if |s| > 0 {
      var rest := Split(s[1..], sep);
      JoinSplit(s[1..], sep);
      if s[0] == sep {
        assert Split(s, sep)[1..] == rest;
      } else {
        var parts := Split(s, sep);
        assert parts[1..] == rest[1..];
        if |rest| == 1 {
        } else {
          assert Join(rest, [sep]) == rest[0] + [sep] + Join(rest[1..], [sep]);
        }
      }
    }
  }

  lemma {:induction false} SplitJoin(parts: seq<string>, sep: char)
    requires |parts| >= 1
    requires forall i :: 0 <= i < |parts| ==> sep !in parts[i]
    ensures Split(Join(parts, [sep]), sep) == parts
  {
    if |parts| == 1 {
      SplitNoSep(parts[0], sep);
    } else {
      SplitJoin(parts[1..], sep);
      SplitPrefix(parts[0], Join(parts[1..], [sep]), sep);
    }
  }

  lemma {:induction false} SplitNoSep(s: string, sep: char)
    requires sep !in s
    ensures Split(s, sep) == [s]
  {
    if |s| > 0 {
      SplitNoSep(s[1..], sep);
      assert [s[0]] + s[1..] == s;
    }
  }

  /** Splitting `a + [sep] + b`, where `a` has no separator, yields `a` then the pieces of `b`. */
  lemma {:induction false} SplitPrefix(a: string, b: string, sep: char)
    requires sep !in a
    ensures Split(a + [sep] + b, sep) == [a] + Split(b, sep)
  {
    if |a| == 0 {
      assert a + [sep] + b == [sep] + b;
      assert ([sep] + b)[1..] == b;
    } else {
      assert (a + [sep] + b)[1..] == a[1..] + [sep] + b;
      SplitPrefix(a[1..], b, sep);
      assert [a[0]] + a[1..] == a;
    }
  }

  lemma {:induction false} SplitCount(s: string, sep: char)
    ensures |Split(s, sep)| == CountChar(s, sep) + 1
  {
    if |s| > 0 {
      SplitCount(s[1..], sep);
    }
  }

  /** `s.includes(needle)`. */
  predicate Contains(s: string, needle: string) {
    exists i :: 0 <= i <= |s| - |needle| && OccursAt(s, needle, i)
  }

  predicate OccursAt(s: string, needle: string, i: int)
    requires 0 <= i <= |s| - |needle|
  {
    s[i..i + |needle|] == needle
  }

  /** A number as the worker sees it after `parseInt`: an integer or NaN. */
  datatype JsNum = Num(n: int) | NaN

  /** `Math.max(lo, x)`: NaN is absorbing. */
  function MaxNum(lo: int, x: JsNum): (r: JsNum)
    ensures x.NaN? <==> r.NaN?
    ensures x.Num? ==> r.n >= lo && r.n >= x.n && (r.n == lo || r.n == x.n)
  {
    match x
    case NaN => NaN
    case Num(n) => Num(if n < lo then lo else n)
  }

  /** `Math.min(hi, x)`: NaN is absorbing. */
  function MinNum(hi: int, x: JsNum): (r: JsNum)
    ensures x.NaN? <==> r.NaN?
    ensures x.Num? ==> r.n <= hi && r.n <= x.n && (r.n == hi || r.n == x.n)
  {
    match x
    case NaN => NaN
    case Num(n) => Num(if n > hi then hi else n)
  }

  /** The value of an alphanumeric digit: 0-9, then a/A = 10 up to z/Z = 35. */
  function DigitValue(c: char): (d: nat)
    requires IsAsciiAlnum(c)
    ensures d < 36
    ensures IsDigit(c) <==> d < 10
  {
    if IsDigit(c) then c as int - '0' as int
    else if IsAsciiLower(c) then c as int - 'a' as int + 10
    else c as int - 'A' as int + 10
  }

  predicate IsRadixDigit(c: char, radix: nat) {
    IsAsciiAlnum(c) && DigitValue(c) < radix
  }

  /** The longest prefix of `s` made of digits of the given radix. */
  function DigitPrefix(s: string, radix: nat): (r: string)
    ensures |r| <= |s| && r == s[..|r|]
    ensures forall i :: 0 <= i < |r| ==> IsRadixDigit(r[i], radix)
    ensures |r| < |s| ==> !IsRadixDigit(s[|r|], radix)
  {
    if |s| > 0 && IsRadixDigit(s[0], radix) then [s[0]] + DigitPrefix(s[1..], radix) else []
  }

  /** The value of a digit string in the given radix, most significant digit first. */
  function RadixValue(s: string, radix: nat): nat
    requires forall i :: 0 <= i < |s| ==> IsRadixDigit(s[i], radix)
  {
    if |s| == 0 then 0
    else
      assert IsRadixDigit(s[|s| - 1], radix);
      RadixValue(s[..|s| - 1], radix) * radix + DigitValue(s[|s| - 1])
  }

  /** `parseInt(s)` with no radix (section 19.2.5 of ECMA-262): skip leading
      whitespace, an optional sign, a `0x`/`0X` prefix switching to radix 16,
      then the longest run of digits; NaN when that run is empty. */
  function ParseInt(s: string): JsNum {
    var t := TrimStart(s);
    var negative := |t| > 0 && t[0] == '-';
    var u := if |t| > 0 && (t[0] == '-' || t[0] == '+') then t[1..] else t;
    var hex := |u| >= 2 && u[0] == '0' && (u[1] == 'x' || u[1] == 'X');
    var radix := if hex then 16 else 10;
    var digits := DigitPrefix(if hex then u[2..] else u, radix);
    if |digits| == 0 then NaN
    else
      var m: int := RadixValue(digits, radix);
      Num(if negative then -m else m)
  }

  function DigitChar(d: nat): (c: char)
    requires d < 10
    ensures IsDigit(c) && DigitValue(c) == d
  {
    ('0' as int + d) as char
  }

  /** The decimal text of a natural number, as template-literal interpolation prints it. */
  function NatToDecimal(n: nat): (s: string)
    ensures IsDigits(s)
    ensures RadixValue(s, 10) == n
  {
    if n < 10 then [DigitChar(n)]
    else
      var s := NatToDecimal(n / 10) + [DigitChar(n % 10)];
      assert s[..|s| - 1] == NatToDecimal(n / 10);
      s
  }

  lemma {:induction false} DigitPrefixAll(s: string, radix: nat)
    requires forall i :: 0 <= i < |s| ==> IsRadixDigit(s[i], radix)
    ensures DigitPrefix(s, radix) == s
  {
    if |s| > 0 {
      DigitPrefixAll(s[1..], radix);
      assert [s[0]] + s[1..] == s;
    }
  }

  lemma {:induction false} DecimalDigitsAreRadix10(s: string)
    requires IsDigits(s)
    ensures forall i :: 0 <= i < |s| ==> IsRadixDigit(s[i], 10)
  {
    forall i | 0 <= i < |s| ensures IsRadixDigit(s[i], 10) {
      assert IsDigit(s[i]);
    }
  }

  /** `parseInt` reads back the decimal text of every natural number. */
  lemma {:induction false} ParseIntDecimal(n: nat)
    ensures ParseInt(NatToDecimal(n)) == Num(n)
  {
    var s := NatToDecimal(n);
    assert IsDigit(s[0]);
    assert DropWhile(s, IsJsSpace) == s;
    assert |s| >= 2 ==> IsDigit(s[1]);
    DecimalDigitsAreRadix10(s);
    DigitPrefixAll(s, 10);
  }
}

=== FILE: posts.dfy ===
/**
 * worker/src/routes/posts.ts: the listing and lookup of news posts and the
 * authenticated create, update and delete, over the posts table as a map from
 * id to row. The handlers mirror the product ones; the differences are the
 * status filter of the listing, the `published` visibility rule and the
 * defaults of a new post.
 */
module Posts {
  import opened Wrappers
  import opened JsText
  import opened Slug
  import opened Utils
  import opened Db
  import Table

  datatype Post = Post(slug: string, title: string, summary: string, content: string, author: string,
                       featured: int, status: string)

  /** A JSON request body; `None` is a field the body leaves out, `featured` is
      the truthiness of the field. */
  datatype PostInput = PostInput(title: Option<string>, summary: Option<string>, content: Option<string>,
                                 author: Option<string>, featured: Option<bool>, status: Option<string>)

  type Posts = map<int, Post>

  datatype Step<T> = Step(response: Response<T>, table: Posts)

  const NotFound: string := "Post not found"
  const TitleRequired: string := "Post title is required"
  const TitleTaken: string := "Post with this title already exists"
  const RereadCreatedFailed: string := "Failed to retrieve created post"
  const RereadUpdatedFailed: string := "Failed to retrieve updated post"
  const Deleted: string := "Post deleted successfully"
  const DefaultAuthor: string := "Admin"
  const Published: string := "published"

  function SlugOf(p: Post): string { p.slug }

  // ---------------------------------------------------------------------------
  // GET /

  /** The query of GET / after `normalizePagination`, for numeric values. */
  datatype ListQuery = ListQuery(page: int, pageSize: int, status: Option<string>)

  predicate NumericPaging(query: ListQuery) {
    query.page >= 1 && 1 <= query.pageSize <= MaxPageSize
  }

  /** `c.req.query('status') || 'published'`. */
  function ListStatus(query: ListQuery): (status: string)
    ensures Truthy(query.status) ==> status == query.status.value
    ensures !Truthy(query.status) ==> status == Published
  {
    OrElse(query.status, Published)
  }

  /** The statements GET / prepares as written: `[status]` is built but not passed on. */
  function ListStatementsAsWritten(query: ListQuery): (issued: seq<Statement>)
    requires NumericPaging(query)
    ensures |issued| == 2
  {
    GetPaginatedData<Post>([], AnyRow, "posts", query.page, query.pageSize, Table.StatusCondition, Table.ListOrder, NoListingFaults).issued
  }

  /** As written, the status placeholder never receives the status: the count
      binds nothing, and the page query puts the page size in its place. */
  lemma {:induction false} ListingDropsStatus(query: ListQuery)
    requires NumericPaging(query)
    ensures var issued := ListStatementsAsWritten(query);
      && !WellBound(issued[0]) && !WellBound(issued[1])
      && issued[1].binds[0] == Int(query.pageSize)
  {
    Table.StatusPlaceholders();
    Table.ListOrderPlaceholders();
    UnboundWhereMisbinds<Post>([], AnyRow, "posts", query.page, query.pageSize, Table.StatusCondition, Table.ListOrder, NoListingFaults);
  }

  /** The rows `WHERE status = ?` selects, as a predicate on rows. */
  function HasStatus(status: string): Post -> bool {
    (p: Post) => p.status == status
  }

  /** GET / with the status bound: the listing the handler evidently intends. */
  function ListPosts(rows: seq<Post>, query: ListQuery, faults: ListingFaults): (r: (seq<Statement>, Response<Page<Post>>))
    requires NumericPaging(query)
    ensures r.1.status == 200 || r.1.status == 500
    ensures r.1.status == 200 <==> faults.count.None? && faults.slice.None?
    ensures r.1.status == 200 ==> r.1.body.data.Some?
    ensures r.1.status == 200 ==>
      var selected := Filter(rows, HasStatus(ListStatus(query)));
      r.1.body.data.value == Page(Window(selected, Offset(query.page, query.pageSize), query.pageSize),
                                  Meta(query.page, query.pageSize, |selected|))
  {
    var status := ListStatus(query);
    var l := GetPaginatedDataBound(rows, HasStatus(status), "posts", query.page, query.pageSize,
                                   Table.StatusCondition, [Text(status)], Table.ListOrder, faults);
    (l.issued, if l.result.Err? then Fail(500, l.result.error) else Succeed(200, l.result.value))
  }

  /** With the status bound, both statements are well bound and every listed post
      has the requested status (`published` by default). */
  lemma {:induction false} ListPostsSound(rows: seq<Post>, query: ListQuery, faults: ListingFaults)
    requires NumericPaging(query)
    ensures var r := ListPosts(rows, query, faults);
      && (forall i :: 0 <= i < |r.0| ==> WellBound(r.0[i]))
      && (r.1.status == 200 ==> forall p :: p in r.1.body.data.value.items ==> p in rows && p.status == ListStatus(query))
  {
    var status := ListStatus(query);
    var holds := HasStatus(status);
    Table.StatusPlaceholders();
    Table.ListOrderPlaceholders();
    PaginateWellBound(rows, holds, "posts", Table.StatusCondition, [Text(status)], Table.ListOrder, query.page, query.pageSize, faults);
    if faults.count.None? && faults.slice.None? {
      PageLength(rows, holds, "posts", Table.StatusCondition, [Text(status)], Table.ListOrder, query.page, query.pageSize, faults);
    }
  }

  // ---------------------------------------------------------------------------
  // GET /:id

  /** The row `SELECT * FROM posts WHERE ${field} = ? AND status = 'published'`
      finds: by id when the parameter is a digit string, by slug otherwise. */
  function Lookup(t: Posts, id: string): (k: Option<int>)
    ensures k.Some? ==> k.value in t && t[k.value].status == Published
    ensures IsDigits(id) ==> (k.Some? <==> Table.IdKey(id).value in t && t[Table.IdKey(id).value].status == Published)
    ensures IsDigits(id) && k.Some? ==> Table.IdKey(id) == k
    ensures !IsDigits(id) ==> k == Table.FirstKey(t, (p: Post) => p.slug == id && p.status == Published)
  {
    if IsDigits(id) then
      var key := Table.IdKey(id).value;
      if key in t && t[key].status == Published then Some(key) else None
    else Table.FirstKey(t, (p: Post) => p.slug == id && p.status == Published)
  }

  /** GET /:id. */
  function GetPost(t: Posts, id: string, fault: Option<Thrown>): (r: Response<Post>)
    ensures fault.Some? ==> r == Fail(500, Message(fault.value, QueryFailed))
    ensures fault.None? ==> (r.status == 404 <==> Lookup(t, id).None?)
    ensures fault.None? && Lookup(t, id).Some? ==> r == Succeed(200, t[Lookup(t, id).value])
  {
    var found := QueryDB(Call(fault, Lookup(t, id)));
    if found.Err? then Fail(500, found.error)
    else if found.value.None? then Fail(404, NotFound)
    else Succeed(200, t[found.value.value])
  }

  // ---------------------------------------------------------------------------
  // POST /

  datatype CreateFaults = CreateFaults(check: Option<Thrown>, insert: Option<Thrown>, reread: Option<Thrown>)

  const NoCreateFaults: CreateFaults := CreateFaults(None, None, None)

  /** The row the INSERT writes: empty summary and content, author `Admin`,
      `featured` as 0/1, and the body's status or `published`. */
  function NewPost(slug: string, title: string, body: PostInput): (p: Post)
    ensures p.slug == slug && p.title == title
    ensures p.summary == (if Truthy(body.summary) then body.summary.value else "")
    ensures p.content == (if Truthy(body.content) then body.content.value else "")
    ensures p.author == (if Truthy(body.author) then body.author.value else DefaultAuthor)
    ensures p.status == (if Truthy(body.status) then body.status.value else Published)
    ensures p.featured == (if body.featured == Some(true) then 1 else 0)
  {
    Post(slug, title, OrElse(body.summary, ""), OrElse(body.content, ""), OrElse(body.author, DefaultAuthor),
         if body.featured == Some(true) then 1 else 0, OrElse(body.status, Published))
  }

  /** POST /: `newId` is the rowid D1 assigns to the inserted row. */
  function CreatePost(t: Posts, body: PostInput, newId: int, faults: CreateFaults): (s: Step<Post>)
    requires newId !in t
    ensures !Truthy(body.title) ==> s == Step(Fail(400, TitleRequired), t)
    ensures Truthy(body.title) && faults.check.None? && Table.SlugTaken(t, SlugOf, GenerateSlug(body.title.value), None) ==>
      s == Step(Fail(400, TitleTaken), t)
    ensures var inserts := Truthy(body.title) && faults.insert.None?
        && (faults.check.Some? || !Table.SlugTaken(t, SlugOf, GenerateSlug(body.title.value), None));
      && (inserts ==> s.table == t[newId := NewPost(GenerateSlug(body.title.value), body.title.value, body)])
      && (!inserts ==> s.table == t)
      && (s.response.status == 201 <==> inserts && faults.reread.None?)
    ensures s.response.status == 201 ==> s.response == Succeed(201, s.table[newId])
  {
    if !Truthy(body.title) then Step(Fail(400, TitleRequired), t)
    else
      var title := body.title.value;
      var slug := GenerateSlug(title);
      var existing := QueryDB(Call(faults.check, Table.SlugOwner(t, SlugOf, slug, None)));
      if existing.Ok? && existing.value.Some? then Step(Fail(400, TitleTaken), t)
      else
        var inserted := ExecuteDB(Call(faults.insert, newId));
        if inserted.Err? then Step(Fail(500, inserted.error), t)
        else
          var t' := t[newId := NewPost(slug, title, body)];
          var reread := QueryDB(Call(faults.reread, t'[newId]));
          if reread.Err? then Step(Fail(500, RereadCreatedFailed), t')
          else Step(Succeed(201, reread.value), t')
  }

  /** A created post is visible to GET /:id exactly when its status is `published`,
      which it is unless the body names another status. */
  lemma {:induction false} CreatedPostVisibility(t: Posts, body: PostInput, newId: nat)
    requires newId !in t
    requires CreatePost(t, body, newId, NoCreateFaults).response.status == 201
    ensures var t1 := CreatePost(t, body, newId, NoCreateFaults).table;
      (GetPost(t1, NatToDecimal(newId), None).status == 200 <==> !Truthy(body.status) || body.status.value == Published)
  {
    var t1 := CreatePost(t, body, newId, NoCreateFaults).table;
    Table.IdKeyDecimal(newId);
    assert Table.IdKey(NatToDecimal(newId)) == Some(newId);
  }

  /** With the existence check answering, a create never introduces a second row
      with the same slug. */
  lemma {:induction false} CreateKeepsSlugsUnique(t: Posts, body: PostInput, newId: int, faults: CreateFaults)
    requires newId !in t && faults.check.None?
    requires Table.UniqueSlugs(t, SlugOf)
    ensures Table.UniqueSlugs(CreatePost(t, body, newId, faults).table, SlugOf)
  {
    var s := CreatePost(t, body, newId, faults);
    if s.table != t {
      var slug := GenerateSlug(body.title.value);
      assert !Table.SlugTaken(t, SlugOf, slug, None);
      forall i, j | i in s.table && j in s.table && i != j ensures SlugOf(s.table[i]) != SlugOf(s.table[j]) {
        if i == newId {
          assert j in t && SlugOf(t[j]) != slug;
        } else if j == newId {
          assert i in t && SlugOf(t[i]) != slug;
        }
      }
    }
  }

  // ---------------------------------------------------------------------------
  // PUT /:id

  datatype UpdateFaults = UpdateFaults(lookup: Option<Thrown>, slugCheck: Option<Thrown>, write: Option<Thrown>, reread: Option<Thrown>)

  const NoUpdateFaults: UpdateFaults := UpdateFaults(None, None, None, None)

  /** `title && title !== existing.title`. */
  predicate Retitles(stored: Post, body: PostInput) {
    Truthy(body.title) && body.title.value != stored.title
  }

  function NewSlug(stored: Post, body: PostInput): string {
    if Retitles(stored, body) then GenerateSlug(body.title.value) else stored.slug
  }

  /** The row after `UPDATE … SET col = COALESCE(?, col)`. */
  function Merge(stored: Post, body: PostInput, slug: string): (p: Post)
    ensures p.slug == (if Truthy(body.title) then slug else stored.slug)
    ensures body.title.None? ==> p.title == stored.title
    ensures body.summary.None? ==> p.summary == stored.summary
    ensures body.content.None? ==> p.content == stored.content
    ensures body.author.None? ==> p.author == stored.author
    ensures body.featured.None? ==> p.featured == stored.featured
    ensures body.status.None? ==> p.status == stored.status
    ensures body.title.Some? ==> p.title == body.title.value
    ensures body.summary.Some? ==> p.summary == body.summary.value
    ensures body.content.Some? ==> p.content == body.content.value
    ensures body.author.Some? ==> p.author == body.author.value
    ensures body.status.Some? ==> p.status == body.status.value
    ensures body.featured.Some? ==> p.featured == (if body.featured.value then 1 else 0)
  {
    Post(if Truthy(body.title) then slug else stored.slug,
         body.title.GetOr(stored.title), body.summary.GetOr(stored.summary), body.content.GetOr(stored.content),
         body.author.GetOr(stored.author),
         if body.featured.Some? then (if body.featured.value then 1 else 0) else stored.featured,
         body.status.GetOr(stored.status))
  }

  /** PUT /:id. */
  function UpdatePost(t: Posts, id: string, body: PostInput, faults: UpdateFaults): (s: Step<Post>)
    ensures faults.lookup.Some? ==> s == Step(Fail(500, Message(faults.lookup.value, QueryFailed)), t)
    ensures faults.lookup.None? && Table.RowAt(t, id).None? ==> s == Step(Fail(404, NotFound), t)
    ensures s.table == t || (Table.RowAt(t, id).Some? &&
      var k := Table.RowAt(t, id).value;
      s.table == t[k := Merge(t[k], body, NewSlug(t[k], body))])
    ensures faults.lookup.None? && Table.RowAt(t, id).Some? ==>
      var k := Table.RowAt(t, id).value;
      (Retitles(t[k], body) && faults.slugCheck.None? && Table.SlugTaken(t, SlugOf, NewSlug(t[k], body), Some(k)) ==>
        s == Step(Fail(400, TitleTaken), t))
    ensures faults.lookup.None? && Table.RowAt(t, id).Some? ==>
      var k := Table.RowAt(t, id).value;
      var t' := t[k := Merge(t[k], body, NewSlug(t[k], body))];
      (!Retitles(t[k], body) || faults.slugCheck.Some? || !Table.SlugTaken(t, SlugOf, NewSlug(t[k], body), Some(k))) ==>
        && (faults.write.Some? ==> s == Step(Fail(500, Message(faults.write.value, ExecuteFailed)), t))
        && (faults.write.None? && faults.reread.Some? ==> s == Step(Fail(500, RereadUpdatedFailed), t'))
        && (faults.write.None? && faults.reread.None? ==> s == Step(Succeed(200, t'[k]), t'))
    ensures s.response.status == 200 ==> s.response == Succeed(200, s.table[Table.RowAt(t, id).value])
  {
    var found := QueryDB(Call(faults.lookup, Table.RowAt(t, id)));
    if found.Err? then Step(Fail(500, found.error), t)
    else if found.value.None? then Step(Fail(404, NotFound), t)
    else
      var k := found.value.value;
      var stored := t[k];
      var slug := NewSlug(stored, body);
      var clash := QueryDB(Call(faults.slugCheck, Table.SlugOwner(t, SlugOf, slug, Some(k))));
      if Retitles(stored, body) && clash.Ok? && clash.value.Some? then
        Step(Fail(400, TitleTaken), t)
      else
        var written := ExecuteDB(Call(faults.write, k));
        if written.Err? then Step(Fail(500, written.error), t)
        else
          var t' := t[k := Merge(stored, body, slug)];
          var reread := QueryDB(Call(faults.reread, t'[k]));
          if reread.Err? then Step(Fail(500, RereadUpdatedFailed), t')
          else Step(Succeed(200, reread.value), t')
  }

  /** The stored slug changes only when the body gives a new title. */
  lemma {:induction false} SlugChangesOnlyOnRetitle(t: Posts, id: string, body: PostInput, faults: UpdateFaults, k: int)
    requires k in t
    ensures var s := UpdatePost(t, id, body, faults);
      k in s.table && (s.table[k].slug != t[k].slug ==> Retitles(t[k], body))
  {
  }

  /** With the collision check answering, an update never makes two rows share a slug. */
  lemma {:induction false} UpdateKeepsSlugsUnique(t: Posts, id: string, body: PostInput, faults: UpdateFaults)
    requires faults.slugCheck.None?
    requires Table.UniqueSlugs(t, SlugOf)
    ensures Table.UniqueSlugs(UpdatePost(t, id, body, faults).table, SlugOf)
  {
    var s := UpdatePost(t, id, body, faults);
    if s.table != t {
      var k := Table.RowAt(t, id).value;
      var slug := NewSlug(t[k], body);
      if Retitles(t[k], body) {
        assert !Table.SlugTaken(t, SlugOf, slug, Some(k));
      }
      forall i, j | i in s.table && j in s.table && i != j ensures SlugOf(s.table[i]) != SlugOf(s.table[j]) {
        if i == k {
          assert s.table[j] == t[j];
        } else if j == k {
          assert s.table[i] == t[i];
        }
      }
    }
  }

  /** Repeating a successful update changes nothing further. */
  lemma {:induction false} UpdateIdempotent(t: Posts, id: string, body: PostInput)
    requires UpdatePost(t, id, body, NoUpdateFaults).response.status == 200
    ensures var t1 := UpdatePost(t, id, body, NoUpdateFaults).table;
      UpdatePost(t1, id, body, NoUpdateFaults).table == t1
  {
    var k := Table.RowAt(t, id).value;
    var t1 := UpdatePost(t, id, body, NoUpdateFaults).table;
    var row := Merge(t[k], body, NewSlug(t[k], body));
    assert t1 == t[k := row];
    assert Table.RowAt(t1, id) == Some(k);
    assert !Retitles(row, body);
    assert Merge(row, body, NewSlug(row, body)) == row;
  }

  // ---------------------------------------------------------------------------
  // DELETE /:id

  datatype DeleteFaults = DeleteFaults(lookup: Option<Thrown>, write: Option<Thrown>)

  const NoDeleteFaults: DeleteFaults := DeleteFaults(None, None)

  /** DELETE /:id: exactly the addressed row goes, every other row stays. */
  function DeletePost(t: Posts, id: string, faults: DeleteFaults): (s: Step<string>)
    ensures faults.lookup.Some? ==> s == Step(Fail(500, Message(faults.lookup.value, QueryFailed)), t)
    ensures faults.lookup.None? && Table.RowAt(t, id).None? ==> s == Step(Fail(404, NotFound), t)
    ensures s.response.status == 200 <==> faults.lookup.None? && Table.RowAt(t, id).Some? && faults.write.None?
    ensures s.response.status == 200 ==>
      && s == Step(Succeed(200, Deleted), t - {Table.RowAt(t, id).value})
      && forall j :: j in t && Some(j) != Table.RowAt(t, id) ==> j in s.table && s.table[j] == t[j]
    ensures s.response.status != 200 ==> s.table == t
  {
    var found := QueryDB(Call(faults.lookup, Table.RowAt(t, id)));
    if found.Err? then Step(Fail(500, found.error), t)
    else if found.value.None? then Step(Fail(404, NotFound), t)
    else
      var k := found.value.value;
      var deleted := ExecuteDB(Call(faults.write, k));
      if deleted.Err? then Step(Fail(500, deleted.error), t)
      else Step(Succeed(200, Deleted), t - {k})
  }

  /** Deleting a freshly created post by its id gives back the table as it was. */
  lemma {:induction false} DeleteUndoesCreate(t: Posts, body: PostInput, newId: nat)
    requires newId !in t
    requires CreatePost(t, body, newId, NoCreateFaults).response.status == 201
    ensures var t1 := CreatePost(t, body, newId, NoCreateFaults).table;
      var s := DeletePost(t1, NatToDecimal(newId), NoDeleteFaults);
      s.response.status == 200 && s.table == t
  {
    var t1 := CreatePost(t, body, newId, NoCreateFaults).table;
    Table.IdKeyDecimal(newId);
    assert Table.RowAt(t1, NatToDecimal(newId)) == Some(newId);
    assert t1 - {newId} == t;
  }
}

=== FILE: products.dfy ===
/**
 * worker/src/routes/products.ts: the public listing and lookup of products and
 * the authenticated create, update and delete, over the products table as a
 * map from id to row. Every D1 call may fail; the failure of each call is an
 * input (`Option<Thrown>`), so every branch of the handlers is reachable.
 */
module Products {
  import opened Wrappers
  import opened JsText
  import opened Slug
  import opened Utils
  import opened Db
  import Table

  /** A row of the products table. `price` is a JavaScript number, kept as the
      exact rational value of the double; nothing here does arithmetic on it. */
  datatype Product = Product(slug: string, name: string, summary: string, description: string,
                             price: real, category: string, images: string, specs: string,
                             featured: int, status: string)

  /** A JSON value of the request body as `JSON.stringify` writes it, together
      with its JavaScript truthiness (`null`, `""`, `0` and `false` are falsy). */
  datatype JsonValue = JsonValue(text: string, truthy: bool)

  /** A JSON request body. For the text and number fields `None` is a field the
      body leaves out or sets to `null`. `images` and `specs` are kept as JSON
      values, where `None` is only a field left out, because the handlers
      stringify a `null` too. `featured` is the truthiness of a field that is
      present, `null` included. */
  datatype ProductInput = ProductInput(name: Option<string>, summary: Option<string>, description: Option<string>,
                                       price: Option<real>, category: Option<string>, images: Option<JsonValue>,
                                       specs: Option<JsonValue>, featured: Option<bool>, status: Option<string>)

  /** `JSON.stringify(value || fallback)` for a JSON field of the create body. */
  function JsonOr(value: Option<JsonValue>, fallback: string): string {
    if value.Some? && value.value.truthy then value.value.text else fallback
  }

  type Products = map<int, Product>

  /** A handler's response together with the table it leaves behind. */
  datatype Step<T> = Step(response: Response<T>, table: Products)

  const NotFound: string := "Product not found"
  const NameRequired: string := "Product name is required"
  const NameTaken: string := "Product with this name already exists"
  const RereadCreatedFailed: string := "Failed to retrieve created product"
  const RereadUpdatedFailed: string := "Failed to retrieve updated product"
  const Deleted: string := "Product deleted successfully"

  function SlugOf(p: Product): string { p.slug }

  // ---------------------------------------------------------------------------
  // GET /  — the listing filter

  const CategoryField: string := "category = "
  const NameLike: string := "(name LIKE "
  const SummaryLike: string := " OR summary LIKE "
  const CloseParen: string := ")"

  /** `1`, `(name LIKE ? OR summary LIKE ?)` and `category = ?`. */
  const TrueCondition: string := "1"
  const SearchCondition: string := NameLike + Placeholder + SummaryLike + Placeholder + CloseParen
  const CategoryCondition: string := CategoryField + Placeholder
  const AndWord: string := " AND "

  /** The WHERE conditions and the values for their placeholders. */
  datatype ListFilter = ListFilter(conditions: seq<string>, params: seq<Value>)

  /** The condition list the handler builds from `q || ''` and `category || ''`. */
  function BuildFilter(search: string, category: string): (f: ListFilter)
    ensures |f.conditions| == 2 + (if search != "" then 1 else 0) + (if category != "" then 1 else 0)
    ensures |f.params| == 1 + (if search != "" then 2 else 0) + (if category != "" then 1 else 0)
    ensures f.conditions[..2] == [Table.StatusCondition, TrueCondition] && f.params[0] == Text("active")
    ensures search != "" ==>
      (f.conditions[2] == SearchCondition && f.params[1] == f.params[2] == Text("%" + search + "%"))
    ensures category != "" ==>
      (f.conditions[|f.conditions| - 1] == CategoryCondition && f.params[|f.params| - 1] == Text(category))
  {
    var pattern := Text("%" + search + "%");
    ListFilter(
      [Table.StatusCondition, TrueCondition]
        + (if search != "" then [SearchCondition] else [])
        + (if category != "" then [CategoryCondition] else []),
      [Text("active")]
        + (if search != "" then [pattern, pattern] else [])
        + (if category != "" then [Text(category)] else []))
  }

  /** `whereConditions.join(' AND ')`. */
  function WhereClause(f: ListFilter): string {
    Join(f.conditions, AndWord)
  }

  lemma {:induction false} CategoryFieldPlaceholders() ensures CountChar(CategoryField, '?') == 0 {
    CountCharNone(CategoryField, '?');
  }

  lemma {:induction false} TruePlaceholders() ensures CountChar(TrueCondition, '?') == 0 {
    CountCharNone(TrueCondition, '?');
  }

  lemma {:induction false} AndPlaceholders() ensures CountChar(AndWord, '?') == 0 {
    CountCharNone(AndWord, '?');
  }

  lemma {:induction false} NameLikePlaceholders() ensures CountChar(NameLike, '?') == 0 {
    CountCharNone(NameLike, '?');
  }

  lemma {:induction false} SummaryLikePlaceholders() ensures CountChar(SummaryLike, '?') == 0 {
    CountCharNone(SummaryLike, '?');
  }

  lemma {:induction false} CloseParenPlaceholders() ensures CountChar(CloseParen, '?') == 0 {
    CountCharNone(CloseParen, '?');
  }

  lemma {:induction false} CategoryPlaceholders() ensures CountChar(CategoryCondition, '?') == 1 {
    PlaceholderCount();
    CategoryFieldPlaceholders();
    CountCharAppend(CategoryField, Placeholder, '?');
  }

  lemma {:induction false} SearchPlaceholders()
    ensures CountChar(SearchCondition, '?') == 2
  {
    PlaceholderCount();
    NameLikePlaceholders();
    SummaryLikePlaceholders();
    CloseParenPlaceholders();
    CountCharAppend4(NameLike, Placeholder, SummaryLike, Placeholder);
    CountCharAppend(NameLike + Placeholder + SummaryLike + Placeholder, CloseParen, '?');
  }

  /** The joined WHERE clause has exactly one `?` per value in `params`. */
  lemma {:induction false} FilterPlaceholders(search: string, category: string)
    ensures var f := BuildFilter(search, category);
      CountChar(WhereClause(f), '?') == |f.params|
  {
    var f := BuildFilter(search, category);
    Table.StatusPlaceholders();
    CategoryPlaceholders();
    TruePlaceholders();
    AndPlaceholders();
    SearchPlaceholders();
    CountCharJoin(f.conditions, AndWord, '?');
    var base := [Table.StatusCondition, TrueCondition];
    var s: seq<string> := if search != "" then [SearchCondition] else [];
    var c: seq<string> := if category != "" then [CategoryCondition] else [];
    assert f.conditions == base + s + c;
    SumCountAppend(base + s, c, '?');
    SumCountAppend(base, s, '?');
    assert SumCount(base, '?') == 1 by {
      assert base[1..] == [TrueCondition];
      assert base[1..][1..] == [];
    }
    assert SumCount(s, '?') == (if search != "" then 2 else 0) by {
      if search != "" { assert s[1..] == []; }
    }
    assert SumCount(c, '?') == (if category != "" then 1 else 0) by {
      if category != "" { assert c[1..] == []; }
    }
  }

  /** `LIKE '%q%'`: an ASCII case-insensitive substring test. */
  predicate Like(s: string, needle: string) {
    Contains(ToLower(s), ToLower(needle))
  }

  /** The rows the filter selects once its values are bound. */
  predicate Matches(p: Product, search: string, category: string) {
    && p.status == "active"
    && (search == "" || Like(p.name, search) || Like(p.summary, search))
    && (category == "" || p.category == category)
  }

  /** The query of GET / after `normalizePagination`, for numeric `page` and
      `pageSize`, so that `page >= 1` and `1 <= pageSize <= 100`. */
  datatype ListQuery = ListQuery(page: int, pageSize: int, q: Option<string>, category: Option<string>)

  predicate NumericPaging(query: ListQuery) {
    query.page >= 1 && 1 <= query.pageSize <= MaxPageSize
  }

  /** Numeric query values always normalise into that range. */
  lemma {:induction false} NormalizedIsNumericPaging(page: Option<string>, pageSize: Option<string>, q: Option<string>, category: Option<string>)
    requires NormalizePagination(page, pageSize).page.Num? && NormalizePagination(page, pageSize).pageSize.Num?
    ensures var r := NormalizePagination(page, pageSize);
      NumericPaging(ListQuery(r.page.n, r.pageSize.n, q, category))
  {
  }

  /** The statements GET / prepares as written: the filter's values are built but
      `getPaginatedData` is called without them. */
  function ListStatementsAsWritten(query: ListQuery): (issued: seq<Statement>)
    requires NumericPaging(query)
    ensures |issued| == 2
  {
    var f := BuildFilter(OrElse(query.q, ""), OrElse(query.category, ""));
    GetPaginatedData<Product>([], AnyRow, "products", query.page, query.pageSize, WhereClause(f), Table.ListOrder, NoListingFaults).issued
  }

  /** As written, neither statement is well bound: the count leaves every filter
      placeholder without a value, and the page query's first value, the page
      size, lands on `status = ?` rather than on LIMIT. */
  lemma {:induction false} ListStatementsShape(query: ListQuery)
    requires NumericPaging(query)
    ensures var where := WhereClause(BuildFilter(OrElse(query.q, ""), OrElse(query.category, "")));
      ListStatementsAsWritten(query) ==
        GetPaginatedData<Product>([], AnyRow, "products", query.page, query.pageSize, where, Table.ListOrder, NoListingFaults).issued
  {
  }

  lemma {:induction false} ListingDropsParams(query: ListQuery)
    requires NumericPaging(query)
    ensures var issued := ListStatementsAsWritten(query);
      && !WellBound(issued[0]) && !WellBound(issued[1])
      && issued[1].binds[0] == Int(query.pageSize)
  {
    var search, category := OrElse(query.q, ""), OrElse(query.category, "");
    var where := WhereClause(BuildFilter(search, category));
    FilterPlaceholders(search, category);
    ListStatementsShape(query);
    Table.ListOrderPlaceholders();
    UnboundWhereMisbinds<Product>([], AnyRow, "products", query.page, query.pageSize, where, Table.ListOrder, NoListingFaults);
  }

  /** The rows the listing's WHERE clause selects, as a predicate on rows. */
  function Selects(search: string, category: string): Product -> bool {
    (p: Product) => Matches(p, search, category)
  }

  /** GET / with the filter's values bound: the listing the handler evidently
      intends. A failed listing answers 500 with the query's error. */
  function ListProducts(rows: seq<Product>, query: ListQuery, faults: ListingFaults): (r: (seq<Statement>, Response<Page<Product>>))
    requires NumericPaging(query)
    ensures r.1.status == 200 || r.1.status == 500
    ensures r.1.status == 200 <==> faults.count.None? && faults.slice.None?
    ensures r.1.status == 200 ==> r.1.body.data.Some?
    ensures r.1.status == 200 ==>
      var selected := Filter(rows, Selects(OrElse(query.q, ""), OrElse(query.category, "")));
      r.1.body.data.value == Page(Window(selected, Offset(query.page, query.pageSize), query.pageSize),
                                  Meta(query.page, query.pageSize, |selected|))
  {
    var search := OrElse(query.q, "");
    var category := OrElse(query.category, "");
    var f := BuildFilter(search, category);
    var l := GetPaginatedDataBound(rows, Selects(search, category), "products",
                                   query.page, query.pageSize, WhereClause(f), f.params, Table.ListOrder, faults);
    (l.issued, if l.result.Err? then Fail(500, l.result.error) else Succeed(200, l.result.value))
  }

  /** With the values bound, both statements are well bound, and every listed
      product is active and matches the search and category. */
  lemma {:induction false} ListProductsSound(rows: seq<Product>, query: ListQuery, faults: ListingFaults)
    requires NumericPaging(query)
    ensures var r := ListProducts(rows, query, faults);
      && (forall i :: 0 <= i < |r.0| ==> WellBound(r.0[i]))
      && (r.1.status == 200 ==> forall p :: p in r.1.body.data.value.items ==>
            p in rows && Matches(p, OrElse(query.q, ""), OrElse(query.category, "")))
  {
    var search, category := OrElse(query.q, ""), OrElse(query.category, "");
    var f := BuildFilter(search, category);
    var holds := Selects(search, category);
    FilterPlaceholders(search, category);
    Table.ListOrderPlaceholders();
    PaginateWellBound(rows, holds, "products", WhereClause(f), f.params, Table.ListOrder, query.page, query.pageSize, faults);
    if faults.count.None? && faults.slice.None? {
      PageLength(rows, holds, "products", WhereClause(f), f.params, Table.ListOrder, query.page, query.pageSize, faults);
    }
  }

  // ---------------------------------------------------------------------------
  // GET /:id

  /** The row `SELECT * FROM products WHERE ${field} = ? AND status = 'active'`
      finds: by id when the parameter is a digit string, by slug otherwise. */
  function Lookup(t: Products, id: string): (k: Option<int>)
    ensures k.Some? ==> k.value in t && t[k.value].status == "active"
    ensures IsDigits(id) ==> (k.Some? <==> Table.IdKey(id).value in t && t[Table.IdKey(id).value].status == "active")
    ensures IsDigits(id) && k.Some? ==> Table.IdKey(id) == k
    ensures !IsDigits(id) ==> k == Table.FirstKey(t, (p: Product) => p.slug == id && p.status == "active")
  {
    if IsDigits(id) then
      var key := Table.IdKey(id).value;
      if key in t && t[key].status == "active" then Some(key) else None
    else Table.FirstKey(t, (p: Product) => p.slug == id && p.status == "active")
  }

  /** GET /:id. */
  function GetProduct(t: Products, id: string, fault: Option<Thrown>): (r: Response<Product>)
    ensures fault.Some? ==> r == Fail(500, Message(fault.value, QueryFailed))
    ensures fault.None? ==> (r.status == 404 <==> Lookup(t, id).None?)
    ensures fault.None? && Lookup(t, id).Some? ==> r == Succeed(200, t[Lookup(t, id).value])
  {
    var found := QueryDB(Call(fault, Lookup(t, id)));
    if found.Err? then Fail(500, found.error)
    else if found.value.None? then Fail(404, NotFound)
    else Succeed(200, t[found.value.value])
  }

  /** A product whose slug is a digit string is never found by its slug: the
      parameter is taken for an id. */
  lemma {:induction false} DigitSlugIsShadowed(t: Products, k: int)
    requires k in t && IsDigits(t[k].slug) && t[k].status == "active"
    requires Table.IdKey(t[k].slug).value != k
    ensures Lookup(t, t[k].slug) != Some(k)
  {
  }

  /** Public lookups never reveal a product that is not active. */
  lemma {:induction false} LookupOnlyActive(t: Products, id: string, k: int)
    requires k in t && t[k].status != "active"
    ensures GetProduct(t, id, None).body.data != Some(t[k])
  {
  }

  // ---------------------------------------------------------------------------
  // POST /

  datatype CreateFaults = CreateFaults(check: Option<Thrown>, insert: Option<Thrown>, reread: Option<Thrown>)

  const NoCreateFaults: CreateFaults := CreateFaults(None, None, None)

  /** The row the INSERT writes: the defaults of the handler, `featured` as 0/1,
      and status `active` whatever the body says. */
  function NewProduct(slug: string, name: string, body: ProductInput): (p: Product)
    ensures p.slug == slug && p.name == name && p.status == "active"
    ensures p.summary == (if Truthy(body.summary) then body.summary.value else "")
    ensures p.description == (if Truthy(body.description) then body.description.value else "")
    ensures p.category == (if Truthy(body.category) then body.category.value else "")
    ensures p.price == (if body.price.Some? then body.price.value else 0.0)
    ensures p.images == (if body.images.Some? && body.images.value.truthy then body.images.value.text else "[]")
    ensures p.specs == (if body.specs.Some? && body.specs.value.truthy then body.specs.value.text else "{}")
    ensures p.featured == (if body.featured == Some(true) then 1 else 0)
  {
    Product(slug, name, OrElse(body.summary, ""), OrElse(body.description, ""), body.price.GetOr(0.0),
            OrElse(body.category, ""), JsonOr(body.images, "[]"), JsonOr(body.specs, "{}"),
            if body.featured == Some(true) then 1 else 0, "active")
  }

  /** POST /: `newId` is the rowid D1 assigns to the inserted row. */
  function CreateProduct(t: Products, body: ProductInput, newId: int, faults: CreateFaults): (s: Step<Product>)
    requires newId !in t
    ensures !Truthy(body.name) ==> s == Step(Fail(400, NameRequired), t)
    ensures Truthy(body.name) && faults.check.None? && Table.SlugTaken(t, SlugOf, GenerateSlug(body.name.value), None) ==>
      s == Step(Fail(400, NameTaken), t)
    ensures var inserts := Truthy(body.name) && faults.insert.None?
        && (faults.check.Some? || !Table.SlugTaken(t, SlugOf, GenerateSlug(body.name.value), None));
      && (inserts ==> s.table == t[newId := NewProduct(GenerateSlug(body.name.value), body.name.value, body)])
      && (!inserts ==> s.table == t)
      && (s.response.status == 201 <==> inserts && faults.reread.None?)
    ensures s.response.status == 201 ==> s.response == Succeed(201, s.table[newId])
  {
    if !Truthy(body.name) then Step(Fail(400, NameRequired), t)
    else
      var name := body.name.value;
      var slug := GenerateSlug(name);
      var existing := QueryDB(Call(faults.check, Table.SlugOwner(t, SlugOf, slug, None)));
      if existing.Ok? && existing.value.Some? then Step(Fail(400, NameTaken), t)
      else
        var inserted := ExecuteDB(Call(faults.insert, newId));
        if inserted.Err? then Step(Fail(500, inserted.error), t)
        else
          var t' := t[newId := NewProduct(slug, name, body)];
          var reread := QueryDB(Call(faults.reread, t'[newId]));
          if reread.Err? then Step(Fail(500, RereadCreatedFailed), t')
          else Step(Succeed(201, reread.value), t')
  }

  /** With the existence check answering, a create never introduces a second row
      with the same slug. */
  lemma {:induction false} CreateKeepsSlugsUnique(t: Products, body: ProductInput, newId: int, faults: CreateFaults)
    requires newId !in t && faults.check.None?
    requires Table.UniqueSlugs(t, SlugOf)
    ensures Table.UniqueSlugs(CreateProduct(t, body, newId, faults).table, SlugOf)
  {
    var s := CreateProduct(t, body, newId, faults);
    if s.table != t {
      var slug := GenerateSlug(body.name.value);
      assert !Table.SlugTaken(t, SlugOf, slug, None);
      forall i, j | i in s.table && j in s.table && i != j ensures SlugOf(s.table[i]) != SlugOf(s.table[j]) {
        if i == newId {
          assert j in t && SlugOf(t[j]) != slug;
        } else if j == newId {
          assert i in t && SlugOf(t[i]) != slug;
        }
      }
    }
  }

  /** A failed existence check does not stop the insert: a second product with an
      existing slug gets in. */
  lemma {:induction false} CheckFaultAdmitsDuplicate()
    ensures var t := map[1 := NewProduct("x", "x", ProductInput(None, None, None, None, None, None, None, None, None))];
      var body := ProductInput(Some("x"), None, None, None, None, None, None, None, None);
      var s := CreateProduct(t, body, 2, CreateFaults(Some(OtherValue), None, None));
      && s.response.status == 201
      && !Table.UniqueSlugs(s.table, SlugOf)
  {
    SlugFixesSlug("x");
    var t := map[1 := NewProduct("x", "x", ProductInput(None, None, None, None, None, None, None, None, None))];
    var body := ProductInput(Some("x"), None, None, None, None, None, None, None, None);
    var s := CreateProduct(t, body, 2, CreateFaults(Some(OtherValue), None, None));
    assert s.table[1].slug == s.table[2].slug == "x";
  }

  /** A name with no ASCII letter or digit passes the name check and is stored
      under the empty slug. */
  lemma {:induction false} PunctuationNameGetsEmptySlug(t: Products, name: string, newId: int)
    requires newId !in t && name != ""
    requires forall i :: 0 <= i < |name| ==> !IsAsciiAlnum(name[i])
    requires !Table.SlugTaken(t, SlugOf, "", None)
    ensures var body := ProductInput(Some(name), None, None, None, None, None, None, None, None);
      var s := CreateProduct(t, body, newId, NoCreateFaults);
      s.response.status == 201 && s.table[newId].slug == ""
  {
    SlugEmptyIff(name);
  }

  // ---------------------------------------------------------------------------
  // PUT /:id

  datatype UpdateFaults = UpdateFaults(lookup: Option<Thrown>, slugCheck: Option<Thrown>, write: Option<Thrown>, reread: Option<Thrown>)

  const NoUpdateFaults: UpdateFaults := UpdateFaults(None, None, None, None)

  /** `name && name !== existing.name`. */
  predicate Renames(stored: Product, body: ProductInput) {
    Truthy(body.name) && body.name.value != stored.name
  }

  /** The slug the handler computes: regenerated on a rename, the stored one otherwise. */
  function NewSlug(stored: Product, body: ProductInput): string {
    if Renames(stored, body) then GenerateSlug(body.name.value) else stored.slug
  }

  /** The row after `UPDATE … SET col = COALESCE(?, col)`: a field the body leaves
      out keeps its stored value; the slug column is only written when the name
      is truthy. */
  function Merge(stored: Product, body: ProductInput, slug: string): (p: Product)
    ensures p.slug == (if Truthy(body.name) then slug else stored.slug)
    ensures body.name.None? ==> p.name == stored.name
    ensures body.summary.None? ==> p.summary == stored.summary
    ensures body.description.None? ==> p.description == stored.description
    ensures body.price.None? ==> p.price == stored.price
    ensures body.category.None? ==> p.category == stored.category
    ensures body.images.None? ==> p.images == stored.images
    ensures body.specs.None? ==> p.specs == stored.specs
    ensures body.images.Some? ==> p.images == body.images.value.text
    ensures body.specs.Some? ==> p.specs == body.specs.value.text
    ensures body.featured.None? ==> p.featured == stored.featured
    ensures body.status.None? ==> p.status == stored.status
    ensures body.name.Some? ==> p.name == body.name.value
    ensures body.status.Some? ==> p.status == body.status.value
    ensures body.featured.Some? ==> p.featured == (if body.featured.value then 1 else 0)
  {
    Product(if Truthy(body.name) then slug else stored.slug,
            body.name.GetOr(stored.name),
            body.summary.GetOr(stored.summary),
            body.description.GetOr(stored.description),
            body.price.GetOr(stored.price),
            body.category.GetOr(stored.category),
            if body.images.Some? then body.images.value.text else stored.images,
            if body.specs.Some? then body.specs.value.text else stored.specs,
            if body.featured.Some? then (if body.featured.value then 1 else 0) else stored.featured,
            body.status.GetOr(stored.status))
  }

  /** A text, price or category field the body supplies replaces the stored
      value, `""` included: COALESCE only falls back on NULL. */
  lemma MergeWritesSupplied(stored: Product, body: ProductInput, slug: string)
    ensures var p := Merge(stored, body, slug);
      && (body.summary.Some? ==> p.summary == body.summary.value)
      && (body.description.Some? ==> p.description == body.description.value)
      && (body.price.Some? ==> p.price == body.price.value)
      && (body.category.Some? ==> p.category == body.category.value)
  {
  }

  /** PUT /:id. */
  function UpdateProduct(t: Products, id: string, body: ProductInput, faults: UpdateFaults): (s: Step<Product>)
    ensures faults.lookup.Some? ==> s == Step(Fail(500, Message(faults.lookup.value, QueryFailed)), t)
    ensures faults.lookup.None? && Table.RowAt(t, id).None? ==> s == Step(Fail(404, NotFound), t)
    ensures s.table == t || (Table.RowAt(t, id).Some? &&
      var k := Table.RowAt(t, id).value;
      s.table == t[k := Merge(t[k], body, NewSlug(t[k], body))])
    ensures faults.lookup.None? && Table.RowAt(t, id).Some? ==>
      var k := Table.RowAt(t, id).value;
      (Renames(t[k], body) && faults.slugCheck.None? && Table.SlugTaken(t, SlugOf, NewSlug(t[k], body), Some(k)) ==>
        s == Step(Fail(400, NameTaken), t))
    ensures faults.lookup.None? && Table.RowAt(t, id).Some? ==>
      var k := Table.RowAt(t, id).value;
      var t' := t[k := Merge(t[k], body, NewSlug(t[k], body))];
      (!Renames(t[k], body) || faults.slugCheck.Some? || !Table.SlugTaken(t, SlugOf, NewSlug(t[k], body), Some(k))) ==>
        && (faults.write.Some? ==> s == Step(Fail(500, Message(faults.write.value, ExecuteFailed)), t))
        && (faults.write.None? && faults.reread.Some? ==> s == Step(Fail(500, RereadUpdatedFailed), t'))
        && (faults.write.None? && faults.reread.None? ==> s == Step(Succeed(200, t'[k]), t'))
    ensures s.response.status == 200 ==> s.response == Succeed(200, s.table[Table.RowAt(t, id).value])
  {
    var found := QueryDB(Call(faults.lookup, Table.RowAt(t, id)));
    if found.Err? then Step(Fail(500, found.error), t)
    else if found.value.None? then Step(Fail(404, NotFound), t)
    else
      var k := found.value.value;
      var stored := t[k];
      var slug := NewSlug(stored, body);
      var clash := QueryDB(Call(faults.slugCheck, Table.SlugOwner(t, SlugOf, slug, Some(k))));
      if Renames(stored, body) && clash.Ok? && clash.value.Some? then
        Step(Fail(400, NameTaken), t)
      else
        var written := ExecuteDB(Call(faults.write, k));
        if written.Err? then Step(Fail(500, written.error), t)
        else
          var t' := t[k := Merge(stored, body, slug)];
          var reread := QueryDB(Call(faults.reread, t'[k]));
          if reread.Err? then Step(Fail(500, RereadUpdatedFailed), t')
          else Step(Succeed(200, reread.value), t')
  }

  /** The stored slug changes only when the body renames the product. */
  lemma {:induction false} SlugChangesOnlyOnRename(t: Products, id: string, body: ProductInput, faults: UpdateFaults, k: int)
    requires k in t
    ensures var s := UpdateProduct(t, id, body, faults);
      k in s.table && (s.table[k].slug != t[k].slug ==> Renames(t[k], body))
  {
  }

  /** With the collision check answering, an update never makes two rows share a slug. */
  lemma {:induction false} UpdateKeepsSlugsUnique(t: Products, id: string, body: ProductInput, faults: UpdateFaults)
    requires faults.slugCheck.None?
    requires Table.UniqueSlugs(t, SlugOf)
    ensures Table.UniqueSlugs(UpdateProduct(t, id, body, faults).table, SlugOf)
  {
    var s := UpdateProduct(t, id, body, faults);
    if s.table != t {
      var k := Table.RowAt(t, id).value;
      var slug := NewSlug(t[k], body);
      if Renames(t[k], body) {
        assert !Table.SlugTaken(t, SlugOf, slug, Some(k));
      }
      forall i, j | i in s.table && j in s.table && i != j ensures SlugOf(s.table[i]) != SlugOf(s.table[j]) {
        if i == k {
          assert s.table[j] == t[j];
        } else if j == k {
          assert s.table[i] == t[i];
        }
      }
    }
  }

  /** Repeating a successful update changes nothing further. */
  lemma {:induction false} UpdateIdempotent(t: Products, id: string, body: ProductInput)
    requires UpdateProduct(t, id, body, NoUpdateFaults).response.status == 200
    ensures var t1 := UpdateProduct(t, id, body, NoUpdateFaults).table;
      UpdateProduct(t1, id, body, NoUpdateFaults).table == t1
  {
    var k := Table.RowAt(t, id).value;
    var t1 := UpdateProduct(t, id, body, NoUpdateFaults).table;
    var row := Merge(t[k], body, NewSlug(t[k], body));
    assert t1 == t[k := row];
    assert Table.RowAt(t1, id) == Some(k);
    assert !Renames(row, body);
    assert Merge(row, body, NewSlug(row, body)) == row;
  }

  // ---------------------------------------------------------------------------
  // DELETE /:id

  datatype DeleteFaults = DeleteFaults(lookup: Option<Thrown>, write: Option<Thrown>)

  const NoDeleteFaults: DeleteFaults := DeleteFaults(None, None)

  /** DELETE /:id: the response carries the confirmation message. */
  function DeleteProduct(t: Products, id: string, faults: DeleteFaults): (s: Step<string>)
    ensures faults.lookup.Some? ==> s == Step(Fail(500, Message(faults.lookup.value, QueryFailed)), t)
    ensures faults.lookup.None? && Table.RowAt(t, id).None? ==> s == Step(Fail(404, NotFound), t)
    ensures s.response.status == 200 <==> faults.lookup.None? && Table.RowAt(t, id).Some? && faults.write.None?
    ensures s.response.status == 200 ==>
      s == Step(Succeed(200, Deleted), t - {Table.RowAt(t, id).value})
    ensures s.response.status != 200 ==> s.table == t
  {
    var found := QueryDB(Call(faults.lookup, Table.RowAt(t, id)));
    if found.Err? then Step(Fail(500, found.error), t)
    else if found.value.None? then Step(Fail(404, NotFound), t)
    else
      var k := found.value.value;
      var deleted := ExecuteDB(Call(faults.write, k));
      if deleted.Err? then Step(Fail(500, deleted.error), t)
      else Step(Succeed(200, Deleted), t - {k})
  }

  /** Deleting a freshly created product by its id gives back the table as it was. */
  lemma {:induction false} DeleteUndoesCreate(t: Products, body: ProductInput, newId: nat)
    requires newId !in t
    requires CreateProduct(t, body, newId, NoCreateFaults).response.status == 201
    ensures var t1 := CreateProduct(t, body, newId, NoCreateFaults).table;
      var s := DeleteProduct(t1, NatToDecimal(newId), NoDeleteFaults);
      s.response.status == 200 && s.table == t
  {
    var t1 := CreateProduct(t, body, newId, NoCreateFaults).table;
    Table.IdKeyDecimal(newId);
    assert Table.RowAt(t1, NatToDecimal(newId)) == Some(newId);
    assert t1 - {newId} == t;
  }
}

=== FILE: settings.dfy ===
/**
 * worker/src/routes/settings.ts: the `site_settings` table as a sequence of
 * rows in rowid order, read through GET / and GET /:key and written through
 * the single and the batch PUT. Setting values are modelled as text.
 */
module Settings {
  import opened Wrappers
  import opened JsText
  import opened Utils
  import opened Db

  /** A `site_settings` row; a `None` description is SQL NULL. */
  datatype SettingRow = SettingRow(key: string, value: string, description: Option<string>)

  type Settings = seq<SettingRow>

  /** What GET / reports per key. */
  datatype Entry = Entry(value: string, description: Option<string>)

  /** What GET /:key and PUT /:key report. */
  datatype View = View(key: string, value: string, description: Option<string>)

  datatype Step<T> = Step(response: Response<T>, table: Settings)

  const NotFound: string := "Setting not found"
  const ValueRequired: string := "Setting value is required"
  const RereadFailed: string := "Failed to retrieve updated setting"
  const ObjectRequired: string := "Settings object is required"

  function EntryOf(row: SettingRow): Entry { Entry(row.value, row.description) }

  function ViewOf(row: SettingRow): View { View(row.key, row.value, row.description) }

  /** The setting keys are unique: an invariant the writes below preserve. */
  predicate UniqueKeys(t: Settings) {
    forall i, j :: 0 <= i < j < |t| ==> t[i].key != t[j].key
  }

  /** The first row (in rowid order) with the key: what `queryOneDB` returns. */
  function FirstRow(t: Settings, key: string): (i: Option<nat>)
    ensures i.None? <==> forall j :: 0 <= j < |t| ==> t[j].key != key
    ensures i.Some? ==> i.value < |t| && t[i.value].key == key && forall j :: 0 <= j < i.value ==> t[j].key != key
  {
    if |t| == 0 then None
    else if t[0].key == key then Some(0)
    else
      var rest := FirstRow(t[1..], key);
      if rest.None? then None else Some(rest.value + 1)
  }

  /** The value GET /:key would report for `key`, if any. */
  function ValueOf(t: Settings, key: string): Option<string> {
    var i := FirstRow(t, key);
    if i.None? then None else Some(t[i.value].value)
  }

  /** Rows with the same keys position by position have the same first row for every key. */
  lemma {:induction false} SameKeysFirstRow(a: Settings, b: Settings, key: string)
    requires |a| == |b| && forall i :: 0 <= i < |a| ==> a[i].key == b[i].key
    ensures FirstRow(a, key) == FirstRow(b, key)
  {
    var fa, fb := FirstRow(a, key), FirstRow(b, key);
    if fa.Some? && fb.Some? {
      assert !(fa.value < fb.value) && !(fb.value < fa.value);
    }
  }

  /** Appending a row leaves every earlier first row in place. */
  lemma {:induction false} AppendFirstRow(t: Settings, row: SettingRow, key: string)
    ensures FirstRow(t + [row], key) ==
      if FirstRow(t, key).Some? then FirstRow(t, key) else if row.key == key then Some(|t|) else None
  {
    var t' := t + [row];
    assert forall i :: 0 <= i < |t| ==> t'[i] == t[i];
    assert t'[|t|] == row;
    var f, f' := FirstRow(t, key), FirstRow(t', key);
    if f.Some? {
      assert t'[f.value].key == key;
      assert !(f.value < f'.value) && !(f'.value < f.value);
    } else if row.key == key {
      assert f'.Some?;
      assert !(f'.value < |t|);
    } else {
      assert f'.None?;
    }
  }

  // ---------------------------------------------------------------------------
  // GET /

  /** `keys.split(',').map(key => key.trim())`. */
  function KeyList(keys: string): (ks: seq<string>)
    ensures |ks| == |Split(keys, ',')|
    ensures forall i :: 0 <= i < |ks| ==> ks[i] == Trim(Split(keys, ',')[i])
  {
    TrimAll(Split(keys, ','))
  }

  function TrimAll(parts: seq<string>): (r: seq<string>)
    ensures |r| == |parts|
    ensures forall i :: 0 <= i < |parts| ==> r[i] == Trim(parts[i])
  {
    if |parts| == 0 then [] else [Trim(parts[0])] + TrimAll(parts[1..])
  }

  /** There is one key per comma-separated piece, and a list of trimmed keys free
      of commas comes back from its own comma-joined text. */
  lemma {:induction false} KeyListRoundTrip(ks: seq<string>)
    requires |ks| >= 1
    requires forall i :: 0 <= i < |ks| ==> ',' !in ks[i] && Trim(ks[i]) == ks[i]
    ensures KeyList(Join(ks, [','])) == ks
  {
    SplitJoin(ks, ',');
  }

  lemma {:induction false} KeyListLength(keys: string)
    ensures |KeyList(keys)| == CountChar(keys, ',') + 1
  {
    SplitCount(keys, ',');
  }

  const SelectKey: string := "SELECT setting_key, "
  const ValueColumns: string := "setting_value, description"
  const SelectColumns: string := SelectKey + ValueColumns
  const FromSettings: string := " FROM site_settings"
  const SelectSettings: string := SelectColumns + FromSettings
  const InOpen: string := " WHERE setting_key IN ("
  const InClose: string := ")"
  const Comma: string := ","

  /** `n` placeholders, as `keyList.map(() => '?')` makes them. */
  function Marks(n: nat): (r: seq<string>)
    ensures |r| == n
  {
    if n == 0 then [] else [Placeholder] + Marks(n - 1)
  }

  function Texts(ks: seq<string>): (r: seq<Value>)
    ensures |r| == |ks| && forall i :: 0 <= i < |ks| ==> r[i] == Text(ks[i])
  {
    if |ks| == 0 then [] else [Text(ks[0])] + Texts(ks[1..])
  }

  /** The statement GET / prepares: every row, or the rows whose key is listed. */
  function SettingsStatement(keys: Option<string>): (st: Statement)
    ensures !Truthy(keys) ==> st == Statement(SelectSettings, [])
    ensures Truthy(keys) ==> st.binds == Texts(KeyList(keys.value))
  {
    if Truthy(keys) then
      var ks := KeyList(keys.value);
      Statement(SelectSettings + InOpen + Join(Marks(|ks|), Comma) + InClose, Texts(ks))
    else Statement(SelectSettings, [])
  }

  lemma {:induction false} SelectKeyPlaceholders() ensures CountChar(SelectKey, '?') == 0 {
    CountCharNone(SelectKey, '?');
  }

  lemma {:induction false} ValueColumnsPlaceholders() ensures CountChar(ValueColumns, '?') == 0 {
    CountCharNone(ValueColumns, '?');
  }

  lemma {:induction false} SelectColumnsPlaceholders() ensures CountChar(SelectColumns, '?') == 0 {
    SelectKeyPlaceholders();
    ValueColumnsPlaceholders();
    CountCharAppend(SelectKey, ValueColumns, '?');
  }

  lemma {:induction false} FromSettingsPlaceholders() ensures CountChar(FromSettings, '?') == 0 {
    CountCharNone(FromSettings, '?');
  }

  lemma {:induction false} SelectSettingsPlaceholders() ensures CountChar(SelectSettings, '?') == 0 {
    SelectColumnsPlaceholders();
    FromSettingsPlaceholders();
    CountCharAppend(SelectColumns, FromSettings, '?');
  }

  lemma {:induction false} InOpenPlaceholders() ensures CountChar(InOpen, '?') == 0 {
    CountCharNone(InOpen, '?');
  }

  lemma {:induction false} InClosePlaceholders() ensures CountChar(InClose, '?') == 0 {
    CountCharNone(InClose, '?');
  }

  lemma {:induction false} CommaPlaceholders() ensures CountChar(Comma, '?') == 0 {
    CountCharNone(Comma, '?');
  }

  lemma {:induction false} MarksCount(n: nat)
    ensures SumCount(Marks(n), '?') == n
  {
    if n > 0 {
      MarksCount(n - 1);
      PlaceholderCount();
    }
  }

  /** The IN list carries exactly one placeholder per key, so the statement is
      well bound whatever `keys` holds. */
  lemma {:induction false} SettingsStatementWellBound(keys: Option<string>)
    ensures WellBound(SettingsStatement(keys))
  {
    SelectSettingsPlaceholders();
    if Truthy(keys) {
      var n := |KeyList(keys.value)|;
      InOpenPlaceholders();
      InClosePlaceholders();
      CommaPlaceholders();
      MarksCount(n);
      CountCharJoin(Marks(n), Comma, '?');
      CountCharAppend4(SelectSettings, InOpen, Join(Marks(n), Comma), InClose);
    }
  }

  /** Whether GET / selects the row. */
  predicate Requested(keys: Option<string>, row: SettingRow) {
    !Truthy(keys) || row.key in KeyList(keys.value)
  }

  /** `settings[row.setting_key] = {value, description}` over the rows in order. */
  function FoldRows(rows: seq<SettingRow>): map<string, Entry> {
    if |rows| == 0 then map[]
    else FoldRows(rows[..|rows| - 1])[rows[|rows| - 1].key := EntryOf(rows[|rows| - 1])]
  }

  /** The fold has an entry for exactly the keys that occur in the rows. */
  lemma {:induction false} FoldRowsKeys(rows: seq<SettingRow>)
    ensures forall k :: k in FoldRows(rows) <==> exists i :: 0 <= i < |rows| && rows[i].key == k
  {
    if |rows| > 0 {
      var init := rows[..|rows| - 1];
      FoldRowsKeys(init);
      assert forall i :: 0 <= i < |init| ==> init[i] == rows[i];
    }
  }

  /** On a repeated key the later row wins. */
  lemma {:induction false} FoldRowsLastWins(rows: seq<SettingRow>, i: nat)
    requires i < |rows|
    requires forall j :: i < j < |rows| ==> rows[j].key != rows[i].key
    ensures rows[i].key in FoldRows(rows) && FoldRows(rows)[rows[i].key] == EntryOf(rows[i])
  {
    if i < |rows| - 1 {
      var init := rows[..|rows| - 1];
      assert forall j :: 0 <= j < |init| ==> init[j] == rows[j];
      FoldRowsLastWins(init, i);
    }
  }

  /** GET /. */
  function GetSettings(t: Settings, keys: Option<string>, fault: Option<Thrown>): (r: Response<map<string, Entry>>)
    ensures fault.Some? ==> r == Fail(500, Message(fault.value, QueryFailed))
    ensures fault.None? ==> r == Succeed(200, FoldRows(Filter(t, row => Requested(keys, row))))
  {
    var rows := QueryDB(Call(fault, Filter(t, row => Requested(keys, row))));
    if rows.Err? then Fail(500, rows.error) else Succeed(200, FoldRows(rows.value))
  }

  lemma {:induction false} FilterKeepsKeysUnique(t: Settings, p: SettingRow -> bool)
    requires UniqueKeys(t)
    ensures UniqueKeys(Filter(t, p))
  {
    if |t| > 0 {
      FilterKeepsKeysUnique(t[1..], p);
      FilterMembers(t[1..], p);
      var rest := Filter(t[1..], p);
      forall j | 0 <= j < |rest| ensures rest[j].key != t[0].key {
        assert rest[j] in t[1..];
      }
    }
  }

  /** With unique keys, GET / reports exactly the requested keys that exist, each
      with its stored value and description. */
  lemma {:induction false} GetSettingsContents(t: Settings, keys: Option<string>)
    requires UniqueKeys(t)
    ensures var m := GetSettings(t, keys, None).body.data.value;
      && (forall k :: k in m <==> exists i :: 0 <= i < |t| && t[i].key == k && Requested(keys, t[i]))
      && (forall i :: 0 <= i < |t| && Requested(keys, t[i]) ==> t[i].key in m && m[t[i].key] == EntryOf(t[i]))
  {
    var p := row => Requested(keys, row);
    var rows := Filter(t, p);
    var m := FoldRows(rows);
    FilterMembers(t, p);
    FilterKeepsKeysUnique(t, p);
    FoldRowsKeys(rows);
    forall k | k in m ensures exists i :: 0 <= i < |t| && t[i].key == k && Requested(keys, t[i]) {
      var i :| 0 <= i < |rows| && rows[i].key == k;
      assert rows[i] in t;
    }
    forall i | 0 <= i < |t| && Requested(keys, t[i]) ensures t[i].key in m && m[t[i].key] == EntryOf(t[i]) {
      assert t[i] in rows;
      var j :| 0 <= j < |rows| && rows[j] == t[i];
      FoldRowsLastWins(rows, j);
    }
  }

  // ---------------------------------------------------------------------------
  // GET /:key

  /** GET /:key. */
  function GetSetting(t: Settings, key: string, fault: Option<Thrown>): (r: Response<View>)
    ensures fault.Some? ==> r == Fail(500, Message(fault.value, QueryFailed))
    ensures fault.None? ==> (r.status == 404 <==> ValueOf(t, key).None?)
    ensures fault.None? && ValueOf(t, key).Some? ==>
      r.status == 200 && r.body.data.Some? && r.body.data.value.key == key && r.body.data.value.value == ValueOf(t, key).value
    ensures fault.None? && FirstRow(t, key).Some? ==>
      r.body.data == Some(View(key, t[FirstRow(t, key).value].value, t[FirstRow(t, key).value].description))
  {
    var found := QueryDB(Call(fault, FirstRow(t, key)));
    if found.Err? then Fail(500, found.error)
    else if found.value.None? then Fail(404, NotFound)
    else Succeed(200, ViewOf(t[found.value.value]))
  }

  // ---------------------------------------------------------------------------
  // PUT /:key

  /** A PUT /:key body; `None` is a field the body leaves out. */
  datatype SettingInput = SettingInput(value: Option<string>, description: Option<string>)

  datatype PutFaults = PutFaults(check: Option<Thrown>, write: Option<Thrown>, reread: Option<Thrown>)

  const NoPutFaults: PutFaults := PutFaults(None, None, None)

  /** `UPDATE site_settings SET setting_value = ?, description = COALESCE(?, description)
      WHERE setting_key = ?`: every row with the key takes the value, and the
      description when one is given. */
  function SetRows(t: Settings, key: string, value: string, description: Option<string>): (r: Settings)
    ensures |r| == |t|
    ensures forall i :: 0 <= i < |t| && t[i].key != key ==> r[i] == t[i]
    ensures forall i :: 0 <= i < |t| && t[i].key == key ==>
      r[i] == SettingRow(key, value, if description.Some? then description else t[i].description)
  {
    if |t| == 0 then []
    else
      var row := if t[0].key == key then SettingRow(key, value, if description.Some? then description else t[0].description) else t[0];
      [row] + SetRows(t[1..], key, value, description)
  }

  /** After SetRows the key reads the new value and every other key reads as before. */
  lemma {:induction false} SetRowsValues(t: Settings, key: string, value: string, description: Option<string>)
    ensures var r := SetRows(t, key, value, description);
      && FirstRow(r, key) == FirstRow(t, key)
      && (FirstRow(t, key).Some? ==> ValueOf(r, key) == Some(value))
      && forall k :: k != key ==> ValueOf(r, k) == ValueOf(t, k)
  {
    var r := SetRows(t, key, value, description);
    SameKeysFirstRow(r, t, key);
    forall k | k != key ensures ValueOf(r, k) == ValueOf(t, k) {
      SameKeysFirstRow(r, t, k);
    }
  }

  /** Appending a row for a key absent so far makes it read that row's value and
      leaves every other key alone. */
  lemma {:induction false} AppendValues(t: Settings, row: SettingRow)
    requires FirstRow(t, row.key).None?
    ensures FirstRow(t + [row], row.key) == Some(|t|)
    ensures ValueOf(t + [row], row.key) == Some(row.value)
    ensures forall k :: k != row.key ==> ValueOf(t + [row], k) == ValueOf(t, k)
  {
    AppendFirstRow(t, row, row.key);
    forall k | k != row.key ensures ValueOf(t + [row], k) == ValueOf(t, k) {
      AppendFirstRow(t, row, k);
      var f := FirstRow(t, k);
      if f.Some? {
        assert (t + [row])[f.value] == t[f.value];
      }
    }
  }

  /** SetRows is a no-op when the key's rows already hold what it would write. */
  lemma {:induction false} SetRowsNoop(t: Settings, key: string, value: string, description: Option<string>)
    requires forall i :: 0 <= i < |t| && t[i].key == key ==>
      t[i].value == value && (description.Some? ==> t[i].description == description)
    ensures SetRows(t, key, value, description) == t
  {
    var r := SetRows(t, key, value, description);
    assert forall i :: 0 <= i < |t| ==> r[i] == t[i];
  }

  /** The description the stored row ends up with after a single PUT. */
  function PutDescription(t: Settings, key: string, body: SettingInput): Option<string> {
    var i := FirstRow(t, key);
    if i.Some? then (if body.description.Some? then body.description else t[i.value].description)
    else Some(OrElse(body.description, ""))
  }

  /** PUT /:key: update the existing key (keeping its description unless one is
      given) or insert it (with `description || ''`), then read it back. */
  function PutSetting(t: Settings, key: string, body: SettingInput, faults: PutFaults): (s: Step<View>)
    ensures body.value.None? ==> s == Step(Fail(400, ValueRequired), t)
    ensures body.value.Some? && faults.check.Some? ==> s == Step(Fail(500, Message(faults.check.value, QueryFailed)), t)
    ensures var writes := body.value.Some? && faults.check.None? && faults.write.None?;
      && (!writes ==> s.table == t)
      && (writes ==> |s.table| >= |t|)
      && (writes ==> ValueOf(s.table, key) == body.value)
      && (writes ==> forall i :: 0 <= i < |t| && t[i].key != key ==> s.table[i] == t[i])
      && (writes ==> forall k :: k != key ==> ValueOf(s.table, k) == ValueOf(t, k))
      && (writes ==> |s.table| <= |t| + 1)
      && (writes && |s.table| > |t| ==>
            FirstRow(t, key).None? && s.table[|t|] == SettingRow(key, body.value.value, Some(OrElse(body.description, ""))))
      && (s.response.status == 200 <==> writes && faults.reread.None?)
    ensures s.response.status == 200 ==> s.response == Succeed(200, View(key, body.value.value, PutDescription(t, key, body)))
  {
    if body.value.None? then Step(Fail(400, ValueRequired), t)
    else
      var value := body.value.value;
      var existing := QueryDB(Call(faults.check, FirstRow(t, key)));
      if existing.Err? then Step(Fail(500, existing.error), t)
      else
        var written := ExecuteDB(Call(faults.write, ()));
        if written.Err? then Step(Fail(500, written.error), t)
        else if existing.value.Some? then
          var t' := SetRows(t, key, value, body.description);
          SetRowsValues(t, key, value, body.description);
          var reread := QueryDB(Call(faults.reread, t'[existing.value.value]));
          if reread.Err? then Step(Fail(500, RereadFailed), t')
          else Step(Succeed(200, ViewOf(reread.value)), t')
        else
          var row := SettingRow(key, value, Some(OrElse(body.description, "")));
          AppendValues(t, row);
          var reread := QueryDB(Call(faults.reread, row));
          if reread.Err? then Step(Fail(500, RereadFailed), t + [row])
          else Step(Succeed(200, ViewOf(reread.value)), t + [row])
  }

  /** What PUT /:key answers is what a following GET /:key reads. */
  lemma {:induction false} PutThenGet(t: Settings, key: string, body: SettingInput)
    requires PutSetting(t, key, body, NoPutFaults).response.status == 200
    ensures var s := PutSetting(t, key, body, NoPutFaults);
      GetSetting(s.table, key, None) == s.response
  {
    var value, d := body.value.value, body.description;
    if FirstRow(t, key).Some? {
      SetRowsValues(t, key, value, d);
    } else {
      AppendValues(t, SettingRow(key, value, Some(OrElse(d, ""))));
    }
  }

  /** A single PUT never creates a second row for a key. */
  lemma {:induction false} PutKeepsKeysUnique(t: Settings, key: string, body: SettingInput, faults: PutFaults)
    requires UniqueKeys(t)
    ensures UniqueKeys(PutSetting(t, key, body, faults).table)
  {
    var s := PutSetting(t, key, body, faults);
    if s.table != t && FirstRow(t, key).None? {
      assert s.table == t + [SettingRow(key, body.value.value, Some(OrElse(body.description, "")))];
    }
  }

  /** Repeating a successful PUT changes nothing further. */
  lemma {:induction false} PutIdempotent(t: Settings, key: string, body: SettingInput)
    requires PutSetting(t, key, body, NoPutFaults).response.status == 200
    ensures var t1 := PutSetting(t, key, body, NoPutFaults).table;
      PutSetting(t1, key, body, NoPutFaults).table == t1
  {
    var value, d := body.value.value, body.description;
    var t1 := PutSetting(t, key, body, NoPutFaults).table;
    if FirstRow(t, key).Some? {
      SetRowsValues(t, key, value, d);
    } else {
      var row := SettingRow(key, value, Some(OrElse(d, "")));
      AppendValues(t, row);
      assert forall i :: 0 <= i < |t| ==> t1[i] == t[i];
    }
    SetRowsNoop(t1, key, value, d);
  }

  // ---------------------------------------------------------------------------
  // PUT /

  /** The `settings` field of a batch body: missing or falsy, present but not an
      object, or an object given as its `Object.entries` in order. */
  datatype SettingsField = Absent | Scalar | Object(entries: seq<(string, string)>)

  datatype EntryFaults = EntryFaults(check: Option<Thrown>, write: Option<Thrown>)

  predicate Clean(f: EntryFaults) { f.check.None? && f.write.None? }

  /** The loop's state: the table, `updatedSettings` and `errors`. */
  datatype BatchState = BatchState(table: Settings, updated: seq<(string, string)>, errors: seq<string>)

  datatype BatchReport = BatchReport(updated: seq<(string, string)>, message: string)

  /** `r` is `t` after the batch upsert of `key`: for a key present, every row
      with the key takes the value and keeps its description and no row is added;
      for a new key, exactly one row with no description is appended. */
  predicate Upserted(t: Settings, key: string, value: string, r: Settings) {
    if FirstRow(t, key).Some? then
      && |r| == |t|
      && forall i :: 0 <= i < |t| ==> r[i] == (if t[i].key == key then SettingRow(key, value, t[i].description) else t[i])
    else r == t + [SettingRow(key, value, None)]
  }

  /** One iteration of the loop: upsert the value, leaving descriptions alone. */
  function ProcessEntry(t: Settings, key: string, value: string, f: EntryFaults): (s: BatchState)
    ensures Clean(f) ==> s.updated == [(key, value)] && s.errors == [] && ValueOf(s.table, key) == Some(value)
    ensures !Clean(f) ==> s.updated == [] && |s.errors| == 1 && s.table == t
    ensures forall k :: k != key ==> ValueOf(s.table, k) == ValueOf(t, k)
    ensures Clean(f) ==> Upserted(t, key, value, s.table)
  {
    var existing := QueryDB(Call(f.check, FirstRow(t, key)));
    if existing.Err? then BatchState(t, [], ["Database error for " + key + ": " + existing.error])
    else if existing.value.Some? then
      var written := ExecuteDB(Call(f.write, ()));
      if written.Err? then BatchState(t, [], ["Failed to update " + key + ": " + written.error])
      else
        SetRowsValues(t, key, value, None);
        BatchState(SetRows(t, key, value, None), [(key, value)], [])
    else
      var written := ExecuteDB(Call(f.write, ()));
      if written.Err? then BatchState(t, [], ["Failed to create " + key + ": " + written.error])
      else
        AppendValues(t, SettingRow(key, value, None));
        BatchState(t + [SettingRow(key, value, None)], [(key, value)], [])
  }

  /** The `for … of Object.entries(settings)` loop; `faults[i]` is what the store
      does for entry `i`. */
  function RunBatch(t: Settings, entries: seq<(string, string)>, faults: seq<EntryFaults>): (s: BatchState)
    requires |faults| == |entries|
    ensures |s.updated| + |s.errors| == |entries|
    ensures |s.errors| == 0 <==> forall i :: 0 <= i < |faults| ==> Clean(faults[i])
    ensures |s.errors| == 0 ==> s.updated == entries
    decreases |entries|
  {
    if |entries| == 0 then BatchState(t, [], [])
    else
      var first := ProcessEntry(t, entries[0].0, entries[0].1, faults[0]);
      var rest := RunBatch(first.table, entries[1..], faults[1..]);
      CombineSteps(first, rest, entries, faults);
      BatchState(rest.table, first.updated + rest.updated, first.errors + rest.errors)
  }

  /** The loop's bookkeeping: one entry's outcome followed by the rest's. */
  lemma {:induction false} CombineSteps(first: BatchState, rest: BatchState, entries: seq<(string, string)>, faults: seq<EntryFaults>)
    requires |faults| == |entries| > 0
    requires Clean(faults[0]) ==> first.updated == [entries[0]] && first.errors == []
    requires !Clean(faults[0]) ==> first.updated == [] && |first.errors| == 1
    requires |rest.updated| + |rest.errors| == |entries| - 1
    requires |rest.errors| == 0 <==> forall i :: 0 <= i < |faults[1..]| ==> Clean(faults[1..][i])
    requires |rest.errors| == 0 ==> rest.updated == entries[1..]
    ensures var s := BatchState(rest.table, first.updated + rest.updated, first.errors + rest.errors);
      && |s.updated| + |s.errors| == |entries|
      && (|s.errors| == 0 <==> forall i :: 0 <= i < |faults| ==> Clean(faults[i]))
      && (|s.errors| == 0 ==> s.updated == entries)
  {
    assert forall i :: 1 <= i < |faults| ==> faults[i] == faults[1..][i - 1];
    assert entries == [entries[0]] + entries[1..];
  }

  /** A batch entry never creates a second row for a key. */
  lemma {:induction false} ProcessEntryKeepsKeysUnique(t: Settings, key: string, value: string, f: EntryFaults)
    requires UniqueKeys(t)
    ensures UniqueKeys(ProcessEntry(t, key, value, f).table)
  {
    var s := ProcessEntry(t, key, value, f);
    if Clean(f) && FirstRow(t, key).Some? {
      assert forall i :: 0 <= i < |t| ==> s.table[i].key == t[i].key;
    }
  }

  /** The batch PUT never creates a second row for a key, whichever entries fail. */
  lemma {:induction false} BatchKeepsKeysUnique(t: Settings, entries: seq<(string, string)>, faults: seq<EntryFaults>)
    requires |faults| == |entries|
    requires UniqueKeys(t)
    ensures UniqueKeys(RunBatch(t, entries, faults).table)
    decreases |entries|
  {
    if |entries| > 0 {
      var first := ProcessEntry(t, entries[0].0, entries[0].1, faults[0]);
      ProcessEntryKeepsKeysUnique(t, entries[0].0, entries[0].1, faults[0]);
      BatchKeepsKeysUnique(first.table, entries[1..], faults[1..]);
    }
  }

  /** PUT /: any error fails the whole response, but the writes already made stay. */
  function BatchPut(t: Settings, settings: SettingsField, faults: seq<EntryFaults>): (s: Step<BatchReport>)
    requires settings.Object? ==> |faults| == |settings.entries|
    ensures !settings.Object? ==> s == Step(Fail(400, ObjectRequired), t)
    ensures settings.Object? ==> (s.response.status == 200 <==> forall i :: 0 <= i < |faults| ==> Clean(faults[i]))
    ensures settings.Object? && s.response.status != 200 ==> s.response.status == 500
    ensures s.response.status == 200 ==> s.response == Succeed(200,
      BatchReport(settings.entries, NatToDecimal(|settings.entries|) + " settings updated successfully"))
  {
    if !settings.Object? then Step(Fail(400, ObjectRequired), t)
    else
      var run := RunBatch(t, settings.entries, faults);
      if |run.errors| > 0 then Step(Fail(500, "Some settings failed to update: " + Join(run.errors, ", ")), run.table)
      else Step(Succeed(200, BatchReport(run.updated, NatToDecimal(|run.updated|) + " settings updated successfully")), run.table)
  }

  /** Entries for other keys leave a key's value alone. */
  lemma {:induction false} RunBatchElsewhere(t: Settings, entries: seq<(string, string)>, faults: seq<EntryFaults>, key: string)
    requires |faults| == |entries|
    requires forall i :: 0 <= i < |entries| ==> entries[i].0 != key
    ensures ValueOf(RunBatch(t, entries, faults).table, key) == ValueOf(t, key)
    decreases |entries|
  {
    if |entries| > 0 {
      var first := ProcessEntry(t, entries[0].0, entries[0].1, faults[0]);
      assert entries[0].0 != key;
      RunBatchElsewhere(first.table, entries[1..], faults[1..], key);
    }
  }

  /** An entry that went through keeps its value after the loop, unless a later
      entry names the same key. */
  lemma {:induction false} RunBatchKeepsWrite(t: Settings, entries: seq<(string, string)>, faults: seq<EntryFaults>, i: nat)
    requires |faults| == |entries| && i < |entries| && Clean(faults[i])
    requires forall j :: i < j < |entries| ==> entries[j].0 != entries[i].0
    ensures ValueOf(RunBatch(t, entries, faults).table, entries[i].0) == Some(entries[i].1)
    decreases |entries|
  {
    var first := ProcessEntry(t, entries[0].0, entries[0].1, faults[0]);
    if i == 0 {
      RunBatchElsewhere(first.table, entries[1..], faults[1..], entries[0].0);
    } else {
      RunBatchKeepsWrite(first.table, entries[1..], faults[1..], i - 1);
    }
  }

  /** The batch is not atomic: when some entry fails the response is a 500, yet an
      entry that went through stays written. */
  lemma {:induction false} BatchNotAtomic(t: Settings, entries: seq<(string, string)>, faults: seq<EntryFaults>, i: nat, j: nat)
    requires |faults| == |entries| && i < |entries| && j < |entries|
    requires Clean(faults[i]) && !Clean(faults[j])
    requires forall k :: i < k < |entries| ==> entries[k].0 != entries[i].0
    ensures var s := BatchPut(t, Object(entries), faults);
      s.response.status == 500 && ValueOf(s.table, entries[i].0) == Some(entries[i].1)
  {
    RunBatchKeepsWrite(t, entries, faults, i);
  }
}

=== FILE: slug.dfy ===
/**
 * `generateSlug` of worker/src/utils.ts: five regular-expression passes
 * that turn a product name or post title into a URL identifier.
 *
 *   lower-case, trim, drop every character outside `[\w\s-]`,
 *   collapse each run of `[\s_-]` into one `-`, drop leading/trailing `-`.
 *
 * The passes are kept as plain functions; what they guarantee is proved in
 * the lemmas below them.
 */
module Slug {
  import opened JsText

  /** Characters the third pass (`/[^\w\s-]/g` replaced by nothing) keeps. */
  predicate IsKept(c: char) { IsWordChar(c) || IsJsSpace(c) || c == '-' }

  /** Characters the fourth pass (`/[\s_-]+/g`) treats as one separator run. */
  predicate IsSeparator(c: char) { IsJsSpace(c) || c == '_' || c == '-' }

  /** The alphabet of a slug: `[a-z0-9-]`. */
  predicate IsSlugChar(c: char) { IsAsciiLower(c) || IsDigit(c) || c == '-' }

  predicate NoDoubleHyphen(s: string) {
    forall i :: 0 < i < |s| ==> s[i - 1] != '-' || s[i] != '-'
  }

  /** A well-formed slug: `[a-z0-9-]*` with no leading, trailing or doubled hyphen.
      A non-empty one matches `^[a-z0-9]+(-[a-z0-9]+)*$`. */
  predicate IsSlug(s: string) {
    && (forall i :: 0 <= i < |s| ==> IsSlugChar(s[i]))
    && (|s| > 0 ==> s[0] != '-' && s[|s| - 1] != '-')
    && NoDoubleHyphen(s)
  }

  /** The ASCII letters and digits of `s`, in order. */
  function Alnums(s: string): string {
    if |s| == 0 then []
    else (if IsAsciiAlnum(s[0]) then [s[0]] else []) + Alnums(s[1..])
  }

  /** Third pass: remove every character that is not a word character, whitespace or `-`. */
  function StripDisallowed(s: string): string {
    if |s| == 0 then []
    else (if IsKept(s[0]) then [s[0]] else []) + StripDisallowed(s[1..])
  }

  /** The suffix of `s` after its leading separator run. */
  function DropSeparators(s: string): (r: string)
    ensures |r| <= |s|
  {
    DropWhile(s, IsSeparator)
  }

  /** Fourth pass: every maximal run of separators becomes a single `-`. */
  function CollapseSeparators(s: string): string
    decreases |s|
  {
    if |s| == 0 then []
    else if IsSeparator(s[0]) then "-" + CollapseSeparators(DropSeparators(s[1..]))
    else [s[0]] + CollapseSeparators(s[1..])
  }

  predicate IsHyphen(c: char) { c == '-' }

  /** Fifth pass: `/^-+|-+$/g` replaced by nothing. */
  function TrimHyphens(s: string): string {
    StripBoth(s, IsHyphen)
  }

  /** `generateSlug(text)`. */
  function GenerateSlug(text: string): string {
    TrimHyphens(CollapseSeparators(StripDisallowed(Trim(ToLower(text)))))
  }

  // ---------------------------------------------------------------------------
  // Character classes

  lemma {:induction false} SeparatorNotAlnum(c: char)
    requires IsSeparator(c)
    ensures !IsAsciiAlnum(c)
  {
  }

  lemma {:induction false} SlugCharSeparator(c: char)
    requires IsSlugChar(c)
    ensures IsSeparator(c) <==> c == '-'
    ensures !IsJsSpace(c)
  {
  }

  // ---------------------------------------------------------------------------
  // Shape of each pass

  /** The collapsed string is empty only for an empty input, starts with `-` exactly
      when the input starts with a separator, and never holds `--`. */
  lemma {:induction false} CollapseShape(s: string)
    ensures var r := CollapseSeparators(s);
      && (|r| == 0 <==> |s| == 0)
      && (|r| > 0 ==> (r[0] == '-' <==> IsSeparator(s[0])))
      && NoDoubleHyphen(r)
    decreases |s|
  {
    if |s| > 0 {
      if IsSeparator(s[0]) {
        var u := DropSeparators(s[1..]);
        var rest := CollapseSeparators(u);
        DropWhileShape(s[1..], IsSeparator);
        CollapseShape(u);
        var r := "-" + rest;
        assert r == CollapseSeparators(s);
        forall i | 0 < i < |r| ensures r[i - 1] != '-' || r[i] != '-' {
          if i > 1 {
            assert r[i - 1] == rest[i - 2] && r[i] == rest[i - 1];
          }
        }
      } else {
        var rest := CollapseSeparators(s[1..]);
        CollapseShape(s[1..]);
        var r := [s[0]] + rest;
        assert r == CollapseSeparators(s);
        forall i | 0 < i < |r| ensures r[i - 1] != '-' || r[i] != '-' {
          if i > 1 {
            assert r[i - 1] == rest[i - 2] && r[i] == rest[i - 1];
          }
        }
      }
    }
  }

  /** Trimming hyphens off a string over `[a-z0-9-]` without `--` gives a slug. */
  lemma {:induction false} TrimHyphensShape(s: string)
    requires forall i :: 0 <= i < |s| ==> IsSlugChar(s[i])
    requires NoDoubleHyphen(s)
    ensures IsSlug(TrimHyphens(s))
  {
    var r := TrimHyphens(s);
    var a := StripBothInfix(s, IsHyphen);
    forall i | 0 <= i < |r| ensures IsSlugChar(r[i]) {
      assert r[i] == s[a + i];
    }
    forall i | 0 < i < |r| ensures r[i - 1] != '-' || r[i] != '-' {
      assert r[i - 1] == s[a + i - 1] && r[i] == s[a + i];
    }
  }

  // ---------------------------------------------------------------------------
  // The alnum projection

  lemma {:induction false} AlnumsAppend(a: string, b: string)
    ensures Alnums(a + b) == Alnums(a) + Alnums(b)
  {
    if |a| == 0 {
      assert a + b == b;
    } else {
      assert (a + b)[1..] == a[1..] + b;
      AlnumsAppend(a[1..], b);
    }
  }

  lemma {:induction false} AlnumsNone(s: string)
    requires forall i :: 0 <= i < |s| ==> !IsAsciiAlnum(s[i])
    ensures Alnums(s) == []
  {
    if |s| > 0 {
      AlnumsNone(s[1..]);
    }
  }

  lemma {:induction false} AlnumsEmptyIff(s: string)
    ensures Alnums(s) == [] <==> forall i :: 0 <= i < |s| ==> !IsAsciiAlnum(s[i])
  {
    if |s| > 0 {
      AlnumsEmptyIff(s[1..]);
      if IsAsciiAlnum(s[0]) {
        assert Alnums(s)[0] == s[0];
      } else {
        forall i | 0 < i < |s| ensures s[i] == s[1..][i - 1] { }
      }
    }
  }

  /** Removing a prefix and a suffix that hold no letter or digit keeps the alnum projection. */
  lemma {:induction false} AlnumsOfInfix(s: string, i: int, j: int)
    requires 0 <= i <= j <= |s|
    requires forall k :: 0 <= k < i ==> !IsAsciiAlnum(s[k])
    requires forall k :: j <= k < |s| ==> !IsAsciiAlnum(s[k])
    ensures Alnums(s[i..j]) == Alnums(s)
  {
    var p, m, q := s[..i], s[i..j], s[j..];
    assert s == p + m + q;
    forall k | 0 <= k < |p| ensures !IsAsciiAlnum(p[k]) {
      assert p[k] == s[k];
    }
    forall k | 0 <= k < |q| ensures !IsAsciiAlnum(q[k]) {
      assert q[k] == s[j + k];
    }
    AlnumsNone(p);
    AlnumsNone(q);
    AlnumsAppend(p + m, q);
    AlnumsAppend(p, m);
  }

  lemma {:induction false} TrimKeepsAlnums(s: string)
    ensures Alnums(Trim(s)) == Alnums(s)
  {
    var r := Trim(s);
    var a := StripBothInfix(s, IsJsSpace);
    AlnumsOfInfix(s, a, a + |r|);
  }

  lemma {:induction false} TrimNoUpper(s: string)
    requires !HasUpper(s)
    ensures !HasUpper(Trim(s))
  {
    var r := Trim(s);
    var a := StripBothInfix(s, IsJsSpace);
    forall k | 0 <= k < |r| ensures !IsAsciiUpper(r[k]) {
      assert r[k] == s[a + k];
    }
  }

  lemma {:induction false} TrimHyphensKeepsAlnums(s: string)
    ensures Alnums(TrimHyphens(s)) == Alnums(s)
  {
    var r := TrimHyphens(s);
    var a := StripBothInfix(s, IsHyphen);
    AlnumsOfInfix(s, a, a + |r|);
  }

  lemma {:induction false} StripKeepsAlnums(s: string)
    ensures Alnums(StripDisallowed(s)) == Alnums(s)
  {
    if |s| > 0 {
      StripKeepsAlnums(s[1..]);
      AlnumsAppend(if IsKept(s[0]) then [s[0]] else [], StripDisallowed(s[1..]));
    }
  }

  /** The third pass leaves only lower-case `[\w\s-]` characters of a lower-case input. */
  lemma {:induction false} StripAlphabet(s: string)
    requires !HasUpper(s)
    ensures forall i :: 0 <= i < |StripDisallowed(s)| ==>
      IsKept(StripDisallowed(s)[i]) && !IsAsciiUpper(StripDisallowed(s)[i])
  {
    if |s| > 0 {
      var t := s[1..];
      assert !HasUpper(t) by {
        forall k | 0 <= k < |t| ensures !IsAsciiUpper(t[k]) {
          assert t[k] == s[k + 1];
        }
      }
      StripAlphabet(t);
      var head := if IsKept(s[0]) then [s[0]] else [];
      var r := head + StripDisallowed(t);
      assert r == StripDisallowed(s);
      forall i | 0 <= i < |r| ensures IsKept(r[i]) && !IsAsciiUpper(r[i]) {
        if i >= |head| {
          assert r[i] == StripDisallowed(t)[i - |head|];
        }
      }
    }
  }

  lemma {:induction false} DropSeparatorsKeepsAlnums(s: string)
    ensures Alnums(DropSeparators(s)) == Alnums(s)
  {
    DropWhileShape(s, IsSeparator);
    var a := |s| - |DropSeparators(s)|;
    forall k | 0 <= k < a ensures !IsAsciiAlnum(s[k]) {
      SeparatorNotAlnum(s[k]);
    }
    assert s[a..|s|] == DropSeparators(s);
    AlnumsOfInfix(s, a, |s|);
  }

  lemma {:induction false} CollapseSeparatorCase(s: string)
    requires |s| > 0 && IsSeparator(s[0])
    requires Alnums(CollapseSeparators(DropSeparators(s[1..]))) == Alnums(s[1..])
    ensures Alnums(CollapseSeparators(s)) == Alnums(s)
  {
    var rest := CollapseSeparators(DropSeparators(s[1..]));
    SeparatorNotAlnum(s[0]);
    AlnumsAppend("-", rest);
    assert CollapseSeparators(s) == "-" + rest;
  }

  lemma {:induction false} CollapseKeepsAlnums(s: string)
    ensures Alnums(CollapseSeparators(s)) == Alnums(s)
    decreases |s|
  {
    if |s| > 0 {
      if IsSeparator(s[0]) {
        var u := DropSeparators(s[1..]);
        CollapseKeepsAlnums(u);
        DropSeparatorsKeepsAlnums(s[1..]);
        CollapseSeparatorCase(s);
      } else {
        CollapseKeepsAlnums(s[1..]);
        AlnumsAppend([s[0]], CollapseSeparators(s[1..]));
      }
    }
  }

  /** A lower-case string over `[\w\s-]` collapses to one over `[a-z0-9-]`. */
  lemma {:induction false} CollapseAlphabet(s: string)
    requires forall i :: 0 <= i < |s| ==> IsKept(s[i]) && !IsAsciiUpper(s[i])
    ensures forall i :: 0 <= i < |CollapseSeparators(s)| ==> IsSlugChar(CollapseSeparators(s)[i])
    decreases |s|
  {
    if |s| > 0 {
      assert IsKept(s[0]) && !IsAsciiUpper(s[0]);
      var head: string, u: string;
      if IsSeparator(s[0]) {
        u := DropSeparators(s[1..]);
        DropWhileShape(s[1..], IsSeparator);
        head := "-";
        assert s[1..][|s[1..]| - |u|..] == s[|s| - |u|..];
      } else {
        u := s[1..];
        head := [s[0]];
        assert IsWordChar(s[0]) && s[0] != '_';
      }
      assert |head| == 1 && IsSlugChar(head[0]);
      forall i | 0 <= i < |u| ensures IsKept(u[i]) && !IsAsciiUpper(u[i]) {
        assert u[i] == s[|s| - |u| + i];
      }
      CollapseAlphabet(u);
      var rest := CollapseSeparators(u);
      var r := head + rest;
      assert r == CollapseSeparators(s);
      forall i | 0 <= i < |r| ensures IsSlugChar(r[i]) {
        if i > 0 {
          assert r[i] == rest[i - 1];
        } else {
          assert r[0] == head[0];
        }
      }
    }
  }

  // ---------------------------------------------------------------------------
  // Main properties

  /** Every slug is well formed: alphabet `[a-z0-9-]`, no leading, trailing or doubled hyphen. */
  lemma {:induction false} SlugIsWellFormed(text: string)
    ensures IsSlug(GenerateSlug(text))
  {
    var b := Trim(ToLower(text));
    TrimNoUpper(ToLower(text));
    StripAlphabet(b);
    var c := StripDisallowed(b);
    CollapseAlphabet(c);
    CollapseShape(c);
    var d := CollapseSeparators(c);
    assert NoDoubleHyphen(d);
    assert forall i :: 0 <= i < |d| ==> IsSlugChar(d[i]);
    TrimHyphensShape(d);
  }

  /** The slug keeps exactly the ASCII letters and digits of the lower-cased input, in order. */
  lemma {:induction false} SlugKeepsAlnums(text: string)
    ensures Alnums(GenerateSlug(text)) == Alnums(ToLower(text))
  {
    var a := ToLower(text);
    var c := StripDisallowed(Trim(a));
    TrimKeepsAlnums(a);
    StripKeepsAlnums(Trim(a));
    CollapseKeepsAlnums(c);
    TrimHyphensKeepsAlnums(CollapseSeparators(c));
  }

  /** The slug is empty exactly when the input holds no ASCII letter or digit
      (all punctuation, all CJK, all whitespace, only underscores and hyphens). */
  lemma {:induction false} SlugEmptyIff(text: string)
    ensures GenerateSlug(text) == [] <==> forall i :: 0 <= i < |text| ==> !IsAsciiAlnum(text[i])
  {
    var s := GenerateSlug(text);
    var a := ToLower(text);
    SlugIsWellFormed(text);
    SlugKeepsAlnums(text);
    AlnumsEmptyIff(s);
    AlnumsEmptyIff(a);
    if s != [] {
      assert IsAsciiAlnum(s[0]);
    }
    assert forall i :: 0 <= i < |text| ==> (IsAsciiAlnum(a[i]) <==> IsAsciiAlnum(text[i]));
  }

  // ---------------------------------------------------------------------------
  // Idempotence: every pass is the identity on a well-formed slug

  lemma {:induction false} StripFixesSlug(s: string)
    requires forall i :: 0 <= i < |s| ==> IsSlugChar(s[i])
    ensures StripDisallowed(s) == s
  {
    if |s| > 0 {
      StripFixesSlug(s[1..]);
      assert [s[0]] + s[1..] == s;
    }
  }

  lemma {:induction false} CollapseFixesSlug(s: string)
    requires forall i :: 0 <= i < |s| ==> IsSlugChar(s[i])
    requires NoDoubleHyphen(s)
    ensures CollapseSeparators(s) == s
  {
    if |s| > 0 {
      var t := s[1..];
      assert forall i :: 0 <= i < |t| ==> IsSlugChar(t[i]);
      assert NoDoubleHyphen(t) by {
        forall i | 0 < i < |t| ensures t[i - 1] != '-' || t[i] != '-' {
          assert t[i - 1] == s[i];
        }
      }
      CollapseFixesSlug(t);
      SlugCharSeparator(s[0]);
      if s[0] == '-' {
        if |t| > 0 {
          SlugCharSeparator(t[0]);
        }
        assert DropSeparators(t) == t;
        assert CollapseSeparators(s) == "-" + t;
      } else {
        assert CollapseSeparators(s) == [s[0]] + t;
      }
      assert [s[0]] + t == s;
    }
  }

  /** Slugging a slug changes nothing. */
  lemma {:induction false} SlugFixesSlug(s: string)
    requires IsSlug(s)
    ensures GenerateSlug(s) == s
  {
    assert ToLower(s) == s;
    if |s| > 0 {
      SlugCharSeparator(s[0]);
      SlugCharSeparator(s[|s| - 1]);
    }
    assert DropWhile(s, IsJsSpace) == s;
    assert Trim(s) == s;
    StripFixesSlug(s);
    CollapseFixesSlug(s);
    assert DropWhile(s, IsHyphen) == s;
  }

  /** `generateSlug` is idempotent. */
  lemma {:induction false} SlugIdempotent(text: string)
    ensures GenerateSlug(GenerateSlug(text)) == GenerateSlug(text)
  {
    SlugIsWellFormed(text);
    SlugFixesSlug(GenerateSlug(text));
  }
}

=== FILE: table.dfy ===
/**
 * What the product and post routes share about their D1 tables: a table is a
 * map from row id to row; a path parameter addresses a row by id when it is a
 * digit string; `.first()` over a scan returns the row with the smallest id.
 */
module Table {
  import opened Wrappers
  import opened JsText
  import opened Db

  lemma {:induction false} MinExists(s: set<int>)
    requires s != {}
    ensures exists m :: m in s && forall x :: x in s ==> m <= x
  {
    if forall x :: x !in s { assert false; }
    var y :| y in s;
    var rest := s - {y};
    if rest == {} {
      forall x | x in s ensures y <= x { assert x !in rest; }
    } else {
      MinExists(rest);
      var m :| m in rest && forall x :: x in rest ==> m <= x;
      var n := if y < m then y else m;
      forall x | x in s ensures n <= x { if x != y { assert x in rest; } }
    }
  }

  function MinOf(s: set<int>): (m: int)
    requires s != {}
    ensures m in s && forall x :: x in s ==> m <= x
  {
    MinExists(s);
    var m :| m in s && forall x :: x in s ==> m <= x;
    m
  }

  /** The id of the first row (in id order) satisfying `p`, as `.first()` on a
      `SELECT … WHERE` over a rowid table returns it. */
  function FirstKey<R>(t: map<int, R>, p: R -> bool): (k: Option<int>)
    ensures k.None? <==> forall j :: j in t ==> !p(t[j])
    ensures k.Some? ==> k.value in t && p(t[k.value])
    ensures k.Some? ==> forall j :: j in t && p(t[j]) ==> k.value <= j
  {
    var keys := set j | j in t && p(t[j]);
    if keys == {} then
      assert forall j :: j in t ==> !p(t[j]) by {
        forall j | j in t ensures !p(t[j]) { assert j !in keys; }
      }
      None
    else
      assert forall j :: j in t && p(t[j]) ==> j in keys;
      Some(MinOf(keys))
  }

  /** The id a path parameter addresses through `WHERE id = ?`: a digit string
      addresses the integer it spells, and any other text is taken to address no
      row. GET /:id sends only digit strings to the id column, so there this is
      exact. Update and delete bind the raw parameter, and SQLite's numeric
      conversion would also let text such as `+1` or `1.0` reach row 1. */
  function IdKey(id: string): (k: Option<int>)
    ensures k.Some? <==> IsDigits(id)
    ensures k.Some? ==> k.value >= 0
  {
    if IsDigits(id) then
      DecimalDigitsAreRadix10(id);
      Some(RadixValue(id, 10) as int)
    else None
  }

  /** The id column is addressed exactly by the decimal spelling of the id. */
  lemma {:induction false} IdKeyDecimal(n: nat)
    ensures IdKey(NatToDecimal(n)) == Some(n)
  {
  }

  /** The row `id` addresses, if any. */
  function RowAt<R>(t: map<int, R>, id: string): (r: Option<int>)
    ensures r.Some? ==> r.value in t && IdKey(id) == r
    ensures r.None? ==> IdKey(id).None? || IdKey(id).value !in t
  {
    var k := IdKey(id);
    if k.Some? && k.value in t then k else None
  }

  /** `WHERE slug = ? [AND id != ?]` finds a row. */
  predicate SlugTaken<R>(t: map<int, R>, slugOf: R -> string, slug: string, except: Option<int>) {
    exists j :: j in t && slugOf(t[j]) == slug && Some(j) != except
  }

  /** The id `SELECT id FROM … WHERE slug = ? [AND id != ?]` returns first. */
  function SlugOwner<R>(t: map<int, R>, slugOf: R -> string, slug: string, except: Option<int>): (k: Option<int>)
    ensures k.Some? <==> SlugTaken(t, slugOf, slug, except)
    ensures k.Some? ==> k.value in t && slugOf(t[k.value]) == slug && Some(k.value) != except
  {
    var rest := if except.Some? then t - {except.value} else t;
    var k := FirstKey(rest, (r: R) => slugOf(r) == slug);
    assert SlugTaken(t, slugOf, slug, except) ==> k.Some? by {
      if SlugTaken(t, slugOf, slug, except) {
        var j :| j in t && slugOf(t[j]) == slug && Some(j) != except;
        assert j in rest;
      }
    }
    k
  }

  /** No two rows share a slug. */
  predicate UniqueSlugs<R>(t: map<int, R>, slugOf: R -> string) {
    forall i, j :: i in t && j in t && i != j ==> slugOf(t[i]) != slugOf(t[j])
  }

  const StatusField: string := "status = "

  /** `status = ?`, the first condition of both listings. */
  const StatusCondition: string := StatusField + Placeholder

  /** The ORDER BY of both listings. */
  const ListOrder: string := "featured DESC, created_at DESC"

  lemma {:induction false} StatusFieldPlaceholders() ensures CountChar(StatusField, '?') == 0 {
    CountCharNone(StatusField, '?');
  }

  lemma {:induction false} StatusPlaceholders() ensures CountChar(StatusCondition, '?') == 1 {
    PlaceholderCount();
    StatusFieldPlaceholders();
    CountCharAppend(StatusField, Placeholder, '?');
  }

  lemma {:induction false} ListOrderPlaceholders() ensures '?' !in ListOrder {
  }
}

=== FILE: upload.dfy ===
/**
 * worker/src/routes/upload.ts: the upload-URL grant, the direct upload, the
 * uploads listing and the delete, over the `uploads` table (a map from id to
 * row) and the R2 bucket (a set of object keys). The clock reading and the
 * random draws are inputs, as are the store's faults.
 */
module Upload {
  import opened Wrappers
  import opened JsText
  import opened Utils
  import opened Db
  import Table

  datatype Upload = Upload(filename: string, originalName: string, contentType: string, size: int, url: string)

  type Uploads = map<int, Upload>

  /** The `uploads` table and the keys of the objects in the R2 bucket. */
  datatype Store = Store(uploads: Uploads, bucket: set<string>)

  datatype Step<T> = Step(response: Response<T>, store: Store)

  const FieldsRequired: string := "Filename and content type are required"
  const InvalidType: string := "Invalid file type. Only JPG, PNG, WebP, SVG are allowed"
  const TooLarge: string := "File size exceeds 5MB limit"
  const NotMultipart: string := "Content-Type must be multipart/form-data"
  const NoFile: string := "No file provided"
  const PutFailed: string := "Failed to upload file to R2"
  const FileNotFound: string := "File not found"
  const FileDeleted: string := "File deleted successfully"
  const Multipart: string := "multipart/form-data"
  const KeyPrefix: string := "uploads/"
  const DefaultAccount: string := "your-account-id"
  const ExpiresIn: int := 3600
  const RandomLength: nat := 16

  // ---------------------------------------------------------------------------
  // File names

  /** `Date.now()` and the draws of `generateRandomString(16)`. */
  datatype Entropy = Entropy(now: nat, draws: seq<nat>)

  predicate ValidEntropy(e: Entropy) {
    |e.draws| == RandomLength && forall i :: 0 <= i < |e.draws| ==> e.draws[i] < 62
  }

  /** `filename.substring(filename.lastIndexOf('.'))`: the suffix from the last dot,
      or the whole name when it has none. */
  function Extension(filename: string): (ext: string)
    ensures EndsWith(filename, ext)
    ensures '.' in filename ==> |ext| > 0 && ext[0] == '.' && '.' !in ext[1..]
    ensures '.' !in filename ==> ext == filename
  {
    var i := LastIndexOf(filename, '.');
    assert SubstringFrom(filename, i) == filename[|filename| - |SubstringFrom(filename, i)|..];
    SubstringFrom(filename, i)
  }

  /** `${Date.now()}-${generateRandomString(16)}${fileExtension}`. */
  function UniqueName(filename: string, e: Entropy): string
    requires ValidEntropy(e)
  {
    NatToDecimal(e.now) + "-" + RandomString(e.draws) + Extension(filename)
  }

  function ObjectKey(name: string): string { KeyPrefix + name }

  /** `https://pub-${ACCOUNT_ID || 'your-account-id'}.r2.dev/${objectKey}`. */
  function PublicUrl(accountId: Option<string>, objectKey: string): string {
    "https://pub-" + OrElse(accountId, DefaultAccount) + ".r2.dev/" + objectKey
  }

  /** The extension check of `validateFileType` looks at the lower-cased suffix the
      unique name keeps. */
  lemma {:induction false} ExtensionLowered(filename: string)
    ensures ToLower(Extension(filename)) == LowerExtension(filename)
  {
  }

  /** A unique name is the clock reading, a dash, sixteen letters or digits, and the
      original suffix. */
  lemma {:induction false} UniqueNameShape(filename: string, e: Entropy)
    requires ValidEntropy(e)
    ensures var name := UniqueName(filename, e);
      var d := NatToDecimal(e.now);
      && |name| == |d| + 1 + RandomLength + |Extension(filename)|
      && name[..|d|] == d && name[|d|] == '-'
      && (forall i :: |d| < i <= |d| + RandomLength ==> IsAsciiAlnum(name[i]))
      && EndsWith(name, Extension(filename))
  {
    var name := UniqueName(filename, e);
    var d := NatToDecimal(e.now);
    var r := RandomString(e.draws);
    assert name == d + "-" + r + Extension(filename);
    forall i | |d| < i <= |d| + RandomLength ensures IsAsciiAlnum(name[i]) {
      assert name[i] == r[i - |d| - 1];
    }
  }

  lemma {:induction false} AlphabetRoundTrip(k: nat)
    requires k < 62
    ensures AlphabetIndex(AlphabetChar(k)) == k
  {
  }

  /** At one clock reading, different draws give different names. */
  lemma {:induction false} UniqueNameInjective(filename: string, now: nat, d1: seq<nat>, d2: seq<nat>)
    requires ValidEntropy(Entropy(now, d1)) && ValidEntropy(Entropy(now, d2))
    requires UniqueName(filename, Entropy(now, d1)) == UniqueName(filename, Entropy(now, d2))
    ensures d1 == d2
  {
    var p := NatToDecimal(now) + "-";
    var ext := Extension(filename);
    var r1, r2 := RandomString(d1), RandomString(d2);
    var n1, n2 := p + r1 + ext, p + r2 + ext;
    assert n1 == UniqueName(filename, Entropy(now, d1));
    assert n2 == UniqueName(filename, Entropy(now, d2));
    assert n1[|p|..|p| + RandomLength] == r1;
    assert n2[|p|..|p| + RandomLength] == r2;
    forall i | 0 <= i < RandomLength ensures d1[i] == d2[i] {
      AlphabetRoundTrip(d1[i]);
      AlphabetRoundTrip(d2[i]);
    }
  }

  // ---------------------------------------------------------------------------
  // POST /url

  /** The JSON body; `None` is a field the body leaves out. */
  datatype UrlRequest = UrlRequest(filename: Option<string>, contentType: Option<string>, size: Option<int>)

  /** What the grant reports (the presigned URL string is not modelled). */
  datatype Grant = Grant(objectKey: string, publicUrl: string, filename: string, expiresIn: int)

  /** `size` is truthy: present and non-zero. */
  predicate SizeGiven(size: Option<int>) {
    size.Some? && size.value != 0
  }

  /** The checks of POST /url in their order: both names present, then the type,
      then the size when one is given. */
  predicate UrlRequestAccepted(body: UrlRequest) {
    && Truthy(body.filename) && Truthy(body.contentType)
    && ValidateFileType(body.filename.value, body.contentType.value)
    && (SizeGiven(body.size) ==> ValidateFileSize(body.size.value))
  }

  /** The part of POST /url after the checks: name the object and record the upload. */
  function GrantUrl(s: Store, filename: string, contentType: string, size: Option<int>, e: Entropy, accountId: Option<string>,
                 newId: int, recordFault: Option<Thrown>): (r: Step<Grant>)
    requires ValidEntropy(e) && newId !in s.uploads
    ensures var name := UniqueName(filename, e);
      && r.response == Succeed(200, Grant(ObjectKey(name), PublicUrl(accountId, ObjectKey(name)), name, ExpiresIn))
      && r.store.bucket == s.bucket
      && r.store.uploads == (if recordFault.Some? then s.uploads else
           s.uploads[newId := Upload(name, filename, contentType, if SizeGiven(size) then size.value else 0,
                                     PublicUrl(accountId, ObjectKey(name)))])
  {
    var name := UniqueName(filename, e);
    var key := ObjectKey(name);
    var url := PublicUrl(accountId, key);
    var row := Upload(name, filename, contentType, if SizeGiven(size) then size.value else 0, url);
    var recorded := ExecuteDB(Call(recordFault, ()));
    var uploads := if recorded.Ok? then s.uploads[newId := row] else s.uploads;
    Step(Succeed(200, Grant(key, url, name, ExpiresIn)), Store(uploads, s.bucket))
  }

  /** POST /url: `newId` is the rowid of the recorded upload; a failure to record it
      is logged and does not change the answer. */
  function RequestUploadUrl(s: Store, body: UrlRequest, e: Entropy, accountId: Option<string>, newId: int,
                            recordFault: Option<Thrown>): (r: Step<Grant>)
    requires ValidEntropy(e) && newId !in s.uploads
    ensures !Truthy(body.filename) || !Truthy(body.contentType) ==> r == Step(Fail(400, FieldsRequired), s)
    ensures Truthy(body.filename) && Truthy(body.contentType) && !ValidateFileType(body.filename.value, body.contentType.value) ==>
      r == Step(Fail(400, InvalidType), s)
    ensures (Truthy(body.filename) && Truthy(body.contentType) && ValidateFileType(body.filename.value, body.contentType.value)
             && SizeGiven(body.size) && !ValidateFileSize(body.size.value)) ==> r == Step(Fail(400, TooLarge), s)
    ensures UrlRequestAccepted(body) ==>
      r == GrantUrl(s, body.filename.value, body.contentType.value, body.size, e, accountId, newId, recordFault)
  {
    if !Truthy(body.filename) || !Truthy(body.contentType) then Step(Fail(400, FieldsRequired), s)
    else
      var filename, contentType := body.filename.value, body.contentType.value;
      if !ValidateFileType(filename, contentType) then Step(Fail(400, InvalidType), s)
      else if SizeGiven(body.size) && !ValidateFileSize(body.size.value) then Step(Fail(400, TooLarge), s)
      else GrantUrl(s, filename, contentType, body.size, e, accountId, newId, recordFault)
  }

  /** POST /url answers 200 exactly when the checks pass; a refusal is a 400 that
      changes nothing, and a grant never touches the bucket. */
  lemma {:induction false} UrlGrantedIff(s: Store, body: UrlRequest, e: Entropy, accountId: Option<string>, newId: int,
                                         recordFault: Option<Thrown>)
    requires ValidEntropy(e) && newId !in s.uploads
    ensures var r := RequestUploadUrl(s, body, e, accountId, newId, recordFault);
      && (r.response.status == 200 <==> UrlRequestAccepted(body))
      && (r.response.status != 200 ==> r.response.status == 400 && r.store == s)
      && r.store.bucket == s.bucket
  {
  }

  /** A failure to record the upload leaves the answer as it is. */
  lemma {:induction false} RecordFaultIgnored(s: Store, body: UrlRequest, e: Entropy, accountId: Option<string>, newId: int, t: Thrown)
    requires ValidEntropy(e) && newId !in s.uploads
    ensures RequestUploadUrl(s, body, e, accountId, newId, Some(t)).response == RequestUploadUrl(s, body, e, accountId, newId, None).response
  {
  }

  /** A granted key lives under `uploads/`, keeps the original suffix, and that
      suffix lower-cased is one of the allowed extensions. */
  lemma {:induction false} GrantedKeyShape(s: Store, body: UrlRequest, e: Entropy, accountId: Option<string>, newId: int,
                                           recordFault: Option<Thrown>)
    requires ValidEntropy(e) && newId !in s.uploads
    requires RequestUploadUrl(s, body, e, accountId, newId, recordFault).response.status == 200
    ensures var g := RequestUploadUrl(s, body, e, accountId, newId, recordFault).response.body.data.value;
      && g.objectKey == KeyPrefix + g.filename
      && EndsWith(g.filename, Extension(body.filename.value))
      && ToLower(Extension(body.filename.value)) in AllowedExtensions
  {
    UniqueNameShape(body.filename.value, e);
    ExtensionLowered(body.filename.value);
  }

  // ---------------------------------------------------------------------------
  // POST /

  /** The `file` form field: its name, MIME type and size in bytes. */
  datatype FilePart = FilePart(name: string, mime: string, size: int)

  datatype Stored = Stored(filename: string, originalName: string, size: int, contentType: string, url: string, objectKey: string)

  datatype DirectFaults = DirectFaults(putRefused: bool, record: Option<Thrown>)

  /** Whether the request's Content-Type header announces a multipart body. */
  predicate IsMultipart(contentType: Option<string>) {
    Truthy(contentType) && Contains(contentType.value, Multipart)
  }

  /** The part of POST / after the checks: put the object, then record it. */
  function StoreFile(s: Store, f: FilePart, e: Entropy, accountId: Option<string>, newId: int, faults: DirectFaults): (r: Step<Stored>)
    requires ValidEntropy(e) && newId !in s.uploads
    ensures faults.putRefused ==> r == Step(Fail(500, PutFailed), s)
    ensures !faults.putRefused ==>
      var name := UniqueName(f.name, e);
      var key := ObjectKey(name);
      && r.response == Succeed(200, Stored(name, f.name, f.size, f.mime, PublicUrl(accountId, key), key))
      && r.store.bucket == s.bucket + {key}
      && r.store.uploads == (if faults.record.Some? then s.uploads else
           s.uploads[newId := Upload(name, f.name, f.mime, f.size, PublicUrl(accountId, key))])
  {
    var name := UniqueName(f.name, e);
    var key := ObjectKey(name);
    if faults.putRefused then Step(Fail(500, PutFailed), s)
    else
      var url := PublicUrl(accountId, key);
      var recorded := ExecuteDB(Call(faults.record, ()));
      var uploads := if recorded.Ok? then s.uploads[newId := Upload(name, f.name, f.mime, f.size, url)] else s.uploads;
      Step(Succeed(200, Stored(name, f.name, f.size, f.mime, url, key)), Store(uploads, s.bucket + {key}))
  }

  /** POST /: the header check, the file check, the type check and the size check
      (always, unlike POST /url), then the object is put and recorded. */
  function DirectUpload(s: Store, contentType: Option<string>, file: Option<FilePart>, e: Entropy, accountId: Option<string>,
                        newId: int, faults: DirectFaults): (r: Step<Stored>)
    requires ValidEntropy(e) && newId !in s.uploads
    ensures !IsMultipart(contentType) ==> r == Step(Fail(400, NotMultipart), s)
    ensures IsMultipart(contentType) && file.None? ==> r == Step(Fail(400, NoFile), s)
    ensures IsMultipart(contentType) && file.Some? && !ValidateFileType(file.value.name, file.value.mime) ==>
      r == Step(Fail(400, InvalidType), s)
    ensures (IsMultipart(contentType) && file.Some? && ValidateFileType(file.value.name, file.value.mime)
             && !ValidateFileSize(file.value.size)) ==> r == Step(Fail(400, TooLarge), s)
    ensures (IsMultipart(contentType) && file.Some? && ValidateFileType(file.value.name, file.value.mime)
             && ValidateFileSize(file.value.size)) ==> r == StoreFile(s, file.value, e, accountId, newId, faults)
  {
    if !IsMultipart(contentType) then Step(Fail(400, NotMultipart), s)
    else if file.None? then Step(Fail(400, NoFile), s)
    else if !ValidateFileType(file.value.name, file.value.mime) then Step(Fail(400, InvalidType), s)
    else if !ValidateFileSize(file.value.size) then Step(Fail(400, TooLarge), s)
    else StoreFile(s, file.value, e, accountId, newId, faults)
  }

  /** POST / answers 200 exactly when every check passes and R2 takes the object;
      the bucket then holds the granted key. */
  lemma {:induction false} DirectUploadSucceedsIff(s: Store, contentType: Option<string>, file: Option<FilePart>, e: Entropy,
                                                   accountId: Option<string>, newId: int, faults: DirectFaults)
    requires ValidEntropy(e) && newId !in s.uploads
    ensures var r := DirectUpload(s, contentType, file, e, accountId, newId, faults);
      && (r.response.status == 200 <==>
            IsMultipart(contentType) && file.Some? && ValidateFileType(file.value.name, file.value.mime)
            && ValidateFileSize(file.value.size) && !faults.putRefused)
      && (r.response.status != 200 ==> r.store == s)
      && (r.response.status == 200 ==> ObjectKey(UniqueName(file.value.name, e)) in r.store.bucket)
  {
  }

  /** POST / refuses a file as too large exactly when it got past the earlier
      checks and holds more than 5 MiB; exactly 5 MiB is accepted. */
  lemma {:induction false} DirectUploadTooLargeIff(s: Store, contentType: Option<string>, file: Option<FilePart>, e: Entropy,
                                                   accountId: Option<string>, newId: int, faults: DirectFaults)
    requires ValidEntropy(e) && newId !in s.uploads
    ensures DirectUpload(s, contentType, file, e, accountId, newId, faults).response == Fail(400, TooLarge) <==>
      IsMultipart(contentType) && file.Some? && ValidateFileType(file.value.name, file.value.mime)
      && file.value.size > 5242880
  {
  }

  /** POST /url refuses a request as too large exactly when it got past the earlier
      checks and gives a size over 5 MiB; a missing or zero size is never checked. */
  lemma {:induction false} UrlTooLargeIff(s: Store, body: UrlRequest, e: Entropy, accountId: Option<string>, newId: int,
                                          recordFault: Option<Thrown>)
    requires ValidEntropy(e) && newId !in s.uploads
    ensures RequestUploadUrl(s, body, e, accountId, newId, recordFault).response == Fail(400, TooLarge) <==>
      Truthy(body.filename) && Truthy(body.contentType) && ValidateFileType(body.filename.value, body.contentType.value)
      && body.size.Some? && body.size.value > 5242880
  {
  }

  // ---------------------------------------------------------------------------
  // GET /uploads

  const MaxUploadPageSize: int := 50

  /** `parseInt(page || '1')` and `Math.min(50, Math.max(1, parseInt(pageSize || '20')))`:
      the size is clamped into [1, 50], the page is not clamped at all. */
  function UploadPaging(page: Option<string>, pageSize: Option<string>): (r: PageRequest)
    ensures r.page == ParseInt(OrElse(page, "1"))
    ensures var q := ParseInt(OrElse(pageSize, "20"));
      && (r.pageSize.NaN? <==> q.NaN?)
      && (q.Num? ==> 1 <= r.pageSize.n <= MaxUploadPageSize && (1 <= q.n <= MaxUploadPageSize ==> r.pageSize.n == q.n))
    ensures var q := ParseInt(OrElse(pageSize, "20"));
      q.Num? ==> r.pageSize == Num(if q.n < 1 then 1 else if q.n > MaxUploadPageSize then MaxUploadPageSize else q.n)
  {
    PageRequest(ParseInt(OrElse(page, "1")), MinNum(MaxUploadPageSize, MaxNum(1, ParseInt(OrElse(pageSize, "20")))))
  }

  /** `parseInt` reads a minus sign followed by decimal digits as a negative number. */
  lemma {:induction false} ParseIntNegative(n: nat)
    ensures ParseInt("-" + NatToDecimal(n)) == Num(-(n as int))
  {
    var d := NatToDecimal(n);
    var s := "-" + d;
    assert s[0] == '-' && s[1..] == d;
    assert !IsJsSpace(s[0]);
    assert TrimStart(s) == s;
    assert IsDigit(d[0]);
    assert |d| >= 2 ==> IsDigit(d[1]) && d[1] != 'x' && d[1] != 'X';
    DecimalDigitsAreRadix10(d);
    DigitPrefixAll(d, 10);
    assert RadixValue(DigitPrefix(d, 10), 10) == n;
  }

  /** A zero or negative page number goes through as it is. */
  lemma {:induction false} UploadPageUnclamped(n: nat)
    ensures UploadPaging(Some("-" + NatToDecimal(n)), None).page == Num(-(n as int))
    ensures UploadPaging(Some(NatToDecimal(0)), None).page == Num(0)
  {
    ParseIntNegative(n);
    ParseIntDecimal(0);
  }

  const UploadsTable: string := "uploads"
  const NewestFirst: string := "created_at DESC"

  function CountUploads(): Statement {
    Statement(CountHead + UploadsTable, [])
  }

  function ListUploadsStatement(pageSize: int, offset: int): Statement {
    Statement(SelectHead + UploadsTable + OrderWord + NewestFirst + LimitTail, [Int(pageSize), Int(offset)])
  }

  /** GET /uploads over the rows in `created_at DESC` order: count, stop on failure,
      then fetch the page. */
  function ListUploads(rows: seq<Upload>, page: int, pageSize: int, faults: ListingFaults): (l: Listing<Upload>)
    requires 1 <= pageSize <= MaxUploadPageSize
    ensures |l.issued| == 1 || |l.issued| == 2
    ensures l.issued[0] == CountUploads()
    ensures |l.issued| == 2 <==> faults.count.None?
    ensures |l.issued| == 2 ==> l.issued[1] == ListUploadsStatement(pageSize, Offset(page, pageSize))
    ensures l.result.Ok? <==> faults.count.None? && faults.slice.None?
    ensures faults.count.Some? ==> l.result == Err(Message(faults.count.value, ExecuteFailed))
    ensures faults.count.None? && faults.slice.Some? ==> l.result == Err(Message(faults.slice.value, ExecuteFailed))
    ensures l.result.Ok? ==>
      && l.result.value.items == Window(rows, Offset(page, pageSize), pageSize)
      && l.result.value.pagination == Meta(page, pageSize, |rows|)
  {
    var counted := ExecuteDB(Call(faults.count, |rows|));
    if counted.Err? then Listing([CountUploads()], Err(counted.error))
    else
      var offset := Offset(page, pageSize);
      var fetched := ExecuteDB(Call(faults.slice, Window(rows, offset, pageSize)));
      if fetched.Err? then Listing([CountUploads(), ListUploadsStatement(pageSize, offset)], Err(fetched.error))
      else Listing([CountUploads(), ListUploadsStatement(pageSize, offset)], Ok(Page(fetched.value, Meta(page, pageSize, counted.value))))
  }

  lemma {:induction false} UploadsTablePlaceholders() ensures CountChar(UploadsTable, '?') == 0 {
    CountCharNone(UploadsTable, '?');
  }

  lemma {:induction false} NewestFirstPlaceholders() ensures CountChar(NewestFirst, '?') == 0 {
    CountCharNone(NewestFirst, '?');
  }

  lemma {:induction false} CountUploadsWellBound() ensures WellBound(CountUploads()) {
    UploadsTablePlaceholders();
    CountHeadPlaceholders();
    CountCharAppend(CountHead, UploadsTable, '?');
  }

  lemma {:induction false} ListUploadsStatementWellBound(pageSize: int, offset: int)
    ensures WellBound(ListUploadsStatement(pageSize, offset))
  {
    UploadsTablePlaceholders();
    NewestFirstPlaceholders();
    SelectHeadPlaceholders();
    OrderPlaceholders();
    LimitTailPlaceholders();
    var head := SelectHead + UploadsTable + OrderWord + NewestFirst;
    CountCharAppend4(SelectHead, UploadsTable, OrderWord, NewestFirst);
    assert CountChar(head, '?') == 0;
    CountCharAppend(head, LimitTail, '?');
  }

  /** Both statements of the uploads listing are well bound. */
  lemma {:induction false} ListUploadsWellBound(rows: seq<Upload>, page: int, pageSize: int, faults: ListingFaults)
    requires 1 <= pageSize <= MaxUploadPageSize
    ensures var l := ListUploads(rows, page, pageSize, faults);
      forall i :: 0 <= i < |l.issued| ==> WellBound(l.issued[i])
  {
    CountUploadsWellBound();
    ListUploadsStatementWellBound(pageSize, Offset(page, pageSize));
  }

  /** On success the uploads listing returns exactly the page the shared helper
      returns for the same rows with `1=1`: the same window and the same metadata. */
  lemma {:induction false} UploadsAgreeWithShared(rows: seq<Upload>, page: int, pageSize: int)
    requires 1 <= pageSize <= MaxUploadPageSize
    ensures ListUploads(rows, page, pageSize, NoListingFaults).result ==
      GetPaginatedData(rows, AnyRow, UploadsTable, page, pageSize, "1=1", NewestFirst, NoListingFaults).result
  {
    FilterAll(rows);
  }

  /** A page number below 1 lists the first page's rows, yet reports the page as
      given, with no previous page. */
  lemma {:induction false} NonPositivePageListsFirstRows(rows: seq<Upload>, page: int, pageSize: int)
    requires 1 <= pageSize <= MaxUploadPageSize && page <= 0
    ensures var p := ListUploads(rows, page, pageSize, NoListingFaults).result.value;
      && p.items == rows[..Min(pageSize, |rows|)]
      && p.pagination.page == page && !p.pagination.hasPrev
      && (p.pagination.hasNext <==> page < 0 || |rows| > 0)
  {
    var p := ListUploads(rows, page, pageSize, NoListingFaults).result.value;
    MulMono(page - 1, -1, pageSize);
    if page < 0 {
      MulMono(page, -1, pageSize);
    }
    assert p.items == rows[..Min(pageSize, |rows|)];
  }

  // ---------------------------------------------------------------------------
  // DELETE /uploads/:id

  /** The lookup and the row delete may fail; the R2 delete may throw, which is logged and ignored. */
  datatype DeleteFaults = DeleteFaults(lookup: Option<Thrown>, bucketThrows: bool, write: Option<Thrown>)

  /** DELETE /uploads/:id: the object goes from the bucket first, then the row. */
  function DeleteUpload(s: Store, id: string, faults: DeleteFaults): (r: Step<string>)
    ensures faults.lookup.Some? ==> r == Step(Fail(500, Message(faults.lookup.value, ExecuteFailed)), s)
    ensures faults.lookup.None? && Table.RowAt(s.uploads, id).None? ==> r == Step(Fail(404, FileNotFound), s)
    ensures r.response.status == 200 <==> faults.lookup.None? && Table.RowAt(s.uploads, id).Some? && faults.write.None?
    ensures r.response.status == 200 ==>
      r.response == Succeed(200, FileDeleted) && r.store.uploads == s.uploads - {Table.RowAt(s.uploads, id).value}
    ensures faults.lookup.None? && Table.RowAt(s.uploads, id).Some? ==>
      var key := ObjectKey(s.uploads[Table.RowAt(s.uploads, id).value].filename);
      r.store.bucket == (if faults.bucketThrows then s.bucket else s.bucket - {key})
    ensures r.response.status != 200 ==> r.store.uploads == s.uploads
  {
    var found := ExecuteDB(Call(faults.lookup, Table.RowAt(s.uploads, id)));
    if found.Err? then Step(Fail(500, found.error), s)
    else if found.value.None? then Step(Fail(404, FileNotFound), s)
    else
      var k := found.value.value;
      var bucket := if faults.bucketThrows then s.bucket else s.bucket - {ObjectKey(s.uploads[k].filename)};
      var deleted := ExecuteDB(Call(faults.write, ()));
      if deleted.Err? then Step(Fail(500, deleted.error), Store(s.uploads, bucket))
      else Step(Succeed(200, FileDeleted), Store(s.uploads - {k}, bucket))
  }

  /** A throwing R2 delete changes neither the answer nor the table. */
  lemma {:induction false} BucketFailureIgnored(s: Store, id: string, lookup: Option<Thrown>, write: Option<Thrown>)
    ensures var a := DeleteUpload(s, id, DeleteFaults(lookup, true, write));
      var b := DeleteUpload(s, id, DeleteFaults(lookup, false, write));
      a.response == b.response && a.store.uploads == b.store.uploads
  {
  }

  /** When the row delete fails after the object is gone, the row outlives its object. */
  lemma {:induction false} FailedRowDeleteOrphansRow(s: Store, id: string, t: Thrown)
    requires Table.RowAt(s.uploads, id).Some?
    ensures var k := Table.RowAt(s.uploads, id).value;
      var r := DeleteUpload(s, id, DeleteFaults(None, false, Some(t)));
      && r.response.status == 500
      && k in r.store.uploads
      && ObjectKey(s.uploads[k].filename) !in r.store.bucket
  {
  }
}

=== FILE: utils.dfy ===
/**
 * The helpers of worker/src/utils.ts other than `generateSlug` (module Slug):
 * the response envelope, query-string pagination, upload validation and the
 * random file-name suffix.
 */
module Utils {
  import opened Wrappers
  import opened JsText

  // ---------------------------------------------------------------------------
  // Response envelope

  /** The JSON body every route returns: `{success, data?, error?}`. */
  datatype Envelope<T> = Envelope(success: bool, data: Option<T>, error: Option<string>)

  /** What a route hands back: an HTTP status and the envelope. */
  datatype Response<T> = Response(status: int, body: Envelope<T>)

  /** `createResponse(success, data, error, status)`: `data` is kept only on success
      and when defined, `error` only on failure and when non-empty; `status` is
      accepted and ignored. */
  function CreateResponse<T>(success: bool, data: Option<T>, error: Option<string>, status: int): (r: Envelope<T>)
    ensures r.success == success
    ensures r.data.Some? <==> success && data.Some?
    ensures r.data.Some? ==> r.data == data
    ensures r.error.Some? <==> !success && error.Some? && error.value != ""
    ensures r.error.Some? ==> r.error == error
  {
    Envelope(success,
             if success then data else None,
             if !success && error.Some? && error.value != "" then error else None)
  }

  /** The status argument has no effect on the envelope. */
  lemma {:induction false} CreateResponseIgnoresStatus<T>(success: bool, data: Option<T>, error: Option<string>, s1: int, s2: int)
    ensures CreateResponse(success, data, error, s1) == CreateResponse(success, data, error, s2)
  {
  }

  /** `c.json(createResponse(true, data), status)`. */
  function Succeed<T>(status: int, data: T): Response<T> {
    Response(status, CreateResponse(true, Some(data), None, 200))
  }

  /** `c.json(createResponse(false, null, message), status)`. */
  function Fail<T>(status: int, message: string): Response<T> {
    Response(status, CreateResponse(false, None, Some(message), 200))
  }

  // ---------------------------------------------------------------------------
  // Pagination query parameters

  /** `value || fallback` for an optional query string: undefined and `""` are falsy. */
  function OrElse(value: Option<string>, fallback: string): (r: string)
    ensures value.None? || value == Some("") ==> r == fallback
    ensures value.Some? && value.value != "" ==> r == value.value
  {
    if value.None? || value.value == "" then fallback else value.value
  }

  /** Truthiness of an optional string: undefined and `""` are falsy. */
  predicate Truthy(value: Option<string>) {
    value.Some? && value.value != ""
  }

  const DefaultPageSize: int := 20
  const MaxPageSize: int := 100

  datatype PageRequest = PageRequest(page: JsNum, pageSize: JsNum)

  /** `normalizePagination(page, pageSize)`: parse both, raise the page to at least 1
      and clamp the page size into [1, 100]. An unparsable value stays NaN, because
      `Math.max`/`Math.min` propagate NaN. */
  function NormalizePagination(page: Option<string>, pageSize: Option<string>): (r: PageRequest)
    ensures var p := ParseInt(OrElse(page, "1"));
      && (r.page.NaN? <==> p.NaN?)
      && (p.Num? ==> r.page.n >= 1 && (p.n >= 1 ==> r.page.n == p.n))
    ensures var q := ParseInt(OrElse(pageSize, "20"));
      && (r.pageSize.NaN? <==> q.NaN?)
      && (q.Num? ==> 1 <= r.pageSize.n <= MaxPageSize && (1 <= q.n <= MaxPageSize ==> r.pageSize.n == q.n))
    ensures var p := ParseInt(OrElse(page, "1"));
      p.Num? ==> r.page == Num(if p.n < 1 then 1 else p.n)
    ensures var q := ParseInt(OrElse(pageSize, "20"));
      q.Num? ==> r.pageSize == Num(if q.n < 1 then 1 else if q.n > MaxPageSize then MaxPageSize else q.n)
  {
    PageRequest(MaxNum(1, ParseInt(OrElse(page, "1"))),
                MinNum(MaxPageSize, MaxNum(1, ParseInt(OrElse(pageSize, "20")))))
  }

  /** Absent or empty parameters give page 1 of 20. */
  lemma {:induction false} NormalizePaginationDefaults(page: Option<string>, pageSize: Option<string>)
    requires page.None? || page == Some("")
    requires pageSize.None? || pageSize == Some("")
    ensures NormalizePagination(page, pageSize) == PageRequest(Num(1), Num(DefaultPageSize))
  {
    ParseIntDecimal(1);
    ParseIntDecimal(20);
    assert NatToDecimal(1) == "1";
    assert NatToDecimal(20) == "20";
  }

  /** Decimal parameters are clamped: the page to at least 1, the size into [1, 100]. */
  lemma {:induction false} NormalizePaginationDecimal(page: nat, pageSize: nat)
    ensures var r := NormalizePagination(Some(NatToDecimal(page)), Some(NatToDecimal(pageSize)));
      && r.page == Num(if page < 1 then 1 else page)
      && r.pageSize == Num(if pageSize < 1 then 1 else if pageSize > MaxPageSize then MaxPageSize else pageSize)
  {
    ParseIntDecimal(page);
    ParseIntDecimal(pageSize);
  }

  /** A page parameter with no digits is not clamped: it stays NaN. */
  lemma {:induction false} NormalizePaginationNaN()
    ensures NormalizePagination(Some("abc"), None).page.NaN?
    ensures NormalizePagination(None, Some("all")).pageSize.NaN?
  {
    assert DropWhile("abc", IsJsSpace) == "abc";
    assert DigitPrefix("abc", 10) == [];
    assert DropWhile("all", IsJsSpace) == "all";
    assert DigitPrefix("all", 10) == [];
  }

  // ---------------------------------------------------------------------------
  // Upload validation

  const AllowedTypes: seq<string> := ["image/jpeg", "image/jpg", "image/png", "image/webp", "image/svg+xml"]
  const AllowedExtensions: seq<string> := [".jpg", ".jpeg", ".png", ".webp", ".svg"]

  /** 5 MiB, the default `maxSize` of `validateFileSize`. */
  const MaxFileSize: int := 5 * 1024 * 1024

  predicate EndsWith(s: string, suffix: string) {
    |suffix| <= |s| && s[|s| - |suffix|..] == suffix
  }

  /** `filename.toLowerCase().substring(filename.lastIndexOf('.'))`: the lower-cased
      suffix from the last dot, or the whole lower-cased name when there is no dot. */
  function LowerExtension(filename: string): string {
    SubstringFrom(ToLower(filename), LastIndexOf(filename, '.'))
  }

  /** `validateFileType(filename, contentType)`. */
  predicate ValidateFileType(filename: string, contentType: string) {
    contentType in AllowedTypes && LowerExtension(filename) in AllowedExtensions
  }

  /** `validateFileSize(size)`: at most 5 MiB, inclusive. */
  predicate ValidateFileSize(size: int) {
    size <= MaxFileSize
  }

  lemma {:induction false} ExtensionsHaveOneLeadingDot(e: string)
    requires e in AllowedExtensions
    ensures |e| > 0 && e[0] == '.' && '.' !in e[1..]
  {
  }

  lemma {:induction false} LowerKeepsDots(s: string)
    ensures forall i :: 0 <= i < |s| ==> (ToLower(s)[i] == '.' <==> s[i] == '.')
  {
  }

  /** The type check holds exactly when the MIME type is listed (case-sensitively) and
      the lower-cased name ends with a listed extension. */
  lemma {:induction false} ValidateFileTypeIff(filename: string, contentType: string)
    ensures ValidateFileType(filename, contentType) <==>
      contentType in AllowedTypes && exists e :: e in AllowedExtensions && EndsWith(ToLower(filename), e)
  {
    var lower := ToLower(filename);
    var i := LastIndexOf(filename, '.');
    LowerKeepsDots(filename);
    var ext := LowerExtension(filename);
    if ext in AllowedExtensions {
      assert EndsWith(lower, ext);
    }
    if e :| e in AllowedExtensions && EndsWith(lower, e) {
      ExtensionsHaveOneLeadingDot(e);
      var p := |lower| - |e|;
      assert filename[p] == '.';
      forall j | p < j < |filename| ensures filename[j] != '.' {
        assert lower[j] == e[j - p] && e[j - p] in e[1..];
      }
      assert i == p;
      assert ext == e;
    }
  }

  /** A file name without a dot is always rejected. */
  lemma {:induction false} NoDotRejected(filename: string, contentType: string)
    requires '.' !in filename
    ensures !ValidateFileType(filename, contentType)
  {
    ValidateFileTypeIff(filename, contentType);
    if e :| e in AllowedExtensions && EndsWith(ToLower(filename), e) {
      ExtensionsHaveOneLeadingDot(e);
      LowerKeepsDots(filename);
      assert filename[|filename| - |e|] == '.';
    }
  }

  /** The size bound is inclusive: exactly 5 MiB passes, one byte more does not. */
  lemma {:induction false} FileSizeBoundary()
    ensures ValidateFileSize(5242880) && !ValidateFileSize(5242881)
  {
  }

  // ---------------------------------------------------------------------------
  // Random file-name suffix

  /** The 62 characters of `generateRandomString`: A-Z, then a-z, then 0-9. */
  function AlphabetChar(k: nat): (c: char)
    requires k < 62
    ensures IsAsciiAlnum(c)
  {
    if k < 26 then ('A' as int + k) as char
    else if k < 52 then ('a' as int + k - 26) as char
    else ('0' as int + k - 52) as char
  }

  /** The position of a letter or digit in that alphabet. */
  function AlphabetIndex(c: char): (k: nat)
    requires IsAsciiAlnum(c)
    ensures k < 62 && AlphabetChar(k) == c
  {
    if IsAsciiUpper(c) then c as int - 'A' as int
    else if IsAsciiLower(c) then c as int - 'a' as int + 26
    else c as int - '0' as int + 52
  }

  /** `generateRandomString(n)` given the n draws `Math.floor(Math.random() * 62)`
      the loop makes, one per character. */
  function RandomString(draws: seq<nat>): (r: string)
    requires forall i :: 0 <= i < |draws| ==> draws[i] < 62
    ensures |r| == |draws|
    ensures forall i :: 0 <= i < |r| ==> IsAsciiAlnum(r[i]) && r[i] == AlphabetChar(draws[i])
  {
    seq(|draws|, i requires 0 <= i < |draws| => AlphabetChar(draws[i]))
  }

  /** Every string of ASCII letters and digits is a possible result, so the
      alphabet is exactly `[A-Za-z0-9]`. */
  lemma {:induction false} RandomStringOnto(s: string)
    requires forall i :: 0 <= i < |s| ==> IsAsciiAlnum(s[i])
    ensures exists draws: seq<nat> ::
      (forall i :: 0 <= i < |draws| ==> draws[i] < 62) && RandomString(draws) == s
  {
    var draws := seq(|s|, i requires 0 <= i < |s| => AlphabetIndex(s[i]));
    assert RandomString(draws) == s;
  }
}

=== FILE: wrappers.dfy ===
/** Failure-compatible wrappers shared by every module of the model. */
module Wrappers {

  /** An optional value; `None` stands for a JavaScript `undefined` (or absent) field. */
  datatype Option<+T> = None | Some(value: T) {

    /** The wrapped value, or `default` when absent. */
    function GetOr(default: T): T {
      match this
      case Some(v) => v
      case None => default
    }
  }

  /** The outcome of a store call or a computation that can fail with a message. */
  datatype Result<+T> = Ok(value: T) | Err(error: string) {

    predicate IsFailure() {
      Err?
    }

    function PropagateFailure<U>(): Result<U>
      requires Err?
    {
      Err(error)
    }

    function Extract(): T
      requires Ok?
    {
      value
    }
  }
}
